=== FILE: README.md ===
# Automation-Test: a Dafny model of the task pipeline

Automation-Test is a small Flask service that runs pytest suites against
Android devices. It lists the devices that `adb` sees and the pytest files
under the configured suite directory. A start request turns into a task
record. A background thread then acquires the device through a
`Uiautomator` wrapper, runs pytest, generates an Allure HTML report and
merges the outcome into the record. A status route reports on the record,
and two report routes look up a task's HTML directory and serve files from
it behind a path-containment check.

This project models that core in Dafny, one module per source file:

| module | source file | what it holds |
|---|---|---|
| `Config` | conf/__init__.py | `load_config`: the missing-file and parse errors, the environment overrides, the `int()` port, anchoring relative paths at the project root |
| `PathUtil` | util/path_util.py | `safe_join` and its string-prefix containment test |
| `FileSystem` | util/path_util.py, core/test_executor.py | existence, `rmtree`, `makedirs` and `ensure_dir_exists` on a map from paths to kinds |
| `Uiautomator` | core/uiautomator.py | device bring-up (online check, `uiautomator2 init`, version query), `screen_on`, `press`, `check_text_exists`, `click`, with the `adb` commands each issues |
| `DeviceManager` | core/device_manager.py | the parse of `adb devices`, the instance cache, `release_device` |
| `TestExecutor` | core/test_executor.py | the per-task directories, `prepare`, the pytest and allure commands, report generation, `execute` and its two result shapes |
| `TestRoutes` | app/routes/test.py | task ids, the suite walk and listing, `start_test`, `get_task_status`, `run_task_background` on the task registry |
| `ReportRoutes` | app/routes/report.py | `get_report` and `get_report_file` |
| `DeviceRoutes` | app/routes/device.py | `get_device` and `get_device_list` |

Three support modules give the Python semantics these rely on:
- `PyStr`: `strip`, `split`, `splitlines`, `join`, `replace`, `int()` and `str()` on `seq<char>`.
- `PosixPath`: `os.path.join`, `normpath` (including the POSIX rule that exactly two leading slashes are kept), `abspath` and `relpath`.
- `PyValue`: dictionaries and JSON values, exceptions as a `Result` datatype, and route responses.

Everything the code asks of the outside world is a parameter of the model:
- `os.getcwd()`;
- the environment;
- whether a file exists, and the parsed YAML;
- the outcome of every subprocess, as a `Run` (completed with a return code and output, or raised);
- the clock reading and the `uuid4()` text;
- the directory listing of `os.walk`;
- the file system, as a map from paths to kinds;
- whether `Thread.start()` succeeds.

The background thread is modelled as a function that is applied to the
registry, the device cache and the file system after `start_test` has
returned. It runs the device acquisition, the executor's construction and
its `execute()` itself. Their outside inputs come bundled as
`Surroundings`.

Two behaviours follow the code rather than its comments:
- `get_task_id` documents a millisecond timestamp. The code keeps only the first 13 characters of `%Y%m%d%H%M%S%f`, which is the minute plus the tens digit of the seconds. `TestRoutes.TaskId` does the same, and `TaskIdTenSeconds` shows that two readings in the same ten-second window give the same id when the uuid prefix agrees.
- `safe_join` documents protection against path traversal, but the check it makes is a string prefix: `PathUtil.SafeJoinAcceptsSibling` shows that `../ab` is accepted below a directory `/…/a`. `get_report_file` makes the same prefix test of its own, and `ReportRoutes.ContainedAcceptsSibling` shows that `../ab` passes it. The route still serves no sibling file. It hands the name to `send_from_directory`, whose own check refuses a name that normalises to `..` or `../…` with a 404.

`execute()` never stores an `allure_html_dir` in a task record, so both
report routes answer "not found" for every task the service itself created
(`ReportRoutes.ReportsNeverFound`).

## Model

| member | source | states |
|---|---|---|
| `PyValue.Get` | app/routes/test.py:110-111 | `d.get(key)` is the stored value when the key is present and `None` otherwise |
| `PyStr.StripSlice` | core/uiautomator.py:47 | `strip()` returns a contiguous slice of its input, and everything it removes on either side is whitespace |
| `PyStr.StripPadded` | core/uiautomator.py:47 | whitespace around a trimmed, non-empty word is exactly what `strip()` removes |
| `PyStr.SplitLines` | app/routes/device.py:12-14 | no returned line holds a line boundary, and the result is empty exactly when the text is empty |
| `PyStr.SplitLinesCons` | app/routes/device.py:12-14 | a line without boundaries followed by `\n` splits off as exactly that line, and a non-empty text without boundaries is one line |
| `PyStr.SplitLinesTerminated` | app/routes/device.py:12-14 | round trip: the lines of a text whose lines are each followed by `\n` are the lines it was built from |
| `PyStr.JoinSplit` | core/device_manager.py:29-36 | joining the parts of a split with the same separator gives back the string |
| `PyStr.SplitJoin` | core/device_manager.py:29-36 | splitting a join of parts free of the separator gives back the parts |
| `PyStr.SplitOnNoSep` | core/device_manager.py:36 | no part of a split holds the separator |
| `PyStr.FirstWordPadded` | app/routes/device.py:16 | `split()[0]` of a line made of leading whitespace, a word, and whitespace or nothing after it is that word |
| `PyStr.IntRoundTrip` | conf/__init__.py:32 | `int(str(i)) == i` for every integer |
| `PyStr.DigitsInjective` | app/routes/test.py:23 | distinct numbers below `10^w` have distinct zero-padded `w`-digit forms |
| `PosixPath.Join2` | util/path_util.py:16 | `os.path.join` drops the base at an absolute segment; a relative segment extends an absolute base, which stays a prefix |
| `PosixPath.JoinPathAppend` | util/path_util.py:16 | joining several segments at once is joining them one group after another |
| `PosixPath.AbsoluteSegmentResets` | util/path_util.py:16 | an absolute segment discards the base and every segment joined before it |
| `PosixPath.LeadingSlashes` | util/path_util.py:15-16 | `normpath` keeps at most two leading slashes, and keeps one or more exactly when the path is absolute |
| `PosixPath.ResolveNoParent` | util/path_util.py:15-16 | components without `..` survive normalisation in order, minus the empty and `.` ones |
| `PosixPath.NormpathNormal` | util/path_util.py:15-16 | the `normpath` of an absolute path is in normal form: clean components under one or two leading slashes |
| `PosixPath.NormpathFixed` | util/path_util.py:15-16 | a path already in normal form is its own `normpath` |
| `PosixPath.NormpathIdempotent` | util/path_util.py:15-16 | `normpath(normpath(p)) == normpath(p)` for an absolute `p` |
| `PosixPath.NormpathDescends` | util/path_util.py:16-19 | a relative segment without `..` joined onto a normal path normalises to an extension of that path, and to the path itself when it holds only `.` and empty components |
| `PosixPath.NormpathParentThen` | util/path_util.py:16-19 | `/P/../y` normalises to `P` without its last component, followed by `y` |
| `PosixPath.Abspath` | util/path_util.py:15 | `abspath` always yields a path in normal form |
| `PosixPath.AbspathOfNormal` | util/path_util.py:15 | the `abspath` of a path in normal form is that path, whatever the working directory |
| `PathUtil.SafeJoin` | util/path_util.py:7-21 | the result is the normalised join, accepted exactly when the normalised base is a string prefix of it, and otherwise a `ValueError` |
| `PathUtil.SafeJoinSameBase` | util/path_util.py:15-21 | two bases with the same `abspath` give the same verdict and the same path |
| `PathUtil.SafeJoinNoSegments` | util/path_util.py:15-21 | with no segments the result is the normalised base |
| `PathUtil.SafeJoinDotOnly` | util/path_util.py:15-21 | a segment made only of `.` and empty components gives back the normalised base |
| `PathUtil.SafeJoinDescends` | util/path_util.py:15-21 | every relative segment without `..` components is accepted |
| `PathUtil.NormpathAppendClean` | util/path_util.py:16 | a normal path joined with one clean component is already normal: the path, a slash and the component, or just the root and the component |
| `PathUtil.SafeJoinClean` | util/path_util.py:15-21 | `safe_join` of a normal base and one clean component is that base, a slash and the component |
| `PathUtil.SafeJoinAbsoluteSegment` | util/path_util.py:16-21 | an absolute segment discards everything before it, and the verdict depends only on where it and the later segments lead |
| `PathUtil.SafeJoinParentSegment` | util/path_util.py:16-21 | `../y` below a base `/…/a` is accepted exactly when `a` is a string prefix of `y`, and lands on the sibling `/…/y` |
| `PathUtil.SafeJoinAcceptsSibling` | util/path_util.py:19-21 | the prefix test accepts a sibling directory whose name extends the base's last component, although it is not below the base |
| `FileSystem.RemoveTree` | core/test_executor.py:34-35 | `rmtree(p)` removes exactly `p` and what lies below it, and leaves every other entry as it was |
| `FileSystem.MakeDirs` | util/path_util.py:26-27 | `makedirs(p)` makes `p` exist, keeps every existing entry, and adds nothing but `p` and its ancestors |
| `FileSystem.EnsureDirExists` | util/path_util.py:24-27 | an existing path leaves the file system unchanged; a missing one is created as a directory along with nothing but its ancestors |
| `Uiautomator.Online` | core/uiautomator.py:47 | a finished `get-state` is judged online exactly when its return code is 0 and its output is `device` with only whitespace around it |
| `Uiautomator.OnlinePadded` | core/uiautomator.py:41-49 | return code 0 with `device` surrounded by any whitespace is judged online |
| `Uiautomator.OnlineNeedsDevice` | core/uiautomator.py:47 | an online verdict needs return code 0 and `device` in the output |
| `Uiautomator.BringUp` | core/uiautomator.py:17-107 | an instance comes up, initialised, exactly when the device is online and `init` and the version query both return 0; each failure raises its own error and stops the later commands |
| `Uiautomator.BringUpIgnoresVersionText` | core/uiautomator.py:82-107 | the version query's output is never compared with the configured version: only its return code matters |
| `Uiautomator.BringUpOnlineDevice` | core/uiautomator.py:17-49 | a device answering `device` passes the online check, and bring-up then depends on `init` and the version query alone |
| `Uiautomator.ScreenOn` | core/uiautomator.py:110-123 | an uninitialised device raises `RuntimeError` and issues nothing; otherwise it sends keycode 224 and answers whether the command ran |
| `Uiautomator.Press` | core/uiautomator.py:125-140 | an unknown key answers false with no command; a known key sends its keycode from the table |
| `Uiautomator.PressKeyCodes` | core/uiautomator.py:110-140 | home, back and power send keycodes 3, 4 and 224; on an initialised device, pressing power is `screen_on` |
| `Uiautomator.CheckTextExists` | core/uiautomator.py:142-163 | the answer is true exactly when the dump and pull commands complete, the dump file is read, and the text occurs in it; the pull is issued only after the dump completed |
| `Uiautomator.CheckTextFindsOccurrence` | core/uiautomator.py:142-163 | text that occurs anywhere in the dump is found |
| `Uiautomator.Click` | core/uiautomator.py:165-179 | non-integer coordinates answer false with no command; integers issue one tap with their decimal forms |
| `Uiautomator.ClickCoordinatesRoundTrip` | core/uiautomator.py:165-179 | the tap command's coordinate arguments parse back to the given integers |
| `DeviceManager.NonBlank` | core/device_manager.py:29 | the kept lines are non-empty and no more numerous than the input lines |
| `DeviceManager.NonBlankConcat` | core/device_manager.py:29 | the filter distributes over concatenation, and a single line is kept as its stripped form or dropped when that is empty, so the result is the stripped non-blank lines in order |
| `DeviceManager.AtxVersion` | core/device_manager.py:50-60 | a failed or non-zero version query, timeout included, gives `unknown`; a successful one gives its output with the surrounding whitespace cut off |
| `DeviceManager.GetDeviceList` | core/device_manager.py:16-47 | the loop computes the reference list; a failed `adb devices` or at most a header line gives `[]`; every listed device is `online` |
| `DeviceManager.Collect` | core/device_manager.py:35-47 | reference definition of the list the loop must produce; a produced list has at most one entry per line, and every entry is `online` |
| `DeviceManager.CollectNoneSticks` | core/device_manager.py:35-47 | once a line fails to unpack into two fields, no later line can rescue the list |
| `DeviceManager.CollectDefinedIff` | core/device_manager.py:35-47 | a list is produced exactly when every line after the header has two tab-separated fields |
| `DeviceManager.CollectSound` | core/device_manager.py:35-42 | every listed device comes from a line `id<TAB>device`, with its own id and its version probe |
| `DeviceManager.CollectComplete` | core/device_manager.py:35-42 | every line `id<TAB>device` after the header is listed |
| `DeviceManager.CollectInOrder` | core/device_manager.py:35-42 | the listed devices are exactly the `id<TAB>device` lines, one entry each, in the order of the lines |
| `DeviceManager.Acquire` | core/device_manager.py:63-85 | an initialised cached instance is reused with no command; otherwise the device is brought up and, on success, cached under its id; a failure leaves the cache unchanged |
| `DeviceManager.AcquirePreservesValid` | core/device_manager.py:63-85 | acquiring keeps every cached instance under its own id, and a new instance is distinct from all cached ones |
| `DeviceManager.Release` | core/device_manager.py:88-93 | the id is dropped from the cache and every other entry is kept as it was |
| `DeviceManager.ReleaseProperties` | core/device_manager.py:88-93 | releasing keeps the cache valid, and releasing twice is releasing once |
| `DeviceManager.ReleaseForcesConstruction` | core/device_manager.py:63-93 | after a release, the next acquire of that id brings the device up again |
| `DeviceRoutes.Entries` | app/routes/device.py:16 | the list has one element per line, and a blank line raises `IndexError` |
| `DeviceRoutes.EntriesContents` | app/routes/device.py:16 | the list is built exactly when no line is blank, and element `k` is numbered `k` and carries the first word of line `k` |
| `DeviceRoutes.GetDeviceList` | app/routes/device.py:19-24 | empty output answers 400 with an empty list; a blank line escapes as an exception; otherwise 200 with one element per line |
| `DeviceRoutes.GetDevice` | app/routes/device.py:9-16 | the list is built exactly when no output line is blank, has one element per output line, and element `k` is numbered `k` and carries the first word of line `k`; a blank line raises `IndexError` |
| `DeviceRoutes.ListsSerials` | app/routes/device.py:9-16 | an output made of newline-terminated `serial<TAB>device` lines is listed as its serials, numbered in order |
| `ReportRoutes.ReportDir` | app/routes/report.py:17-18 | a directory is found exactly when the task exists and has a truthy `allure_html_dir` |
| `ReportRoutes.GetReport` | app/routes/report.py:13-32 | a missing directory answers 400; code 200 comes exactly when the directory is found, is not a list or dict, and exists, and it carries the directory and the access url |
| `ReportRoutes.GetReportFile` | app/routes/report.py:35-53 | the route answers `send_from_directory(dir, filename)` exactly when the directory is a string, the file passes the route's containment test, and it exists; otherwise 404, 403 or 404 in that order |
| `ReportRoutes.ContainedIsSafeJoin` | app/routes/report.py:45-48 | for a normal directory the route's containment test is `safe_join`'s acceptance of the file name |
| `ReportRoutes.ContainedWithoutParent` | app/routes/report.py:45-48 | a file name without `..` components always passes the containment test |
| `ReportRoutes.ContainedAcceptsSibling` | app/routes/report.py:45-48 | the test accepts `../ax` below `/…/a`, which resolves outside the directory |
| `ReportRoutes.ReportsNeverFound` | app/routes/report.py:13-53 | while no task record holds `allure_html_dir`, both routes answer that the report is missing |
| `TestExecutor.Place` | core/test_executor.py:25-26 | `safe_join` of a normal task directory and a fixed report directory name succeeds, is normal, and is the plain join |
| `TestExecutor.NewExecutor` | core/test_executor.py:14-27 | construction keeps the ids and suite path; the task directory lies under the report root; the raw and html directories lie directly inside it and the log under it; the only failure is a `ValueError` |
| `TestExecutor.NewExecutorCleanId` | core/test_executor.py:23-27 | a task id that is one clean path component is always accepted and yields the well-formed layout |
| `TestExecutor.TaskDirLayout` | core/test_executor.py:24-27 | below a task directory, the raw directory, the html directory and the log file are that directory, a slash and their names |
| `TestExecutor.Cleanup` | core/test_executor.py:33-40 | the raw and html directories exist afterwards; entries outside the task directory are kept; nothing new appears beyond them and their ancestors |
| `TestExecutor.Prepare` | core/test_executor.py:29-47 | prepare succeeds exactly when the suite path is a file after cleanup; a missing suite raises `FileNotFoundError`, a non-file raises `ValueError` |
| `TestExecutor.CleanupClearsTaskDir` | core/test_executor.py:33-40 | when the task directory existed, only it and the two report directories remain within it |
| `TestExecutor.PrepareSuiteInsideTaskDir` | core/test_executor.py:33-47 | a suite stored inside an existing task directory is deleted by the cleanup, and prepare then reports it missing |
| `TestExecutor.CleanupRemovesLog` | core/test_executor.py:33-40 | a previous run's log does not survive the cleanup |
| `TestExecutor.LogDistinct` | core/test_executor.py:24-27 | the log file is neither the task directory nor a report directory |
| `TestExecutor.PytestCmd` | core/test_executor.py:55-72 | pytest is given the suite path and the configured timeout, and the subprocess waits 60 seconds longer |
| `TestExecutor.AllureArgv` | core/test_executor.py:91-98 | no argument left after the filter is empty |
| `TestExecutor.AllureArgvShape` | core/test_executor.py:91-98 | the arguments are the fixed list, and `--clean` is passed exactly when configured |
| `TestExecutor.GenerateReport` | core/test_executor.py:86-117 | the index page is returned exactly when allure returns 0 and the page exists; a non-zero return raises `RuntimeError` with the first 500 characters of stderr |
| `TestExecutor.IndexPage` | core/test_executor.py:112 | `safe_join(html_dir, "index.html")` never raises and is the plain join |
| `TestExecutor.ErrorMessage` | core/test_executor.py:140-145 | a timeout gives the timeout message with the configured seconds; any other exception gives the first 500 characters of its text, or all of it when shorter |
| `TestExecutor.FailResult` | core/test_executor.py:149-156 | the failure record has exactly four keys, its status is `failed: ` and the message, and its log path is set only when the log exists |
| `TestExecutor.SuccessResult` | core/test_executor.py:131-139 | the success record has exactly seven keys; its status is `success` exactly for return code 0; it carries the html directory and log path |
| `TestExecutor.Execute` | core/test_executor.py:119-147 | a failed prepare, a raising pytest run or a failed report each give a failure record, and any other run a success record; no command is issued after a failed prepare, no allure run after a raising pytest, and the log is written only once pytest completed |
| `TestExecutor.ExecuteStatus` | core/test_executor.py:131-132 | the status is `success` exactly when prepare passed, pytest returned 0 and the report was generated, and `success_with_failure` exactly when the same holds with a non-zero pytest return code |
| `TestExecutor.ExecuteRecordShape` | core/test_executor.py:119-156 | every result is a success record or a failure record |
| `TestExecutor.AllureFailureMessage` | core/test_executor.py:109-145 | a failing allure run records its prefix and as much of stderr as fits in 500 characters |
| `TestExecutor.FailureLogPath` | core/test_executor.py:149-156 | when the task directory existed, a failure before pytest completes records no log path (no stale log survives), and a failure after it records the log that run wrote |
| `TestRoutes.Stamp` | app/routes/test.py:23 | the timestamp is 20 decimal digits |
| `TestRoutes.TaskId` | app/routes/test.py:21-25 | the id is the first 13 timestamp characters and `_` followed by at most four more |
| `TestRoutes.TaskIdFormat` | app/routes/test.py:21-25 | with a uuid4 text, the id is 18 characters: 13 digits, `_`, and the uuid's first four hex digits |
| `TestRoutes.UuidPrefix` | app/routes/test.py:24 | removing the dashes keeps the uuid's first group, so its first four digits are the uuid's first four characters |
| `TestRoutes.TimePartFields` | app/routes/test.py:23 | the time part is year, month, day, hour, minute and the tens digit of the seconds |
| `TestRoutes.TaskIdTenSeconds` | app/routes/test.py:21-25 | with the same uuid, two readings give the same id exactly when they agree to the minute and the tens of seconds |
| `TestRoutes.PickIn` | app/routes/test.py:42-43 | the kept names are suite files of that directory |
| `TestRoutes.Pick` | app/routes/test.py:41-43 | every kept name ends in `.py` and is not `conftest.py` |
| `TestRoutes.PickSound` | app/routes/test.py:41-43 | every kept file is a suite file of some walked directory |
| `TestRoutes.PickComplete` | app/routes/test.py:41-43 | every suite file of every walked directory is kept |
| `TestRoutes.Number` | app/routes/test.py:44-51 | a produced list has one element per kept file |
| `TestRoutes.NumberContents` | app/routes/test.py:44-51 | the list is produced exactly when no kept file's path computation raises; element `k` has id `k` and the name and paths of file `k` |
| `TestRoutes.TestSuites` | app/routes/test.py:28-58 | a failing walk or path computation gives `[]`; otherwise one suite per kept file |
| `TestRoutes.TestSuitesNumbered` | app/routes/test.py:39-51 | ids are positions in the list, and every listed name passed the filter |
| `TestRoutes.LocateClean` | app/routes/test.py:44-45 | a file name that is one clean component is placed directly in its normalised directory |
| `TestRoutes.TestSuitesOfCleanWalk` | app/routes/test.py:41-51 | with file names as `os.walk` gives them, every kept file is listed at its joined path |
| `TestRoutes.SuiteListReply` | app/routes/test.py:83-101 | the listing always answers 200, with the count in the message and one dict per suite in order |
| `TestRoutes.SuiteListIds` | app/routes/test.py:89-93 | the `id` of every listed element is its position |
| `TestRoutes.PendingRecord` | app/routes/test.py:127-133 | a new record has exactly the five launcher keys, status `pending`, and the task and device ids |
| `TestRoutes.StartTest` | app/routes/test.py:104-155 | a thread is launched exactly when the reply is 200; the registry changes at most in the new task's entry, which is then a pending record; an accepted reply carries the new id |
| `TestRoutes.StartValidationOrder` | app/routes/test.py:109-122 | a missing device id is reported before a missing suite id, which comes before an out-of-range suite id, and none of these touches the registry |
| `TestRoutes.StartAccepts` | app/routes/test.py:119-147 | a valid request stores the pending record of the chosen suite under the new id and launches it exactly when the thread starts |
| `TestRoutes.StartPreservesNoReportDir` | app/routes/test.py:104-155 | starting never stores an `allure_html_dir` in the registry |
| `TestRoutes.GetTaskStatus` | app/routes/test.py:158-186 | an unknown or empty task answers 404; otherwise 200 with the record; a truthy `report_path` adds `report_url`, and nothing else in the registry changes |
| `TestRoutes.GetTaskStatusIdempotent` | app/routes/test.py:158-178 | asking twice gives the same answer and leaves the registry as the first query did |
| `TestRoutes.StartThenStatus` | app/routes/test.py:104-178 | right after an accepted start, the new task is found, pending, and unchanged by the query |
| `TestRoutes.PendingFound` | app/routes/test.py:158-178 | a pending record is found and has no report url yet |
| `TestRoutes.StatusPreservesNoReportDir` | app/routes/test.py:158-186 | a status query never stores an `allure_html_dir` |
| `TestRoutes.Running` | app/routes/test.py:64-65 | marking a record running sets its status and start time and keeps every other field |
| `TestRoutes.RunTaskBackground` | app/routes/test.py:61-79 | an unknown task raises `KeyError` and leaves registry, device cache and files untouched; otherwise the device acquired from the cache as it was is released on every path, only this task's record changes, the run fails exactly when acquiring the device or building the executor raised, and a completed run merges the executor's result record over the running record |
| `TestRoutes.Settle` | app/routes/test.py:64-79 | past the lookup, the record is marked running, the device released, and the first raising step's exception escapes; otherwise the result record is merged |
| `TestRoutes.RunTaskKeepsIdentity` | app/routes/test.py:61-79 | the background run never overwrites the fields the launcher wrote, keeps the start time, and leaves the status other than `pending` |
| `TestRoutes.ResultRecordFields` | core/test_executor.py:131-156 | a result record has a status other than `pending` and none of the launcher's fields |
| `TestRoutes.ExecuteStepShape` | app/routes/test.py:72-76 | the executor built for the thread has a normalised absolute report directory, and the record its run returns is a result record without `allure_html_dir` |
| `TestRoutes.RunTaskPreservesNoReportDir` | app/routes/test.py:61-79 | the background run never stores an `allure_html_dir` |
| `TestRoutes.SuccessfulRunReports` | core/test_executor.py:122-139 | a run whose suite, pytest and allure steps went through records a non-empty report path |
| `TestRoutes.ReportedRunGetsUrl` | app/routes/test.py:61-178 | a task whose device came up, whose executor was built, and whose pytest and allure runs and index page all came through keeps a truthy report path and is answered with its report url when next queried |
| `Config.Subscript` | conf/__init__.py:26-32 | `v[key]` succeeds exactly on a dict holding the key; a missing key raises `KeyError`, a non-dict raises `TypeError` |
| `Config.IntOf` | conf/__init__.py:32 | `int()` keeps an int or bool, succeeds on a string exactly when it is a decimal literal and then gives its value, and raises `TypeError` for anything else |
| `Config.GetEnv` | conf/__init__.py:26-32 | `os.getenv` gives the environment's value when set and the default otherwise |
| `Config.Override` | conf/__init__.py:26-31 | one override succeeds exactly when the section is a dict holding the key, and replaces only that key |
| `Config.Overridden` | conf/__init__.py:26-31 | both overrides keep the section's keys and other entries, and each overridden entry comes from the environment when set |
| `Config.OverridePaths` | conf/__init__.py:26-31 | the overrides succeed exactly when `path` is a dict holding both directory keys |
| `Config.WebPort` | conf/__init__.py:32 | the port is `int()` of `WEB_PORT` when set and of the file's port otherwise, and needs `web` to be a dict with a port |
| `Config.RStripSlash` | conf/__init__.py:35 | the result is a prefix of the text without a trailing `/`, and only `/` characters were cut off |
| `Config.Dirname` | conf/__init__.py:35 | the parent is a prefix of the path, and an absolute path has an absolute parent |
| `Config.Absolutize` | conf/__init__.py:36-41 | every entry ends up absolute, and an absolute entry is kept as it is |
| `Config.AbsolutizePaths` | conf/__init__.py:36-41 | the loop succeeds exactly when every entry is a string, and keeps the keys while making each entry absolute |
| `Config.AbsolutizeIgnoresCwd` | conf/__init__.py:35-41 | below an absolute root, a relative entry is the normalised join with the root, independent of the working directory |
| `Config.AbsolutizePathsIgnoresCwd` | conf/__init__.py:36-41 | the whole loop does not depend on the working directory |
| `Config.LoadConfig` | conf/__init__.py:15-43 | a missing file raises `FileNotFoundError` with its path; a parse failure raises `RuntimeError` with its text; a loaded configuration is a dict parsed from an existing file |
| `Config.Normalize` | conf/__init__.py:25-43 | a normalised configuration is a dict produced from a dict |
| `Config.NormalizeParts` | conf/__init__.py:25-43 | normalising succeeds exactly when `path` and `web` hold what the overrides, the port and the loop need, and the result replaces only those two sections |
| `Config.LoadedValid` | conf/__init__.py:15-43 | a loaded configuration keeps the file's sections, changes only `path` and `web`, holds absolute strings in `path` and an int port |
| `Config.LoadConfigIgnoresCwd` | conf/__init__.py:10-43 | loading does not depend on the directory the program was started from |
| `Config.NormalizeIgnoresCwd` | conf/__init__.py:25-43 | below an absolute root, normalising does not depend on the working directory |
| `Config.PathOverrides` | conf/__init__.py:26-41 | each overridable directory is the environment's value when set and the file's otherwise, made absolute against the project root |
| `Config.PortOverride` | conf/__init__.py:32 | with `WEB_PORT` set, a load succeeds only when it parses as an integer and then uses it; `str(n)` loads as `n` |
| `Config.PathsStable` | conf/__init__.py:26-41 | overriding and anchoring an already anchored `path` section changes nothing |
| `Config.PortStable` | conf/__init__.py:32 | coercing a coerced port again gives the same port |
| `Config.NormalizeIdempotent` | conf/__init__.py:25-43 | normalising a normalised configuration changes nothing |
| `Config.LoadConfigIdempotent` | conf/__init__.py:15-43 | a loaded configuration, parsed again under the same environment, loads to itself |

## Left out

- Subprocess streaming, logging (`LogUtil`, `TempLog`) and the log file's contents: `run_pytest` writes them, and nothing in the model depends on them.
- `time.sleep` and waiting in the device code: time is not modelled.
- Threads and races: the background run is applied as one step after `start_test` returns, so interleavings on `test_tasks` and the cache are not modelled.
- The `WeakValueDictionary` of the device cache is modelled as an ordinary map. Under CPython's reference counting the entry disappears as soon as the instance `run_task_background` discards is dropped (app/routes/test.py:69); the model keeps it until `release_device`, which always follows on the same thread, so nothing observable differs.
- `yaml_util.load_yaml` and util/log_util.py are not part of this model: the parsed YAML is a parameter, and YAML anchors that share one object between sections are not modelled.
- Floats in JSON and YAML values: the value type has no floats.
- `int()` on strings with `_` separators or non-ASCII digits: `PyStr.ParseInt` accepts only ASCII digits with optional sign and surrounding whitespace.
- Exception texts that quote a value with `repr` are modelled for string and key values only.
- The module-level `GlobalConfig` assignment in conf/__init__.py, with its print and re-raise: the model takes the loaded configuration as `Settings` and as parameters.
- TestExecutor.Settings: the `test` section is taken as present and typed, with an integer `pytest_timeout` and a boolean `allure_clean`. The code reads both values unchecked (core/test_executor.py:63, 72, 95, 141). A missing section or key raises `KeyError` at :63 or :95, and a string timeout raises `TypeError` at :72. The handler at :144-147 turns each of these into a `failed: …` record, which `Execute` does not produce.
- Config.Dirname: its contract states only that the parent is a prefix of the path and that an absolute path has an absolute parent, not the full `os.path.dirname` result.
- Config.AbsolutizePaths: `os.path.isabs` raises `TypeError` for a non-string entry, and the model keeps only the message's leading text.
- TestRoutes.Stamp: requires a four-digit year (1000 to 9999); the formatting of earlier years depends on the platform's `strftime`.
- TestRoutes.TestSuites: the `makedirs` for a missing suite directory and the directory's source (`current_app.config`) are folded into the `listing` parameter.
- PosixPath.RelPath: the relative path stored in each suite is computed, but no property beyond its error case is proved about it.
- The `except` branch of `get_test_suite_list` cannot be reached, because `get_test_suites` catches every exception itself; `SuiteListReply` has only the 200 reply.
- TestRoutes.RunTaskBackground: modelled for string device ids only. `start_test` stores and launches any truthy device id, but the device cache is keyed by strings in this model.
- Failures of file system operations themselves (`rmtree`, `makedirs`, `open` raising for permissions) are not modelled.
- `send_from_directory` internals: `SendFile(dir, filename)` stands for the call, not for a served file. The call answers 404 by itself for a name that normalises to `..` or starts with `../`, and for a path that is not a regular file (`os.path.exists` at app/routes/report.py:49 is also true for a directory).
- `get_report` on an int or bool `allure_html_dir`: `os.path.exists` would treat it as a file descriptor; `dirExists` is the answer, whatever its kind.
- The platform-specific shell command of `get_device` (`findstr` or `grep`): its standard output is the parameter.

=== FILE: config.dfy ===
/** `load_config()` of conf/__init__.py: the checks before parsing, the
    environment overrides, the port coercion and the normalisation of the
    `path` entries. Whether the file exists, what the YAML parser returns
    and the environment are parameters; the parsed document is a `Py`
    value. */
module Config {
  import opened PyStr
  import opened PyValue
  import opened PosixPath

  /** The index of the last `/` in `p`, or -1. */
  function LastSlash(p: string): (i: int)
    ensures -1 <= i < |p|
    ensures i >= 0 ==> p[i] == '/'
    ensures forall k :: i < k < |p| ==> p[k] != '/'
  {
    if p == [] then -1
    else if p[|p| - 1] == '/' then |p| - 1
    else LastSlash(p[..|p| - 1])
  }

  /** `s.rstrip('/')`. */
  function RStripSlash(s: string): (r: string)
    ensures r <= s
    ensures r == [] || r[|r| - 1] != '/'
    ensures forall k :: |r| <= k < |s| ==> s[k] == '/'
  {
    if s == [] || s[|s| - 1] != '/' then s else RStripSlash(s[..|s| - 1])
  }

  /** `os.path.dirname(p)`: everything before the last `/`, with trailing
      slashes removed unless it is all slashes. */
  function Dirname(p: string): (r: string)
    ensures r <= p
    ensures IsAbs(p) ==> IsAbs(r)
  {
    var head := p[..LastSlash(p) + 1];
    if head != [] && (exists k :: 0 <= k < |head| && head[k] != '/') then
      var r := RStripSlash(head);
      assert r != [] by {
        var k :| 0 <= k < |head| && head[k] != '/';
      }
      r
    else head
  }

  /** `v[key]` for a string key. */
  function Subscript(v: Py, key: string): (r: Result<Py>)
    ensures r.Ok? <==> v.PDict? && key in v.entries
    ensures r.Ok? ==> r.value == v.entries[key]
    ensures v.PDict? && key !in v.entries ==> r == Raise(Exc(KeyError, "'" + key + "'"))
    ensures !v.PDict? ==> r.Raise? && r.exc.kind == TypeError
  {
    match v
    case PDict(m) => if key in m then Ok(m[key]) else Raise(Exc(KeyError, "'" + key + "'"))
    case PStr(_) => Raise(Exc(TypeError, "string indices must be integers, not 'str'"))
    case PList(_) => Raise(Exc(TypeError, "list indices must be integers or slices, not str"))
    case _ => Raise(Exc(TypeError, "'" + TypeName(v) + "' object is not subscriptable"))
  }

  /** `int(v)` for the values YAML and the environment produce. */
  function IntOf(v: Py): (r: Result<int>)
    ensures IsPyInt(v) ==> r == Ok(PyIntValue(v))
    ensures v.PStr? ==> (r.Ok? <==> ParseInt(v.s).Some?)
    ensures v.PStr? && r.Ok? ==> r.value == ParseInt(v.s).value
    ensures !IsPyInt(v) && !v.PStr? ==> r.Raise? && r.exc.kind == TypeError
  {
    match v
    case PInt(i) => Ok(i)
    case PBool(b) => Ok(if b then 1 else 0)
    case PStr(s) =>
      (match ParseInt(s)
       case Some(i) => Ok(i)
       case None => Raise(Exc(ValueError, IntLiteralError + s + "'")))
    case _ => Raise(Exc(TypeError, IntArgError + TypeName(v) + "'"))
  }

  const IntLiteralError: string := "invalid literal for int() with base 10: '"
  const IntArgError: string := "int() argument must be a string, a bytes-like object or a real number, not '"

  /** `os.getenv(name, default)` as a value. */
  function GetEnv(env: map<string, string>, name: string, default: Py): (v: Py)
    ensures name in env ==> v == PStr(env[name])
    ensures name !in env ==> v == default
  {
    if name in env then PStr(env[name]) else default
  }

  /** The leading text of the `TypeError` `os.path.isabs` raises for a
      value that is not a path. */
  const PathTypeError: string := "expected str, bytes or os.PathLike object"

  /** One `path` entry after the loop: absolute strings are kept, relative
      ones become `abspath(join(root, v))`. */
  function Absolutize(cwd: AbsPath, root: string, v: string): (r: string)
    ensures IsAbs(r)
    ensures IsAbs(v) ==> r == v
  {
    if IsAbs(v) then v else Abspath(cwd, Join2(root, v))
  }

  /** The loop over `config["path"]`: every entry must be a string. */
  function AbsolutizePaths(cwd: AbsPath, root: string, m: map<string, Py>): (r: Result<map<string, Py>>)
    ensures r.Ok? <==> forall k :: k in m ==> m[k].PStr?
    ensures r.Raise? ==> r.exc.kind == TypeError
    ensures r.Ok? ==> r.value.Keys == m.Keys
    ensures r.Ok? ==> forall k :: k in m ==> r.value[k] == PStr(Absolutize(cwd, root, m[k].s))
  {
    if exists k :: k in m && !m[k].PStr? then Raise(Exc(TypeError, PathTypeError))
    else Ok(map k | k in m :: PStr(Absolutize(cwd, root, m[k].s)))
  }

  /** `CONFIG_PATH`. */
  function ConfigPath(confDir: string): string {
    Join2(confDir, "config.yaml")
  }

  /** The key the environment variable `name` overrides in `path`. */
  function Override(env: map<string, string>, name: string, paths: Py, key: string): (r: Result<map<string, Py>>)
    ensures r.Ok? <==> paths.PDict? && key in paths.entries
    ensures r.Ok? ==> r.value == paths.entries[key := GetEnv(env, name, paths.entries[key])]
  {
    match Subscript(paths, key)
    case Raise(e) => Raise(e)
    case Ok(v) => Ok(paths.entries[key := GetEnv(env, name, v)])
  }

  /** The message of the `FileNotFoundError` for a missing file. */
  function MissingConfig(confDir: string): string {
    "配置文件不存在！路径：" + ConfigPath(confDir) + "\n请检查conf目录下是否有config.yaml"
  }

  const ParseFailure: string := "解析config.yaml失败！错误："

  /** `load_config()`. `confDir` is `CONF_DIR`, `configExists` whether
      `config.yaml` exists there, `parsed` what `load_yaml` returns or
      raises, `env` the environment and `cwd` the working directory
      `abspath` reads. */
  function LoadConfig(cwd: AbsPath, confDir: AbsPath, configExists: bool, parsed: Result<Py>, env: map<string, string>): (r: Result<Py>)
    ensures !configExists ==> r == Raise(Exc(FileNotFoundError, MissingConfig(confDir)))
    ensures configExists && parsed.Raise? ==> r == Raise(Exc(RuntimeError, ParseFailure + parsed.exc.text))
    ensures r.Ok? ==> configExists && parsed.Ok? && parsed.value.PDict? && r.value.PDict?
  {
    if !configExists then Raise(Exc(FileNotFoundError, MissingConfig(confDir)))
    else match parsed
      case Raise(e) => Raise(Exc(RuntimeError, ParseFailure + e.text))
      case Ok(c) => Normalize(cwd, Dirname(confDir), c, env)
  }

  /** The part of `load_config()` after parsing: the overrides, the port
      and the `path` loop, against the project root `root`. */
  function Normalize(cwd: AbsPath, root: string, c: Py, env: map<string, string>): (r: Result<Py>)
    ensures r.Ok? ==> c.PDict? && r.value.PDict?
  {
    match Subscript(c, "path")
    case Raise(e) => Raise(e)
    case Ok(p) =>
      match OverridePaths(env, p)
      case Raise(e) => Raise(e)
      case Ok(p2) =>
        match Subscript(c, "web")
        case Raise(e) => Raise(e)
        case Ok(w) =>
          match WebPort(env, w)
          case Raise(e) => Raise(e)
          case Ok(port) =>
            match AbsolutizePaths(cwd, root, p2)
            case Raise(e) => Raise(e)
            case Ok(p3) => Ok(PDict(c.entries["path" := PDict(p3)]["web" := PDict(w.entries["port" := PInt(port)])]))
  }

  /** The pieces a successful normalisation is made of: the `path` section
      with both overrides applied and then made absolute, and the `web`
      section with the coerced port; and the converse. */
  lemma {:induction false} NormalizeParts(cwd: AbsPath, root: string, c: Py, env: map<string, string>)
    ensures Normalize(cwd, root, c, env).Ok? <==>
              && c.PDict? && "path" in c.entries && "web" in c.entries
              && var p := c.entries["path"];
                 && p.PDict? && "test_suite_dir" in p.entries && "report_root_dir" in p.entries
                 && AbsolutizePaths(cwd, root, Overridden(env, p.entries)).Ok?
                 && WebPort(env, c.entries["web"]).Ok?
    ensures Normalize(cwd, root, c, env).Ok? ==>
              var p2 := Overridden(env, c.entries["path"].entries);
              var w := c.entries["web"];
              Normalize(cwd, root, c, env).value
                == PDict(c.entries["path" := PDict(AbsolutizePaths(cwd, root, p2).value)]
                                  ["web" := PDict(w.entries["port" := PInt(WebPort(env, w).value)])])
  {
  }

  /** A loaded configuration keeps the file's keys and every section other
      than `path` and `web`; its `path` holds absolute strings and its
      `web.port` is an int. */
  lemma {:induction false} LoadedValid(cwd: AbsPath, confDir: AbsPath, parsed: Py, env: map<string, string>)
    ensures var r := LoadConfig(cwd, confDir, true, Ok(parsed), env);
            r.Ok? ==>
              && r.value.entries.Keys == parsed.entries.Keys
              && (forall k :: k in r.value.entries && k != "path" && k != "web" ==> r.value.entries[k] == parsed.entries[k])
              && ValidConfig(r.value)
  {
    if LoadConfig(cwd, confDir, true, Ok(parsed), env).Ok? {
      var root := Dirname(confDir);
      NormalizeParts(cwd, root, parsed, env);
      var p3 := AbsolutizePaths(cwd, root, Overridden(env, parsed.entries["path"].entries)).value;
      assert forall k :: k in p3 ==> p3[k].PStr? && IsAbs(p3[k].s);
    }
  }

  /** The two environment overrides of the `path` section, in order. */
  function OverridePaths(env: map<string, string>, p: Py): (r: Result<map<string, Py>>)
    ensures r.Ok? <==> p.PDict? && "test_suite_dir" in p.entries && "report_root_dir" in p.entries
    ensures r.Ok? ==> r.value == Overridden(env, p.entries)
  {
    match Override(env, "TEST_SUITE_DIR", p, "test_suite_dir")
    case Raise(e) => Raise(e)
    case Ok(p1) => Override(env, "REPORT_ROOT_DIR", PDict(p1), "report_root_dir")
  }

  /** `int(os.getenv("WEB_PORT", web["port"]))`. */
  function WebPort(env: map<string, string>, web: Py): (r: Result<int>)
    ensures r.Ok? ==> web.PDict? && "port" in web.entries
    ensures "WEB_PORT" in env && web.PDict? && "port" in web.entries ==> r == IntOf(PStr(env["WEB_PORT"]))
    ensures "WEB_PORT" !in env && web.PDict? && "port" in web.entries ==> r == IntOf(web.entries["port"])
  {
    match Subscript(web, "port")
    case Raise(e) => Raise(e)
    case Ok(yamlPort) => IntOf(GetEnv(env, "WEB_PORT", yamlPort))
  }

  /** What a loaded configuration guarantees: `path` holds absolute
      strings and `web.port` is an int. */
  predicate ValidConfig(c: Py) {
    && c.PDict? && "path" in c.entries && "web" in c.entries
    && c.entries["path"].PDict? && c.entries["web"].PDict?
    && "port" in c.entries["web"].entries && c.entries["web"].entries["port"].PInt?
    && (forall k :: k in c.entries["path"].entries ==>
          c.entries["path"].entries[k].PStr? && IsAbs(c.entries["path"].entries[k].s))
  }

  /** The project root is absolute, so a relative entry is anchored there
      and the working directory plays no part. */
  lemma AbsolutizeIgnoresCwd(cwd1: AbsPath, cwd2: AbsPath, root: string, v: string)
    requires IsAbs(root)
    ensures Absolutize(cwd1, root, v) == Absolutize(cwd2, root, v)
    ensures !IsAbs(v) ==> Absolutize(cwd1, root, v) == Normpath(Join2(root, v))
  {
  }

  lemma {:induction false} AbsolutizePathsIgnoresCwd(cwd1: AbsPath, cwd2: AbsPath, root: string, m: map<string, Py>)
    requires IsAbs(root)
    ensures AbsolutizePaths(cwd1, root, m) == AbsolutizePaths(cwd2, root, m)
  {
    if forall k :: k in m ==> m[k].PStr? {
      forall k | k in m ensures Absolutize(cwd1, root, m[k].s) == Absolutize(cwd2, root, m[k].s) {
        AbsolutizeIgnoresCwd(cwd1, cwd2, root, m[k].s);
      }
      assert AbsolutizePaths(cwd1, root, m).value == AbsolutizePaths(cwd2, root, m).value;
    }
  }

  /** Loading does not depend on the directory the program was started
      from: `CONF_DIR` is derived from the module's own absolute path. */
  lemma {:induction false} LoadConfigIgnoresCwd(cwd1: AbsPath, cwd2: AbsPath, confDir: AbsPath, configExists: bool,
                             parsed: Result<Py>, env: map<string, string>)
    ensures LoadConfig(cwd1, confDir, configExists, parsed, env) == LoadConfig(cwd2, confDir, configExists, parsed, env)
  {
    if configExists && parsed.Ok? {
      NormalizeIgnoresCwd(cwd1, cwd2, Dirname(confDir), parsed.value, env);
    }
  }

  lemma {:induction false} NormalizeIgnoresCwd(cwd1: AbsPath, cwd2: AbsPath, root: string, c: Py, env: map<string, string>)
    requires IsAbs(root)
    ensures Normalize(cwd1, root, c, env) == Normalize(cwd2, root, c, env)
  {
    NormalizeParts(cwd1, root, c, env);
    NormalizeParts(cwd2, root, c, env);
    if c.PDict? && "path" in c.entries {
      var p := c.entries["path"];
      if p.PDict? && "test_suite_dir" in p.entries && "report_root_dir" in p.entries {
        AbsolutizePathsIgnoresCwd(cwd1, cwd2, root, Overridden(env, p.entries));
      }
    }
  }

  /** The environment wins over the file: after a successful load each
      overridable directory is the environment's value when it is set and
      the file's otherwise, made absolute against the project root. */
  lemma {:induction false} PathOverrides(cwd: AbsPath, confDir: AbsPath, parsed: Py, env: map<string, string>)
    ensures var r := LoadConfig(cwd, confDir, true, Ok(parsed), env);
            r.Ok? ==>
            var c := r.value;
            && parsed.PDict? && "path" in parsed.entries && parsed.entries["path"].PDict?
            && var yaml := parsed.entries["path"].entries;
               && "test_suite_dir" in yaml && "report_root_dir" in yaml
               && var suite := GetEnv(env, "TEST_SUITE_DIR", yaml["test_suite_dir"]);
                  var report := GetEnv(env, "REPORT_ROOT_DIR", yaml["report_root_dir"]);
                  && suite.PStr? && report.PStr?
                  && c.entries["path"].entries["test_suite_dir"] == PStr(Absolutize(cwd, Dirname(confDir), suite.s))
                  && c.entries["path"].entries["report_root_dir"] == PStr(Absolutize(cwd, Dirname(confDir), report.s))
  {
    NormalizeParts(cwd, Dirname(confDir), parsed, env);
  }

  /** A `WEB_PORT` in the environment replaces the file's port: a load
      succeeds only when it parses as an integer, and then the port is
      that integer; `str(n)` gives back `n`. */
  lemma {:induction false} PortOverride(cwd: AbsPath, confDir: AbsPath, parsed: Py, env: map<string, string>)
    requires "WEB_PORT" in env
    ensures var r := LoadConfig(cwd, confDir, true, Ok(parsed), env);
            r.Ok? ==> ParseInt(env["WEB_PORT"]).Some? && r.value.entries["web"].entries["port"] == PInt(ParseInt(env["WEB_PORT"]).value)
    ensures forall n: int :: env["WEB_PORT"] == IntToStr(n) && LoadConfig(cwd, confDir, true, Ok(parsed), env).Ok? ==>
              LoadConfig(cwd, confDir, true, Ok(parsed), env).value.entries["web"].entries["port"] == PInt(n)
  {
    NormalizeParts(cwd, Dirname(confDir), parsed, env);
    forall n: int | env["WEB_PORT"] == IntToStr(n) {
      IntRoundTrip(n);
    }
  }

  /** Both environment overrides applied to a `path` section. */
  function Overridden(env: map<string, string>, p: map<string, Py>): (r: map<string, Py>)
    requires "test_suite_dir" in p && "report_root_dir" in p
    ensures r.Keys == p.Keys
    ensures forall k :: k in p && k != "test_suite_dir" && k != "report_root_dir" ==> r[k] == p[k]
    ensures r["test_suite_dir"] == GetEnv(env, "TEST_SUITE_DIR", p["test_suite_dir"])
    ensures r["report_root_dir"] == GetEnv(env, "REPORT_ROOT_DIR", p["report_root_dir"])
  {
    var p1 := p["test_suite_dir" := GetEnv(env, "TEST_SUITE_DIR", p["test_suite_dir"])];
    p1["report_root_dir" := GetEnv(env, "REPORT_ROOT_DIR", p1["report_root_dir"])]
  }

  /** Overriding and normalising a normalised `path` section again changes
      nothing. */
  lemma {:induction false} PathsStable(cwd: AbsPath, root: string, env: map<string, string>, p: map<string, Py>)
    requires IsAbs(root)
    requires "test_suite_dir" in p && "report_root_dir" in p
    requires AbsolutizePaths(cwd, root, Overridden(env, p)).Ok?
    ensures var p3 := AbsolutizePaths(cwd, root, Overridden(env, p)).value;
            AbsolutizePaths(cwd, root, Overridden(env, p3)) == Ok(p3)
  {
    var p2 := Overridden(env, p);
    var p3 := AbsolutizePaths(cwd, root, p2).value;
    var q2 := Overridden(env, p3);
    assert forall k :: k in q2 ==> q2[k].PStr? && Absolutize(cwd, root, q2[k].s) == p3[k].s by {
      forall k | k in q2 ensures q2[k].PStr? && Absolutize(cwd, root, q2[k].s) == p3[k].s {
        if k == "test_suite_dir" {
          if "TEST_SUITE_DIR" in env {
            assert q2[k] == p2[k];
          }
        } else if k == "report_root_dir" {
          if "REPORT_ROOT_DIR" in env {
            assert q2[k] == p2[k];
          }
        }
      }
    }
    var q3 := AbsolutizePaths(cwd, root, q2);
    assert q3.value == p3;
  }

  /** Coercing a coerced port again gives the same port. */
  lemma {:induction false} PortStable(env: map<string, string>, w: Py)
    requires WebPort(env, w).Ok?
    ensures var n := WebPort(env, w).value;
            WebPort(env, PDict(w.entries["port" := PInt(n)])) == Ok(n)
  {
  }

  /** Normalising a normalised configuration again changes nothing. */
  lemma {:induction false} NormalizeIdempotent(cwd: AbsPath, root: string, c: Py, env: map<string, string>)
    requires IsAbs(root)
    requires Normalize(cwd, root, c, env).Ok?
    ensures var c1 := Normalize(cwd, root, c, env).value;
            Normalize(cwd, root, c1, env) == Ok(c1)
  {
    NormalizeParts(cwd, root, c, env);
    var c1 := Normalize(cwd, root, c, env).value;
    var p := c.entries["path"].entries;
    var p3 := AbsolutizePaths(cwd, root, Overridden(env, p)).value;
    var w := c.entries["web"];
    var n := WebPort(env, w).value;
    PathsStable(cwd, root, env, p);
    PortStable(env, w);
    var w1 := PDict(w.entries["port" := PInt(n)]);
    assert c1 == PDict(c.entries["path" := PDict(p3)]["web" := w1]);
    NormalizeParts(cwd, root, c1, env);
    assert w1.entries["port" := PInt(n)] == w1.entries;
    assert c1.entries["path" := PDict(p3)]["web" := w1] == c1.entries;
  }

  /** Loading is idempotent: a loaded configuration, parsed again under the
      same environment, loads to itself. */
  lemma {:induction false} LoadConfigIdempotent(cwd: AbsPath, confDir: AbsPath, parsed: Py, env: map<string, string>)
    ensures var r := LoadConfig(cwd, confDir, true, Ok(parsed), env);
            r.Ok? ==> LoadConfig(cwd, confDir, true, Ok(r.value), env) == r
  {
    if LoadConfig(cwd, confDir, true, Ok(parsed), env).Ok? {
      NormalizeIdempotent(cwd, Dirname(confDir), parsed, env);
    }
  }
}

=== FILE: device_manager.dfy ===
/** `DeviceManager` of core/device_manager.py: the parse of `adb devices`
    output into online devices, and the device cache, modelled as an
    explicit map from device id to instance that only acquire and release
    change. */
module DeviceManager {
  import opened PyStr
  import opened PyValue
  import opened Uiautomator

  // ---------------------------------------------------------------------
  // get_device_list

  /** One entry of `get_device_list()`'s result. */
  datatype OnlineDevice = OnlineDevice(deviceId: string, status: string, atxVersion: string)

  /** `_get_atx_version(device_id)`: the stripped output of the version
      query, or `unknown` on a non-zero return code or any exception
      (including its 5-second timeout). */
  function AtxVersion(run: Run): (v: string)
    ensures !Succeeded(run) ==> v == "unknown"
    ensures Succeeded(run) ==>
              && (v == [] || (!IsSpace(v[0]) && !IsSpace(v[|v| - 1])))
              && exists i, j :: 0 <= i <= j <= |run.proc.stdout| && v == run.proc.stdout[i..j]
                                && AllSpace(run.proc.stdout[..i]) && AllSpace(run.proc.stdout[j..])
  {
    if Succeeded(run) then
      StripSlice(run.proc.stdout);
      Strip(run.proc.stdout)
    else "unknown"
  }

  /** `[line.strip() for line in lines if line.strip()]`. */
  function NonBlank(lines: seq<string>): (r: seq<string>)
    ensures |r| <= |lines|
    ensures forall k :: 0 <= k < |r| ==> r[k] != []
  {
    if lines == [] then []
    else if Strip(lines[0]) == [] then NonBlank(lines[1..])
    else [Strip(lines[0])] + NonBlank(lines[1..])
  }

  /** `NonBlank` keeps, in order, the stripped form of every line whose
      stripped form is not empty: it distributes over concatenation, and a
      single line is kept stripped or dropped. */
  lemma {:induction false} NonBlankConcat(a: seq<string>, b: seq<string>)
    ensures NonBlank(a + b) == NonBlank(a) + NonBlank(b)
    ensures |b| == 1 ==> NonBlank(b) == (if Strip(b[0]) == [] then [] else [Strip(b[0])])
    decreases |a|
  {
    if a == [] {
      assert a + b == b;
    } else {
      assert (a + b)[1..] == a[1..] + b;
      NonBlankConcat(a[1..], b);
    }
    if |b| == 1 {
      assert b[1..] == [];
    }
  }

  /** The entry a well-formed `id<TAB>device` line contributes. */
  function Entry(id: string, probe: string -> Run): OnlineDevice {
    OnlineDevice(id, "online", AtxVersion(probe(id)))
  }

  /** Reference definition of the loop over the lines after the header:
      `None` when some line does not unpack into exactly two tab-separated
      fields (the `ValueError` the loop raises), otherwise the entries of
      the lines whose status is `device`, in order. */
  function Collect(lines: seq<string>, probe: string -> Run): (r: Option<seq<OnlineDevice>>)
    ensures r.Some? ==> |r.value| <= |lines|
    ensures r.Some? ==> forall k :: 0 <= k < |r.value| ==> r.value[k].status == "online"
    decreases |lines|
  {
    if lines == [] then Some([])
    else match Collect(lines[..|lines| - 1], probe)
      case None => None
      case Some(ds) =>
        var parts := SplitOn(lines[|lines| - 1], '\t');
        if |parts| != 2 then None
        else if parts[1] == "device" then Some(ds + [Entry(parts[0], probe)])
        else Some(ds)
  }

  /** Two tab-separated fields. */
  predicate TwoFields(line: string) {
    |SplitOn(line, '\t')| == 2
  }

  /** What `get_device_list()` returns for the outcome of `adb devices`;
      `probe` gives the outcome of each device's version query. */
  function DeviceList(run: Run, probe: string -> Run): seq<OnlineDevice> {
    if !Succeeded(run) then []
    else
      var lines := NonBlank(SplitOn(run.proc.stdout, '\n'));
      if |lines| <= 1 then []
      else match Collect(lines[1..], probe)
        case None => []
        case Some(ds) => ds
  }

  /** `DeviceManager.get_device_list()`: the loop of the source over the
      non-blank lines after the header. */
  method GetDeviceList(run: Run, probe: string -> Run) returns (devices: seq<OnlineDevice>)
    ensures devices == DeviceList(run, probe)
    ensures !Succeeded(run) ==> devices == []
    ensures run.Ran? && |NonBlank(SplitOn(run.proc.stdout, '\n'))| <= 1 ==> devices == []
    ensures forall k :: 0 <= k < |devices| ==> devices[k].status == "online"
  {
    if !Succeeded(run) {
      return [];
    }
    var lines := NonBlank(SplitOn(run.proc.stdout, '\n'));
    if |lines| <= 1 {
      return [];
    }
    var rest := lines[1..];
    devices := [];
    var i := 0;
    while i < |rest|
      invariant 0 <= i <= |rest|
      invariant Collect(rest[..i], probe) == Some(devices)
      invariant forall k :: 0 <= k < |devices| ==> devices[k].status == "online"
    {
      assert rest[..i + 1][..i] == rest[..i];
      var parts := SplitOn(rest[i], '\t');
      if |parts| != 2 {
        assert Collect(rest[..i + 1], probe) == None;
        CollectNoneSticks(rest[..i + 1], rest[i + 1..], probe);
        assert rest[..i + 1] + rest[i + 1..] == rest;
        return [];
      }
      if parts[1] == "device" {
        devices := devices + [Entry(parts[0], probe)];
      }
      i := i + 1;
    }
    assert rest[..i] == rest;
  }

  /** Once a line fails to unpack, no later line can rescue the result. */
  lemma {:induction false} CollectNoneSticks(xs: seq<string>, ys: seq<string>, probe: string -> Run)
    requires Collect(xs, probe) == None
    ensures Collect(xs + ys, probe) == None
    decreases |ys|
  {
    if ys != [] {
      var zs := xs + ys[..|ys| - 1];
      CollectNoneSticks(xs, ys[..|ys| - 1], probe);
      assert (xs + ys)[..|xs + ys| - 1] == zs;
    } else {
      assert xs + ys == xs;
    }
  }

  /** The whole list is produced exactly when every line after the header
      unpacks into two fields. */
  lemma {:induction false} CollectDefinedIff(lines: seq<string>, probe: string -> Run)
    ensures Collect(lines, probe).Some? <==> forall k :: 0 <= k < |lines| ==> TwoFields(lines[k])
    decreases |lines|
  {
    if lines != [] {
      var init := lines[..|lines| - 1];
      CollectDefinedIff(init, probe);
      assert forall k :: 0 <= k < |init| ==> init[k] == lines[k];
    }
  }

  /** Every listed device comes from a line `id<TAB>device`, with its own
      version query's answer. */
  lemma {:induction false} CollectSound(lines: seq<string>, probe: string -> Run)
    requires Collect(lines, probe).Some?
    ensures var ds := Collect(lines, probe).value;
            forall k :: 0 <= k < |ds| ==>
              && ds[k].status == "online"
              && ds[k].atxVersion == AtxVersion(probe(ds[k].deviceId))
              && exists m :: 0 <= m < |lines| && SplitOn(lines[m], '\t') == [ds[k].deviceId, "device"]
    decreases |lines|
  {
    if lines != [] {
      var init := lines[..|lines| - 1];
      CollectSound(init, probe);
      var ds := Collect(lines, probe).value;
      var es := Collect(init, probe).value;
      var last := lines[|lines| - 1];
      var parts := SplitOn(last, '\t');
      forall k | 0 <= k < |ds|
        ensures exists m :: 0 <= m < |lines| && SplitOn(lines[m], '\t') == [ds[k].deviceId, "device"]
      {
        if k < |es| {
          var m :| 0 <= m < |init| && SplitOn(init[m], '\t') == [es[k].deviceId, "device"];
          assert lines[m] == init[m];
        } else {
          assert parts == [parts[0], parts[1]];
          assert SplitOn(lines[|lines| - 1], '\t') == [ds[k].deviceId, "device"];
        }
      }
    }
  }

  /** Every line `id<TAB>device` after the header is listed. */
  lemma {:induction false} CollectComplete(lines: seq<string>, probe: string -> Run, m: nat)
    requires Collect(lines, probe).Some?
    requires m < |lines| && TwoFields(lines[m]) && SplitOn(lines[m], '\t')[1] == "device"
    ensures exists k :: 0 <= k < |Collect(lines, probe).value| && Collect(lines, probe).value[k] == Entry(SplitOn(lines[m], '\t')[0], probe)
    decreases |lines|
  {
    var init := lines[..|lines| - 1];
    var ds := Collect(lines, probe).value;
    var es := Collect(init, probe).value;
    if m < |lines| - 1 {
      assert init[m] == lines[m];
      CollectComplete(init, probe, m);
      var k :| 0 <= k < |es| && es[k] == Entry(SplitOn(init[m], '\t')[0], probe);
      assert ds[k] == es[k];
    } else {
      assert ds[|ds| - 1] == Entry(SplitOn(lines[m], '\t')[0], probe);
    }
  }

  /** The ids of the lines `id<TAB>device`, in the order of the lines. */
  function OnlineIds(lines: seq<string>): seq<string>
    decreases |lines|
  {
    if lines == [] then []
    else
      var parts := SplitOn(lines[|lines| - 1], '\t');
      OnlineIds(lines[..|lines| - 1]) + (if |parts| == 2 && parts[1] == "device" then [parts[0]] else [])
  }

  /** The listed devices are exactly the `id<TAB>device` lines, one entry
      each, in the order the lines come. */
  lemma {:induction false} CollectInOrder(lines: seq<string>, probe: string -> Run)
    requires Collect(lines, probe).Some?
    ensures var ds := Collect(lines, probe).value;
            && |ds| == |OnlineIds(lines)|
            && forall k :: 0 <= k < |ds| ==> ds[k] == Entry(OnlineIds(lines)[k], probe)
    decreases |lines|
  {
    if lines != [] {
      CollectInOrder(lines[..|lines| - 1], probe);
    }
  }

  // ---------------------------------------------------------------------
  // DEVICE_CACHE

  /** A live `Uiautomator` instance; `serial` stands for its identity. */
  datatype Handle = Handle(serial: nat, device: Device)

  /** `DEVICE_CACHE`, plus the number of instances constructed so far. */
  datatype Cache = Cache(entries: map<string, Handle>, constructed: nat)

  /** Every cached instance belongs to its key and was constructed before. */
  predicate ValidCache(c: Cache) {
    forall id :: id in c.entries ==> c.entries[id].device.deviceId == id && c.entries[id].serial < c.constructed
  }

  /** The outcome of `get_uiautomator_instance`. */
  datatype Acquired = Acquired(result: Result<Handle>, cache: Cache, commands: seq<Argv>)

  /** A cached instance that is initialised is reused. */
  predicate Hit(c: Cache, id: string) {
    id in c.entries && c.entries[id].device.initialized
  }

  /** `DeviceManager.get_uiautomator_instance(device_id, task_id)`; the
      three runs are the bring-up outcomes of a new instance, used only on
      a miss. */
  function Acquire(c: Cache, adb: string, atx: string, id: string, state: Run, init: Run, version: Run): (r: Acquired)
    ensures Hit(c, id) ==> r == Acquired(Ok(c.entries[id]), c, [])
    ensures !Hit(c, id) ==> r.commands == BringUp(adb, id, atx, state, init, version).commands
    ensures !Hit(c, id) && r.result.Ok? ==>
              && r.result.value == Handle(c.constructed, Device(id, atx, true))
              && r.cache == Cache(c.entries[id := r.result.value], c.constructed + 1)
    ensures r.result.Raise? ==> r.cache == c
    ensures r.result.Ok? ==> r.result.value.device.initialized
    ensures ValidCache(c) && r.result.Ok? ==> r.result.value.device.deviceId == id
    ensures r.result.Ok? ==> id in r.cache.entries && r.cache.entries[id] == r.result.value
  {
    if Hit(c, id) then Acquired(Ok(c.entries[id]), c, [])
    else
      var b := BringUp(adb, id, atx, state, init, version);
      match b.result
      case Raise(e) => Acquired(Raise(e), c, b.commands)
      case Ok(d) =>
        var h := Handle(c.constructed, d);
        Acquired(Ok(h), Cache(c.entries[id := h], c.constructed + 1), b.commands)
  }

  /** Acquiring keeps the cache valid, and a newly constructed instance is
      distinct from every instance cached before. */
  lemma AcquirePreservesValid(c: Cache, adb: string, atx: string, id: string, state: Run, init: Run, version: Run)
    requires ValidCache(c)
    ensures var r := Acquire(c, adb, atx, id, state, init, version);
            && ValidCache(r.cache)
            && (!Hit(c, id) && r.result.Ok? ==> forall other :: other in c.entries ==> c.entries[other] != r.result.value)
  {
    var r := Acquire(c, adb, atx, id, state, init, version);
    if !Hit(c, id) && r.result.Ok? {
      forall other | other in c.entries
        ensures c.entries[other] != r.result.value
      {
        assert c.entries[other].serial < c.constructed;
      }
    }
  }

  /** `DeviceManager.release_device(device_id)`. */
  function Release(c: Cache, id: string): (r: Cache)
    ensures id !in r.entries
    ensures forall other :: other != id ==> (other in r.entries <==> other in c.entries)
    ensures forall other :: other != id && other in c.entries ==> r.entries[other] == c.entries[other]
    ensures id !in c.entries ==> r == c
    ensures r.constructed == c.constructed
  {
    Cache(c.entries - {id}, c.constructed)
  }

  /** Releasing keeps the cache valid, and releasing twice is releasing once. */
  lemma ReleaseProperties(c: Cache, id: string)
    ensures ValidCache(c) ==> ValidCache(Release(c, id))
    ensures Release(Release(c, id), id) == Release(c, id)
  {
  }

  /** After a hit, releasing drops the shared instance for every later
      caller: the next acquire constructs a new one. */
  lemma ReleaseForcesConstruction(c: Cache, adb: string, atx: string, id: string, state: Run, init: Run, version: Run)
    ensures !Hit(Release(c, id), id)
    ensures Acquire(Release(c, id), adb, atx, id, state, init, version).commands == BringUp(adb, id, atx, state, init, version).commands
  {
  }
}

=== FILE: device_routes.dfy ===
/** The device route of app/routes/device.py: each line of the device
    listing command's output becomes an entry numbered by its position,
    carrying the line's first word. The command's standard output is a
    parameter. */
module DeviceRoutes {
  import opened PyStr
  import opened PyValue

  /** One element of `get_device()`'s list. */
  datatype Listed = Listed(id: nat, deviceId: string)

  /** The dict form of an element. */
  function ListedInfo(d: Listed): Py {
    PDict(map["id" := PInt(d.id), "device_id" := PStr(d.deviceId)])
  }

  /** `[{"id": idx, "device_id": info.split()[0]} for idx, info in
      enumerate(lines)]`: a line with no word raises `IndexError`. */
  function Entries(lines: seq<string>): (r: Result<seq<Listed>>)
    ensures r.Ok? ==> |r.value| == |lines|
    ensures r.Raise? ==> r.exc == Exc(IndexError, "list index out of range")
    decreases |lines|
  {
    if lines == [] then Ok([])
    else
      var init := lines[..|lines| - 1];
      match Entries(init)
      case Raise(e) => Raise(e)
      case Ok(ds) =>
        match FirstWord(lines[|lines| - 1])
        case None => Raise(Exc(IndexError, "list index out of range"))
        case Some(w) => Ok(ds + [Listed(|ds|, w)])
  }

  /** The list is built exactly when no line is blank, and its `k`-th
      element is numbered `k` and carries the first word of line `k`. */
  lemma {:induction false} EntriesContents(lines: seq<string>)
    ensures Entries(lines).Ok? <==> forall k :: 0 <= k < |lines| ==> !AllSpace(lines[k])
    ensures Entries(lines).Ok? ==> forall k :: 0 <= k < |lines| ==>
              Entries(lines).value[k] == Listed(k, FirstWord(lines[k]).value)
    decreases |lines|
  {
    if lines != [] {
      var init := lines[..|lines| - 1];
      EntriesContents(init);
      assert forall k :: 0 <= k < |init| ==> init[k] == lines[k];
    }
  }

  /** Every line has a word. */
  predicate NoBlankLine(lines: seq<string>) {
    forall k :: 0 <= k < |lines| ==> !AllSpace(lines[k])
  }

  /** `get_device()` for the command's standard output: one element per
      output line, numbered by position and carrying the line's first
      word; a blank line raises `IndexError`. */
  function GetDevice(stdout: string): (r: Result<seq<Listed>>)
    ensures var lines := SplitLines(stdout);
            && (r.Ok? <==> NoBlankLine(lines))
            && (r.Raise? ==> r.exc == Exc(IndexError, "list index out of range"))
            && (r.Ok? ==> && |r.value| == |lines|
                          && forall k :: 0 <= k < |r.value| ==> r.value[k] == Listed(k, FirstWord(lines[k]).value))
  {
    var lines := SplitLines(stdout);
    EntriesContents(lines);
    Entries(lines)
  }

  /** `get_device_list()`: 400 with an empty list when there is no line,
      200 with the list otherwise; the `IndexError` of a blank line
      escapes the view. */
  function GetDeviceList(stdout: string): (r: Response)
    ensures stdout == [] <==> r == Json(Reply(400, "未检测到adb连接设备", Some(PList([]))))
    ensures GetDevice(stdout).Raise? <==> r.Uncaught?
    ensures r.Json? && r.reply.code == 200 ==>
              && r.reply.msg == "成功"
              && r.reply.data.Some? && r.reply.data.value.PList?
              && |r.reply.data.value.items| == |SplitLines(stdout)| > 0
              && forall k :: 0 <= k < |r.reply.data.value.items| ==> r.reply.data.value.items[k] == ListedInfo(GetDevice(stdout).value[k])
  {
    match GetDevice(stdout)
    case Raise(e) => Uncaught(e)
    case Ok(ds) =>
      if ds == [] then Json(Reply(400, "未检测到adb连接设备", Some(PList([]))))
      else Json(Reply(200, "成功", Some(PList(seq(|ds|, k requires 0 <= k < |ds| => ListedInfo(ds[k]))))))
  }

  /** The lines `serial<TAB>device` the listing command keeps. */
  function SerialLines(serials: seq<string>): (lines: seq<string>)
    ensures |lines| == |serials|
    ensures forall k :: 0 <= k < |serials| ==> lines[k] == serials[k] + DeviceSuffix
  {
    seq(|serials|, k requires 0 <= k < |serials| => serials[k] + DeviceSuffix)
  }

  /** The status field the listing command keeps. */
  const DeviceSuffix: string := "\tdevice"

  /** The suffix opens with whitespace and holds no line boundary. */
  lemma DeviceSuffixShape()
    ensures IsSpace(DeviceSuffix[0]) && NoLineBreak(DeviceSuffix)
  {
    forall i | 0 <= i < |DeviceSuffix| ensures !IsLineBreak(DeviceSuffix[i]) {
      assert DeviceSuffix[i] in "\tdevice";
    }
  }

  /** A `serial<TAB>device` line is one line whose first word is the serial. */
  lemma SerialLine(serial: string)
    requires serial != [] && NoSpace(serial)
    ensures NoLineBreak(serial + DeviceSuffix)
    ensures FirstWord(serial + DeviceSuffix) == Some(serial)
  {
    DeviceSuffixShape();
    FirstWordPadded([], serial, DeviceSuffix);
    assert [] + serial + DeviceSuffix == serial + DeviceSuffix;
    NoSpaceNoLineBreak(serial);
    NoLineBreakConcat(serial, DeviceSuffix);
  }

  /** An output of newline-terminated `serial<TAB>device` lines is listed
      as its serials, numbered in order. */
  lemma ListsSerials(serials: seq<string>)
    requires forall k :: 0 <= k < |serials| ==> serials[k] != [] && NoSpace(serials[k])
    ensures var r := GetDevice(Terminated(SerialLines(serials)));
            && r.Ok? && |r.value| == |serials|
            && forall k :: 0 <= k < |serials| ==> r.value[k] == Listed(k, serials[k])
  {
    var lines := SerialLines(serials);
    forall k | 0 <= k < |lines|
      ensures NoLineBreak(lines[k]) && FirstWord(lines[k]) == Some(serials[k])
    {
      SerialLine(serials[k]);
    }
    SplitLinesTerminated(lines);
    assert SplitLines(Terminated(lines)) == lines;
    assert NoBlankLine(lines);
  }
}

=== FILE: filesystem.dfy ===
/** The part of the file system the modelled code looks at and changes:
    which paths exist, and whether each is a directory or a regular file.
    Paths are the normalised absolute strings the code builds. */
module FileSystem {
  import opened PyStr

  datatype Kind = Dir | File

  /** Existing paths and their kinds. */
  type Fs = map<string, Kind>

  /** `os.path.exists(p)`. */
  predicate Exists(fs: Fs, p: string) {
    p in fs
  }

  /** `os.path.isfile(p)`. */
  predicate IsFile(fs: Fs, p: string) {
    p in fs && fs[p] == File
  }

  /** `q` is `p` or lies below it. */
  predicate Within(q: string, p: string) {
    q == p || p + "/" <= q
  }

  /** `shutil.rmtree(p)`: `p` and everything below it disappear. */
  function RemoveTree(fs: Fs, p: string): (r: Fs)
    ensures forall q :: q in r <==> q in fs && !Within(q, p)
    ensures forall q :: q in r ==> r[q] == fs[q]
  {
    map q | q in fs && !Within(q, p) :: fs[q]
  }

  /** The proper ancestors of an absolute path, as `os.makedirs` creates
      them: every prefix that ends just before a `/`. */
  function Ancestors(p: string): (r: set<string>)
    ensures forall a :: a in r ==> a < p
  {
    set i | 0 < i < |p| && p[i] == '/' :: p[..i]
  }

  /** `os.makedirs(p, exist_ok=True)`: `p` and its missing ancestors become
      directories; what exists already is kept. */
  function MakeDirs(fs: Fs, p: string): (r: Fs)
    ensures Exists(r, p)
    ensures forall q :: q in fs ==> q in r && r[q] == fs[q]
    ensures forall q :: q in r && q !in fs ==> q == p || q in Ancestors(p)
  {
    var ks := fs.Keys + Ancestors(p) + {p};
    map q | q in ks :: if q in fs then fs[q] else Dir
  }

  /** `ensure_dir_exists(p)` of util/path_util.py: create `p` only when
      nothing exists there. */
  function EnsureDirExists(fs: Fs, p: string): (r: Fs)
    ensures Exists(r, p)
    ensures Exists(fs, p) ==> r == fs
    ensures !Exists(fs, p) ==> r[p] == Dir
    ensures forall q :: q in fs ==> q in r && r[q] == fs[q]
    ensures forall q :: q in r && q !in fs ==> q == p || q in Ancestors(p)
  {
    if Exists(fs, p) then fs else MakeDirs(fs, p)
  }
}

=== FILE: path_util.dfy ===
/** `safe_join` of util/path_util.py: join segments onto a base directory,
    normalise, and accept the result only when the normalised base is a
    string prefix of it. */
module PathUtil {
  import opened PyStr
  import opened PyValue
  import opened PosixPath

  /** `safe_join(base_dir, *paths)`; `cwd` stands for `os.getcwd()`. */
  function SafeJoin(cwd: AbsPath, baseDir: string, paths: seq<string>): (r: Result<string>)
    ensures r.Ok? ==> IsNormalAbs(r.value) && Abspath(cwd, baseDir) <= r.value
    ensures r.Ok? ==> r.value == Abspath(cwd, JoinPath(Abspath(cwd, baseDir), paths))
    ensures r.Ok? <==> Abspath(cwd, baseDir) <= Abspath(cwd, JoinPath(Abspath(cwd, baseDir), paths))
    ensures r.Raise? ==> r.exc.kind == ValueError
  {
    var baseAbs := Abspath(cwd, baseDir);
    var target := Abspath(cwd, JoinPath(baseAbs, paths));
    if baseAbs <= target then Ok(target)
    else if paths == [] then
      // `os.path.join()` with no argument would raise TypeError here;
      // joining nothing onto a normal path gives back the path itself.
      assert target == baseAbs by { AbspathOfNormal(cwd, baseAbs); }
      assert false;
      Raise(Exc(TypeError, "join() missing 1 required positional argument: 'a'"))
    else Raise(Exc(ValueError, "非法路径：" + JoinPath(paths[0], paths[1..]) + "（超出基础目录" + baseDir + "）"))
  }

  /** `safe_join` only looks at the base through its `abspath`. */
  lemma SafeJoinSameBase(cwd: AbsPath, a: string, b: string, paths: seq<string>)
    requires Abspath(cwd, a) == Abspath(cwd, b)
    requires paths != []
    ensures SafeJoin(cwd, a, paths).Ok? == SafeJoin(cwd, b, paths).Ok?
    ensures SafeJoin(cwd, a, paths).Ok? ==> SafeJoin(cwd, a, paths) == SafeJoin(cwd, b, paths)
  {
  }

  /** With no segments the result is the normalised base. */
  lemma SafeJoinNoSegments(cwd: AbsPath, baseDir: string)
    ensures SafeJoin(cwd, baseDir, []) == Ok(Abspath(cwd, baseDir))
  {
    AbspathOfNormal(cwd, Abspath(cwd, baseDir));
  }

  /** A relative segment made only of `.` and empty components gives back
      the normalised base. */
  lemma SafeJoinDotOnly(cwd: AbsPath, baseDir: string, s: string)
    requires !IsAbs(s)
    requires DropEmpty(SplitOn(s, '/')) == []
    requires NoParent(SplitOn(s, '/'))
    ensures SafeJoin(cwd, baseDir, [s]) == Ok(Abspath(cwd, baseDir))
  {
    var b := Abspath(cwd, baseDir);
    NormpathDescends(b, s);
    JoinPathKeepsAbs(b, [s]);
    assert JoinPath(b, [s]) == Join2(b, s);
  }

  /** A relative segment without `..` components is always accepted. */
  lemma SafeJoinDescends(cwd: AbsPath, baseDir: string, s: string)
    requires !IsAbs(s)
    requires NoParent(SplitOn(s, '/'))
    ensures SafeJoin(cwd, baseDir, [s]).Ok?
  {
    var b := Abspath(cwd, baseDir);
    NormpathDescends(b, s);
    assert JoinPath(b, [s]) == Join2(b, s);
  }

  /** Normalising a normal path joined with one clean component appends
      that component. */
  lemma NormpathAppendClean(b: string, s: string)
    requires IsNormalAbs(b) && IsCleanComp(s)
    ensures Normpath(Join2(b, s)) == Join2(b, s)
    ensures Body(b) == [] ==> Join2(b, s) == b + s
    ensures Body(b) != [] ==> Join2(b, s) == b + "/" + s
  {
    SplitNoSep(s, '/');
    assert DropEmpty([s]) == [s];
    assert JoinWith([s], '/') == s;
    if Body(b) == [] {
      NormpathDescendsFromRoot(b, s);
    } else {
      NormpathDescendsFromBody(b, s);
      NormalNoTrailingSlash(b);
      AppendCleanBody(b, s);
    }
  }

  lemma AppendCleanBody(b: string, s: string)
    requires IsNormalAbs(b) && Body(b) != []
    ensures Slashes(LeadingSlashes(b)) + JoinWith(SplitOn(Body(b), '/') + [s], '/') == b + "/" + s
  {
    var parts := SplitOn(Body(b), '/');
    JoinPrefix(parts, [s], '/');
    JoinSplit(Body(b), '/');
    SlashesThenBody(b);
  }

  /** `safe_join(b, s)` for a normal base and one clean component is the
      plain join, and is accepted. */
  lemma SafeJoinClean(cwd: AbsPath, b: string, s: string)
    requires IsNormalAbs(b) && IsCleanComp(s)
    ensures SafeJoin(cwd, b, [s]) == Ok(Join2(b, s))
    ensures Body(Join2(b, s)) != []
  {
    NormpathAppendClean(b, s);
    AbspathOfNormal(cwd, b);
    assert JoinPath(b, [s]) == Join2(b, s);
    assert IsAbs(Join2(b, s));
    var j := Join2(b, s);
    var lead := LeadingSlashes(b);
    SlashesThenBody(b);
    if Body(b) == [] {
      assert j == Slashes(lead) + s;
      LeadingOfSlashesThen(lead, s);
    } else {
      NormalBodyStart(b);
      assert j == Slashes(lead) + (Body(b) + "/" + s);
      LeadingOfSlashesThen(lead, Body(b) + "/" + s);
    }
  }

  /** An absolute segment discards the base and every segment before it; it
      is accepted only if what follows still normalises under the base. */
  lemma SafeJoinAbsoluteSegment(cwd: AbsPath, baseDir: string, xs: seq<string>, b: string, ys: seq<string>)
    requires IsAbs(b)
    ensures SafeJoin(cwd, baseDir, xs + [b] + ys).Ok? <==> Abspath(cwd, baseDir) <= Abspath(cwd, JoinPath(b, ys))
    ensures SafeJoin(cwd, baseDir, xs + [b] + ys).Ok? ==> SafeJoin(cwd, baseDir, xs + [b] + ys).value == Abspath(cwd, JoinPath(b, ys))
  {
    AbsoluteSegmentResets(Abspath(cwd, baseDir), xs, b, ys);
  }

  /** Two paths that differ only in their last component: one is a prefix
      of the other exactly when the last components are. */
  lemma LastComponentPrefix(q: seq<string>, a: string, y: string)
    ensures "/" + JoinWith(q + [a], '/') <= "/" + JoinWith(q + [y], '/') <==> a <= y
  {
    var h := if q == [] then "/" else "/" + JoinWith(q, '/') + "/";
    LastComponentSplit(q, a);
    LastComponentSplit(q, y);
    var base := h + a;
    var target := h + y;
    if base <= target { assert a == target[|h|..|base|]; }
  }

  lemma LastComponentSplit(q: seq<string>, a: string)
    ensures "/" + JoinWith(q + [a], '/') == (if q == [] then "/" else "/" + JoinWith(q, '/') + "/") + a
  {
    if q != [] {
      JoinPrefix(q, [a], '/');
    } else {
      assert q + [a] == [a];
    }
  }

  /** Where `safe_join(base, "../" + y)` lands for a normal base `/…/a`. */
  lemma ParentSegmentTarget(cwd: AbsPath, q: seq<string>, a: string, y: string)
    requires AllClean(q + [a]) && IsCleanComp(y)
    ensures var base := "/" + JoinWith(q + [a], '/');
            && Abspath(cwd, base) == base
            && Abspath(cwd, JoinPath(base, [".." + "/" + y])) == "/" + JoinWith(q + [y], '/')
  {
    var ps := q + [a];
    var base := "/" + JoinWith(ps, '/');
    var seg := ".." + "/" + y;
    assert Slashes(1) == "/";
    SlashesJoinNormal(1, ps);
    AbspathOfNormal(cwd, base);
    assert JoinPath(base, [seg]) == Join2(base, seg);
    NormpathParentThen(ps, y);
    assert ps[..|ps| - 1] == q;
  }

  /** Containment is a string-prefix test, nothing more: for a base
      `/…/a`, the segment `../y` is accepted exactly when the base's last
      component `a` is a prefix of `y`, and the result is the sibling `/…/y`. */
  lemma SafeJoinParentSegment(cwd: AbsPath, q: seq<string>, a: string, y: string)
    requires AllClean(q + [a]) && IsCleanComp(y)
    ensures var base := "/" + JoinWith(q + [a], '/');
            SafeJoin(cwd, base, [".." + "/" + y]).Ok? <==> a <= y
    ensures var base := "/" + JoinWith(q + [a], '/');
            SafeJoin(cwd, base, [".." + "/" + y]).Ok? ==>
              SafeJoin(cwd, base, [".." + "/" + y]).value == "/" + JoinWith(q + [y], '/')
  {
    ParentSegmentTarget(cwd, q, a, y);
    LastComponentPrefix(q, a, y);
  }

  /** Hence a sibling whose name extends the base's last component is
      accepted although it lies outside the base directory tree. */
  lemma SafeJoinAcceptsSibling(cwd: AbsPath, q: seq<string>, a: string, x: string)
    requires AllClean(q + [a]) && IsCleanComp(a + x) && x != []
    ensures var base := "/" + JoinWith(q + [a], '/');
            var r := SafeJoin(cwd, base, [".." + "/" + a + x]);
            && r.Ok?
            && r.value != base
            && !(base + "/" <= r.value)
  {
    var base := "/" + JoinWith(q + [a], '/');
    SafeJoinParentSegment(cwd, q, a, a + x);
    assert ".." + "/" + a + x == ".." + "/" + (a + x);
    var h := if q == [] then "/" else "/" + JoinWith(q, '/') + "/";
    LastComponentSplit(q, a);
    LastComponentSplit(q, a + x);
    var v := h + (a + x);
    assert v[|base|] == x[0];
    assert x[0] != '/' by { assert (a + x)[|a|] == x[0]; assert !Contains(a + x, '/'); }
  }
}

=== FILE: posixpath.dfy ===
/** The `os.path` functions of CPython's `posixpath` that the modelled code
    relies on: `isabs`, `join`, `normpath`, `abspath` and `relpath`. The
    current working directory, which `abspath` reads from the process, is a
    parameter. */
module PosixPath {
  import opened PyStr
  import opened PyValue

  /** `os.path.isabs(p)`. */
  predicate IsAbs(p: string) {
    p != [] && p[0] == '/'
  }

  /** An absolute path, as `os.getcwd()` returns. */
  type AbsPath = p: string | IsAbs(p) witness "/"

  /** `os.path.join(path, b)` for one further segment: an absolute segment
      replaces everything before it. */
  function Join2(path: string, b: string): (r: string)
    ensures IsAbs(b) ==> r == b
    ensures !IsAbs(b) && IsAbs(path) ==> IsAbs(r) && path <= r
  {
    if IsAbs(b) then b
    else if path == [] || path[|path| - 1] == '/' then path + b
    else path + "/" + b
  }

  /** `os.path.join(a, *ps)`. */
  function JoinPath(a: string, ps: seq<string>): string
    decreases |ps|
  {
    if ps == [] then a else JoinPath(Join2(a, ps[0]), ps[1..])
  }

  lemma {:induction false} JoinPathAppend(a: string, xs: seq<string>, ys: seq<string>)
    ensures JoinPath(a, xs + ys) == JoinPath(JoinPath(a, xs), ys)
    decreases |xs|
  {
    if xs != [] {
      assert (xs + ys)[0] == xs[0];
      assert (xs + ys)[1..] == xs[1..] + ys;
      JoinPathAppend(Join2(a, xs[0]), xs[1..], ys);
    } else {
      assert xs + ys == ys;
    }
  }

  /** An absolute segment discards everything joined before it. */
  lemma AbsoluteSegmentResets(a: string, xs: seq<string>, b: string, ys: seq<string>)
    requires IsAbs(b)
    ensures JoinPath(a, xs + [b] + ys) == JoinPath(b, ys)
  {
    JoinPathAppend(a, xs, [b] + ys);
    assert xs + [b] + ys == xs + ([b] + ys);
  }

  lemma {:induction false} JoinPathKeepsAbs(a: string, ps: seq<string>)
    requires IsAbs(a)
    ensures IsAbs(JoinPath(a, ps))
    decreases |ps|
  {
    if ps != [] {
      JoinPathKeepsAbs(Join2(a, ps[0]), ps[1..]);
    }
  }

  // ---------------------------------------------------------------------
  // normpath

  /** POSIX keeps exactly two leading slashes; one, or three and more,
      become a single slash. */
  function LeadingSlashes(p: string): (n: nat)
    ensures n <= 2
    ensures n > 0 <==> IsAbs(p)
  {
    if |p| >= 2 && p[0] == '/' && p[1] == '/' && !(|p| >= 3 && p[2] == '/') then 2
    else if IsAbs(p) then 1
    else 0
  }

  function Slashes(n: nat): (s: string)
    ensures |s| == n
    ensures forall i :: 0 <= i < n ==> s[i] == '/'
  {
    seq(n, _ => '/')
  }

  /** A component that survives normalisation of an absolute path. */
  predicate IsCleanComp(c: string) {
    c != [] && c != "." && c != ".." && !Contains(c, '/')
  }

  predicate AllClean(cs: seq<string>) {
    forall k :: 0 <= k < |cs| ==> IsCleanComp(cs[k])
  }

  /** One iteration of `normpath`'s component loop. */
  function Step(stack: seq<string>, comp: string, rooted: bool): seq<string>
  {
    if comp == [] || comp == "." then stack
    else if comp != ".." || (!rooted && stack == []) || (stack != [] && stack[|stack| - 1] == "..") then stack + [comp]
    else if stack != [] then stack[..|stack| - 1]
    else stack
  }

  /** `normpath`'s component loop from a given stack. */
  function Resolve(stack: seq<string>, comps: seq<string>, rooted: bool): seq<string>
    decreases |comps|
  {
    if comps == [] then stack else Resolve(Step(stack, comps[0], rooted), comps[1..], rooted)
  }

  lemma {:induction false} ResolveAppend(stack: seq<string>, xs: seq<string>, ys: seq<string>, rooted: bool)
    ensures Resolve(stack, xs + ys, rooted) == Resolve(Resolve(stack, xs, rooted), ys, rooted)
    decreases |xs|
  {
    if xs != [] {
      assert (xs + ys)[0] == xs[0];
      assert (xs + ys)[1..] == xs[1..] + ys;
      ResolveAppend(Step(stack, xs[0], rooted), xs[1..], ys, rooted);
    } else {
      assert xs + ys == ys;
    }
  }

  /** Below a root, `..` is never kept: every kept component is clean. */
  lemma {:induction false} ResolveRootedClean(stack: seq<string>, comps: seq<string>)
    requires AllClean(stack)
    requires forall k :: 0 <= k < |comps| ==> !Contains(comps[k], '/')
    ensures AllClean(Resolve(stack, comps, true))
    decreases |comps|
  {
    if comps != [] {
      var next := Step(stack, comps[0], true);
      assert AllClean(next) by {
        if stack != [] { assert IsCleanComp(stack[|stack| - 1]); }
      }
      ResolveRootedClean(next, comps[1..]);
    }
  }

  /** Clean components are all kept, in order. */
  lemma {:induction false} ResolveCleanKeeps(stack: seq<string>, comps: seq<string>, rooted: bool)
    requires AllClean(comps)
    ensures Resolve(stack, comps, rooted) == stack + comps
    decreases |comps|
  {
    if comps != [] {
      assert IsCleanComp(comps[0]);
      ResolveCleanKeeps(stack + [comps[0]], comps[1..], rooted);
      assert stack + [comps[0]] + comps[1..] == stack + comps;
    }
  }

  /** Components without `..` are kept in order, dropping empty ones and `.`. */
  function DropEmpty(comps: seq<string>): (r: seq<string>)
    ensures |r| <= |comps|
  {
    if comps == [] then []
    else if comps[0] == [] || comps[0] == "." then DropEmpty(comps[1..])
    else [comps[0]] + DropEmpty(comps[1..])
  }

  lemma {:induction false} ResolveNoParent(stack: seq<string>, comps: seq<string>, rooted: bool)
    requires NoParent(comps)
    ensures Resolve(stack, comps, rooted) == stack + DropEmpty(comps)
    decreases |comps|
  {
    if comps != [] {
      ResolveNoParent(Step(stack, comps[0], rooted), comps[1..], rooted);
      if comps[0] != [] && comps[0] != "." {
        assert stack + [comps[0]] + DropEmpty(comps[1..]) == stack + ([comps[0]] + DropEmpty(comps[1..]));
      }
    }
  }

  /** `os.path.normpath(p)`. */
  function Normpath(p: string): (r: string)
    ensures r != []
  {
    if p == [] then "."
    else
      var lead := LeadingSlashes(p);
      var r := Slashes(lead) + JoinWith(Resolve([], SplitOn(p, '/'), lead > 0), '/');
      if r == [] then "." else r
  }

  /** The normal form of an absolute path: one or two leading slashes, then
      `/`-separated components none of which is empty, `.` or `..`. */
  predicate IsNormalAbs(p: string) {
    && (LeadingSlashes(p) == 1 || LeadingSlashes(p) == 2)
    && (Body(p) == [] || AllClean(SplitOn(Body(p), '/')))
  }

  /** What follows the leading slashes `normpath` keeps. */
  function Body(p: string): string {
    p[LeadingSlashes(p)..]
  }

  /** No component is `..`. */
  predicate NoParent(comps: seq<string>) {
    forall k :: 0 <= k < |comps| ==> comps[k] != ".."
  }

  lemma LeadingOfSlashesThen(lead: nat, body: string)
    requires lead == 1 || lead == 2
    requires body == [] || body[0] != '/'
    ensures LeadingSlashes(Slashes(lead) + body) == lead
    ensures Body(Slashes(lead) + body) == body
  {
  }

  function Empties(n: nat): (r: seq<string>)
    ensures |r| == n
  {
    seq(n, _ => [])
  }

  /** Splitting `lead` slashes followed by `body` gives `lead` empty parts first. */
  lemma {:induction false} SplitSlashesThen(lead: nat, body: string)
    requires lead == 1 || lead == 2
    ensures SplitOn(Slashes(lead) + body, '/') == Empties(lead) + SplitOn(body, '/')
  {
    if lead == 1 {
      SplitAppend([], '/', body);
      assert Slashes(1) + body == [] + ['/'] + body;
    } else {
      SplitAppend([], '/', "/" + body);
      SplitAppend([], '/', body);
      assert Slashes(2) + body == [] + ['/'] + ([] + ['/'] + body);
    }
  }

  lemma ResolveSkipsEmpties(lead: nat, comps: seq<string>, rooted: bool)
    requires lead <= 2
    ensures Resolve([], Empties(lead) + comps, rooted) == Resolve([], comps, rooted)
  {
    ResolveAppend([], Empties(lead), comps, rooted);
    if lead == 2 {
      assert Empties(2) == [[], []];
    } else if lead == 1 {
      assert Empties(1) == [[]];
    }
  }

  lemma JoinCleanStart(cs: seq<string>)
    requires AllClean(cs)
    ensures JoinWith(cs, '/') == [] || JoinWith(cs, '/')[0] != '/'
    ensures cs != [] ==> JoinWith(cs, '/') != []
  {
    if cs != [] {
      assert IsCleanComp(cs[0]);
      assert cs[0][0] != '/' by { assert !Contains(cs[0], '/'); }
    }
  }

  /** Normalising a clean component list under `lead` slashes yields a path
      in normal form. */
  lemma SlashesJoinNormal(lead: nat, cs: seq<string>)
    requires lead == 1 || lead == 2
    requires AllClean(cs)
    ensures IsNormalAbs(Slashes(lead) + JoinWith(cs, '/'))
  {
    var body := JoinWith(cs, '/');
    JoinCleanStart(cs);
    LeadingOfSlashesThen(lead, body);
    if cs != [] {
      SplitJoin(cs, '/');
    }
  }

  /** `normpath` of an absolute path is in normal form. */
  lemma NormpathNormal(p: string)
    requires IsAbs(p)
    ensures IsNormalAbs(Normpath(p))
  {
    var lead := LeadingSlashes(p);
    var cs := Resolve([], SplitOn(p, '/'), true);
    SplitOnNoSep(p, '/');
    ResolveRootedClean([], SplitOn(p, '/'));
    SlashesJoinNormal(lead, cs);
  }

  /** A path in normal form is its own `normpath`. */
  lemma NormpathFixed(q: string)
    requires IsNormalAbs(q)
    ensures Normpath(q) == q
  {
    var lead := LeadingSlashes(q);
    var body := Body(q);
    assert q == Slashes(lead) + body;
    SplitSlashesThen(lead, body);
    ResolveSkipsEmpties(lead, SplitOn(body, '/'), true);
    if body == [] {
      assert SplitOn(body, '/') == [[]];
      assert Resolve([], [[]], true) == [];
    } else {
      var parts := SplitOn(body, '/');
      assert AllClean(parts);
      ResolveCleanKeeps([], parts, true);
      assert Resolve([], parts, true) == parts;
      JoinSplit(body, '/');
      assert Resolve([], SplitOn(q, '/'), true) == parts;
    }
  }

  /** `normpath` is idempotent on absolute paths. */
  lemma NormpathIdempotent(p: string)
    requires IsAbs(p)
    ensures Normpath(Normpath(p)) == Normpath(p)
  {
    NormpathNormal(p);
    NormpathFixed(Normpath(p));
  }

  /** A normal-form path with a non-empty body does not end in a slash. */
  lemma NormalNoTrailingSlash(b: string)
    requires IsNormalAbs(b)
    requires Body(b) != []
    ensures b[|b| - 1] != '/'
  {
    var body := Body(b);
    var parts := SplitOn(body, '/');
    JoinSplit(body, '/');
    JoinEndsWithLast(parts, '/');
    var last := parts[|parts| - 1];
    assert IsCleanComp(last);
    assert last[|last| - 1] != '/' by {
      assert !Contains(last, '/');
    }
    assert b[|b| - 1] == body[|body| - 1] == last[|last| - 1];
  }

  /** The body of a normal-form path does not start with a slash. */
  lemma NormalBodyStart(b: string)
    requires IsNormalAbs(b)
    requires Body(b) != []
    ensures Body(b)[0] != '/'
  {
    var body := Body(b);
    var parts := SplitOn(body, '/');
    assert IsCleanComp(parts[0]);
    JoinSplit(body, '/');
    if |parts| == 1 {
      assert body == parts[0];
    } else {
      assert JoinWith(parts, '/') == parts[0] + ['/'] + JoinWith(parts[1..], '/');
      assert body[0] == parts[0][0];
    }
    assert !Contains(parts[0], '/');
  }

  /** The set of paths `Normpath(Join2(b, s))` can reach from a root-only `b`. */
  lemma NormpathDescendsFromRoot(b: string, s: string)
    requires IsNormalAbs(b)
    requires Body(b) == []
    requires !IsAbs(s)
    requires NoParent(SplitOn(s, '/'))
    ensures Normpath(Join2(b, s)) == b + JoinWith(DropEmpty(SplitOn(s, '/')), '/')
  {
    var lead := LeadingSlashes(b);
    assert b == Slashes(lead);
    var d := DropEmpty(SplitOn(s, '/'));
    var q := Join2(b, s);
    assert q == Slashes(lead) + s;
    LeadingOfSlashesThen(lead, s);
    SplitSlashesThen(lead, s);
    ResolveSkipsEmpties(lead, SplitOn(s, '/'), true);
    ResolveNoParent([], SplitOn(s, '/'), true);
    assert [] + d == d;
  }

  /** Resolving a clean body followed by a segment without `..` keeps the
      body's components and the segment's non-trivial ones. */
  lemma ResolveBodyThen(body: string, s: string)
    requires AllClean(SplitOn(body, '/'))
    requires NoParent(SplitOn(s, '/'))
    ensures Resolve([], SplitOn(body + "/" + s, '/'), true) == SplitOn(body, '/') + DropEmpty(SplitOn(s, '/'))
  {
    var parts := SplitOn(body, '/');
    assert body + "/" + s == body + ['/'] + s;
    SplitAppend(body, '/', s);
    ResolveAppend([], parts, SplitOn(s, '/'), true);
    ResolveCleanKeeps([], parts, true);
    assert [] + parts == parts;
    ResolveNoParent(parts, SplitOn(s, '/'), true);
  }

  lemma NormpathDescendsFromBody(b: string, s: string)
    requires IsNormalAbs(b)
    requires Body(b) != []
    requires !IsAbs(s)
    requires NoParent(SplitOn(s, '/'))
    ensures Normpath(Join2(b, s)) == Slashes(LeadingSlashes(b)) + JoinWith(SplitOn(Body(b), '/') + DropEmpty(SplitOn(s, '/')), '/')
  {
    var lead := LeadingSlashes(b);
    var body := Body(b);
    SlashesThenBody(b);
    NormalNoTrailingSlash(b);
    NormalBodyStart(b);
    var tail := body + "/" + s;
    assert Join2(b, s) == Slashes(lead) + tail;
    assert tail[0] == body[0];
    LeadingOfSlashesThen(lead, tail);
    SplitSlashesThen(lead, tail);
    ResolveSkipsEmpties(lead, SplitOn(tail, '/'), true);
    ResolveBodyThen(body, s);
  }

  /** A path is its leading slashes followed by its body. */
  lemma SlashesThenBody(p: string)
    ensures p == Slashes(LeadingSlashes(p)) + Body(p)
  {
    var lead := LeadingSlashes(p);
    assert p[..lead] == Slashes(lead);
  }

  /** Joining a relative segment without `..` components onto a normal-form
      path and normalising extends that path; a segment made only of `.` and
      empty components leaves it unchanged. */
  lemma NormpathDescends(b: string, s: string)
    requires IsNormalAbs(b)
    requires !IsAbs(s)
    requires NoParent(SplitOn(s, '/'))
    ensures b <= Normpath(Join2(b, s))
    ensures DropEmpty(SplitOn(s, '/')) == [] ==> Normpath(Join2(b, s)) == b
  {
    var lead := LeadingSlashes(b);
    var body := Body(b);
    var d := DropEmpty(SplitOn(s, '/'));
    var r := Normpath(Join2(b, s));
    if body == [] {
      NormpathDescendsFromRoot(b, s);
      assert r == b + JoinWith(d, '/');
    } else {
      NormpathDescendsFromBody(b, s);
      SlashesThenBody(b);
      var parts := SplitOn(body, '/');
      JoinSplit(body, '/');
      JoinedPrefix(Slashes(lead), parts, d, r);
    }
  }

  lemma JoinedPrefix(head: string, parts: seq<string>, d: seq<string>, r: string)
    requires |parts| >= 1
    requires r == head + JoinWith(parts + d, '/')
    ensures head + JoinWith(parts, '/') <= r
    ensures d == [] ==> r == head + JoinWith(parts, '/')
  {
    if d == [] {
      assert parts + d == parts;
    } else {
      JoinPrefix(parts, d, '/');
      assert r == head + JoinWith(parts, '/') + ("/" + JoinWith(d, '/'));
    }
  }

  /** `normpath` of an absolute path, given its resolved components. */
  lemma NormpathOfAbs(p: string, cs: seq<string>)
    requires IsAbs(p)
    requires Resolve([], SplitOn(p, '/'), true) == cs
    ensures Normpath(p) == Slashes(LeadingSlashes(p)) + JoinWith(cs, '/')
  {
  }

  lemma SplitParentThen(ps: seq<string>, y: string)
    requires |ps| >= 1 && AllClean(ps) && IsCleanComp(y)
    ensures SplitOn("/" + (JoinWith(ps, '/') + "/" + (".." + "/" + y)), '/') == Empties(1) + (ps + ["..", y])
  {
    var body := JoinWith(ps, '/');
    var seg := ".." + "/" + y;
    assert SplitOn(seg, '/') == ["..", y] by {
      assert !Contains("..", '/') by { assert ".."[0] != '/' && ".."[1] != '/'; }
      SplitNoSep("..", '/');
      SplitNoSep(y, '/');
      SplitAppend("..", '/', y);
    }
    assert SplitOn(body + "/" + seg, '/') == ps + ["..", y] by {
      SplitAppend(body, '/', seg);
      SplitJoin(ps, '/');
    }
    assert Slashes(1) == "/";
    SplitSlashesThen(1, body + "/" + seg);
  }

  lemma ResolveParentThen(ps: seq<string>, y: string)
    requires |ps| >= 1 && AllClean(ps) && IsCleanComp(y)
    ensures Resolve([], Empties(1) + (ps + ["..", y]), true) == ps[..|ps| - 1] + [y]
  {
    var tailComps := ["..", y];
    var init := ps[..|ps| - 1];
    calc {
      Resolve([], Empties(1) + (ps + tailComps), true);
      { ResolveSkipsEmpties(1, ps + tailComps, true); }
      Resolve([], ps + tailComps, true);
      { ResolveAppend([], ps, tailComps, true); }
      Resolve(Resolve([], ps, true), tailComps, true);
      { ResolveCleanKeeps([], ps, true); assert [] + ps == ps; }
      Resolve(ps, tailComps, true);
      { assert tailComps[0] == ".." && tailComps[1..] == [y]; }
      Resolve(Step(ps, "..", true), [y], true);
      { assert IsCleanComp(ps[|ps| - 1]); }
      Resolve(init, [y], true);
      { assert AllClean([y]); ResolveCleanKeeps(init, [y], true); }
      init + [y];
    }
  }

  /** `"/".join(P)` does not end in a slash when `P` is clean and non-empty. */
  lemma JoinEndsClean(ps: seq<string>)
    requires |ps| >= 1 && AllClean(ps)
    ensures JoinWith(ps, '/') != [] && JoinWith(ps, '/')[|JoinWith(ps, '/')| - 1] != '/'
  {
    var body := JoinWith(ps, '/');
    JoinEndsWithLast(ps, '/');
    var last := ps[|ps| - 1];
    assert IsCleanComp(last);
    assert last[|last| - 1] != '/' by { assert !Contains(last, '/'); }
    assert body[|body| - 1] == last[|last| - 1];
  }

  /** The path `os.path.join("/" + "/".join(P), "../" + y)` builds. */
  function ParentPath(ps: seq<string>, y: string): string {
    "/" + (JoinWith(ps, '/') + "/" + (".." + "/" + y))
  }

  /** Joining a relative segment onto a path that does not end in a slash
      inserts one. */
  lemma JoinInsertsSlash(base: string, seg: string)
    requires base != [] && base[|base| - 1] != '/'
    requires seg != [] && seg[0] != '/'
    ensures Join2(base, seg) == base + "/" + seg
  {
  }

  lemma {:induction false} ParentPathJoin(ps: seq<string>, y: string)
    requires |ps| >= 1 && AllClean(ps)
    ensures Join2("/" + JoinWith(ps, '/'), ".." + "/" + y) == ParentPath(ps, y)
  {
    var body := JoinWith(ps, '/');
    var seg := ".." + "/" + y;
    JoinEndsClean(ps);
    JoinInsertsSlash("/" + body, seg);
    assert ("/" + body) + "/" + seg == "/" + (body + "/" + seg);
  }

  lemma ParentPathLeading(ps: seq<string>, y: string)
    requires |ps| >= 1 && AllClean(ps)
    ensures LeadingSlashes(ParentPath(ps, y)) == 1
  {
    var body := JoinWith(ps, '/');
    var tail := body + "/" + (".." + "/" + y);
    JoinCleanStart(ps);
    assert tail[0] == body[0];
    LeadingOfSlashesThen(1, tail);
    assert Slashes(1) == "/";
  }

  lemma ParentPathResolve(ps: seq<string>, y: string)
    requires |ps| >= 1 && AllClean(ps) && IsCleanComp(y)
    ensures Resolve([], SplitOn(ParentPath(ps, y), '/'), true) == ps[..|ps| - 1] + [y]
  {
    SplitParentThen(ps, y);
    ResolveParentThen(ps, y);
  }

  /** `normpath("/" + "/".join(P) + "/../" + y)` drops the last component of
      `P` and puts `y` in its place. */
  lemma NormpathParentThen(ps: seq<string>, y: string)
    requires |ps| >= 1 && AllClean(ps) && IsCleanComp(y)
    ensures Normpath(Join2("/" + JoinWith(ps, '/'), ".." + "/" + y))
              == "/" + JoinWith(ps[..|ps| - 1] + [y], '/')
  {
    var q := ParentPath(ps, y);
    ParentPathJoin(ps, y);
    ParentPathLeading(ps, y);
    ParentPathResolve(ps, y);
    NormpathOfAbs(q, ps[..|ps| - 1] + [y]);
    assert Slashes(1) == "/";
  }

  // ---------------------------------------------------------------------
  // abspath and relpath

  /** `os.path.abspath(p)` with `cwd` standing for `os.getcwd()`. */
  function Abspath(cwd: AbsPath, p: string): (r: string)
    ensures IsNormalAbs(r)
  {
    var q := if IsAbs(p) then p else Join2(cwd, p);
    NormpathNormal(q);
    Normpath(q)
  }

  /** The `abspath` of a path already in normal form is the path itself. */
  lemma AbspathOfNormal(cwd: AbsPath, q: string)
    requires IsNormalAbs(q)
    ensures Abspath(cwd, q) == q
  {
    NormpathFixed(q);
  }

  /** `[x for x in s.split('/') if x]`. */
  function NonEmptyParts(s: string): (r: seq<string>)
    ensures forall k :: 0 <= k < |r| ==> r[k] != []
  {
    Filter(SplitOn(s, '/'))
  }

  /** `[x for x in parts if x]`. */
  function Filter(parts: seq<string>): (r: seq<string>)
    ensures forall k :: 0 <= k < |r| ==> r[k] != []
  {
    if parts == [] then []
    else if parts[0] == [] then Filter(parts[1..])
    else [parts[0]] + Filter(parts[1..])
  }

  lemma {:induction false} FilterAppend(xs: seq<string>, ys: seq<string>)
    ensures Filter(xs + ys) == Filter(xs) + Filter(ys)
    decreases |xs|
  {
    if xs == [] {
      assert xs + ys == ys;
    } else {
      assert (xs + ys)[1..] == xs[1..] + ys;
      FilterAppend(xs[1..], ys);
    }
  }

  lemma {:induction false} FilterNonEmpty(xs: seq<string>)
    requires forall k :: 0 <= k < |xs| ==> xs[k] != []
    ensures Filter(xs) == xs
    decreases |xs|
  {
    if xs != [] {
      FilterNonEmpty(xs[1..]);
    }
  }

  /** Length of the longest common prefix (`len(commonprefix([a, b]))`). */
  function CommonPrefixLen(a: seq<string>, b: seq<string>): (n: nat)
    ensures n <= |a| && n <= |b|
    ensures a[..n] == b[..n]
    ensures n < |a| && n < |b| ==> a[n] != b[n]
  {
    if a == [] || b == [] || a[0] != b[0] then 0
    else
      var n := 1 + CommonPrefixLen(a[1..], b[1..]);
      assert a[..n] == [a[0]] + a[1..][..n - 1];
      assert b[..n] == [b[0]] + b[1..][..n - 1];
      n
  }

  /** `os.path.relpath(path, start)`. */
  function RelPath(cwd: AbsPath, path: string, start: string): (r: Result<string>)
    ensures r.Raise? <==> path == []
  {
    if path == [] then Raise(Exc(ValueError, "no path specified"))
    else
      var startList := NonEmptyParts(Abspath(cwd, start));
      var pathList := NonEmptyParts(Abspath(cwd, path));
      var i := CommonPrefixLen(startList, pathList);
      var relList := seq(|startList| - i, _ => "..") + pathList[i..];
      if relList == [] then Ok(".") else Ok(JoinPath(relList[0], relList[1..]))
  }
}

=== FILE: pystr.dfy ===
/** Python `str` operations used by the modelled code, on `seq<char>`.

    Characters are Unicode scalar values, so slicing and `len` count code
    points exactly as CPython does. */
module PyStr {

  /** `str.isspace()` for a single character: the characters CPython's
      `str.split()` and `str.strip()` treat as whitespace. */
  predicate IsSpace(c: char) {
    || c == ' ' || c == '\t' || c == '\n' || c == '\r'
    || c == '\U{0B}' || c == '\U{0C}'
    || ('\U{1C}' <= c <= '\U{1F}')
    || c == '\U{85}' || c == '\U{A0}' || c == '\U{1680}'
    || ('\U{2000}' <= c <= '\U{200A}')
    || c == '\U{2028}' || c == '\U{2029}' || c == '\U{202F}'
    || c == '\U{205F}' || c == '\U{3000}'
  }

  predicate NoSpace(s: string) {
    forall i :: 0 <= i < |s| ==> !IsSpace(s[i])
  }

  predicate AllSpace(s: string) {
    forall i :: 0 <= i < |s| ==> IsSpace(s[i])
  }

  predicate IsDigit(c: char) {
    '0' <= c <= '9'
  }

  predicate AllDigits(s: string) {
    forall i :: 0 <= i < |s| ==> IsDigit(s[i])
  }

  predicate IsLowerHex(c: char) {
    IsDigit(c) || 'a' <= c <= 'f'
  }

  predicate AllLowerHex(s: string) {
    forall i :: 0 <= i < |s| ==> IsLowerHex(s[i])
  }

  function Min(a: int, b: int): int {
    if a <= b then a else b
  }

  /** `s[:n]` for a non-negative `n`. */
  function Take(s: string, n: nat): (r: string)
    ensures |r| == Min(n, |s|)
    ensures r <= s
  {
    if n <= |s| then s[..n] else s
  }

  /** `s.endswith(suffix)`. */
  predicate EndsWith(s: string, suffix: string) {
    |suffix| <= |s| && s[|s| - |suffix|..] == suffix
  }

  /** `c in s` for a one-character `c`. */
  predicate Contains(s: string, c: char) {
    exists i :: 0 <= i < |s| && s[i] == c
  }

  /** `needle in haystack` for strings. */
  predicate IsSubstring(needle: string, haystack: string) {
    exists i :: 0 <= i <= |haystack| && OccursAt(needle, haystack, i)
  }

  predicate OccursAt(needle: string, haystack: string, i: nat) {
    i + |needle| <= |haystack| && haystack[i..i + |needle|] == needle
  }

  // ---------------------------------------------------------------------
  // strip

  /** Index of the first non-whitespace character at or after `i` (|s| if none). */
  function SkipSpace(s: string, i: nat): (j: nat)
    requires i <= |s|
    ensures i <= j <= |s|
    ensures AllSpace(s[i..j])
    ensures j < |s| ==> !IsSpace(s[j])
    decreases |s| - i
  {
    if i == |s| || !IsSpace(s[i]) then i else SkipSpace(s, i + 1)
  }

  /** Index just after the last non-whitespace character before `j` (0 if none). */
  function BackSpace(s: string, j: nat): (i: nat)
    requires j <= |s|
    ensures i <= j
    ensures AllSpace(s[i..j])
    ensures 0 < i ==> !IsSpace(s[i - 1])
  {
    if j == 0 || !IsSpace(s[j - 1]) then j
    else
      var i := BackSpace(s, j - 1);
      assert s[i..j] == s[i..j - 1] + [s[j - 1]];
      i
  }

  /** `s.strip()` with no argument: drops leading and trailing whitespace. */
  function Strip(s: string): (r: string)
    ensures |r| <= |s|
    ensures r == [] || (!IsSpace(r[0]) && !IsSpace(r[|r| - 1]))
  {
    var i := SkipSpace(s, 0);
    var t := s[i..];
    var j := BackSpace(t, |t|);
    t[..j]
  }

  /** `s` is `w` with only whitespace before and after it. */
  predicate PaddedWord(s: string, w: string) {
    exists i :: 0 <= i && i + |w| <= |s| && AllSpace(s[..i]) && s[i..i + |w|] == w && AllSpace(s[i + |w|..])
  }

  /** `s.strip() == w` for a word with no whitespace at its ends exactly
      when `s` is that word padded with whitespace. */
  lemma StripIsPadded(s: string, w: string)
    requires w != [] && !IsSpace(w[0]) && !IsSpace(w[|w| - 1])
    ensures Strip(s) == w <==> PaddedWord(s, w)
  {
    if Strip(s) == w {
      StripPaddedWord(s);
    }
    if PaddedWord(s, w) {
      var i :| 0 <= i && i + |w| <= |s| && AllSpace(s[..i]) && s[i..i + |w|] == w && AllSpace(s[i + |w|..]);
      PaddedStrip(s, w, i);
    }
  }

  lemma StripPaddedWord(s: string)
    ensures PaddedWord(s, Strip(s))
  {
    StripSlice(s);
    var i, j :| 0 <= i <= j <= |s| && Strip(s) == s[i..j] && AllSpace(s[..i]) && AllSpace(s[j..]);
    assert s[i..i + |Strip(s)|] == Strip(s);
  }

  lemma PaddedStrip(s: string, w: string, i: nat)
    requires w != [] && !IsSpace(w[0]) && !IsSpace(w[|w| - 1])
    requires i + |w| <= |s| && AllSpace(s[..i]) && s[i..i + |w|] == w && AllSpace(s[i + |w|..])
    ensures Strip(s) == w
  {
    assert s == s[..i] + w + s[i + |w|..];
    StripPadded(s[..i], w, s[i + |w|..]);
  }

  /** What `strip()` removes is whitespace at both ends. */
  lemma StripSlice(s: string)
    ensures exists i, j :: 0 <= i <= j <= |s| && Strip(s) == s[i..j] && AllSpace(s[..i]) && AllSpace(s[j..])
  {
    var i := SkipSpace(s, 0);
    var t := s[i..];
    var j := BackSpace(t, |t|);
    assert s[0..i] == s[..i];
    assert t[j..|t|] == t[j..] == s[i + j..];
    assert t[..j] == s[i..i + j];
  }

  /** A string with no whitespace at either end is its own `strip()`. */
  lemma StripTrimmed(s: string)
    requires s == [] || (!IsSpace(s[0]) && !IsSpace(s[|s| - 1]))
    ensures Strip(s) == s
  {
    if s != [] {
      assert SkipSpace(s, 0) == 0;
      assert BackSpace(s, |s|) == |s|;
    }
  }

  lemma {:induction false} SkipSpaceTo(s: string, i: nat, k: nat)
    requires i <= k < |s|
    requires AllSpace(s[i..k]) && !IsSpace(s[k])
    ensures SkipSpace(s, i) == k
    decreases k - i
  {
    if i < k {
      assert IsSpace(s[i..k][0]);
      assert s[i + 1..k] == s[i..k][1..];
      SkipSpaceTo(s, i + 1, k);
    }
  }

  lemma {:induction false} BackSpaceTo(s: string, j: nat, k: nat)
    requires 0 < k <= j <= |s|
    requires AllSpace(s[k..j]) && !IsSpace(s[k - 1])
    ensures BackSpace(s, j) == k
    decreases j - k
  {
    if k < j {
      assert IsSpace(s[k..j][j - 1 - k]);
      assert AllSpace(s[k..j - 1]) by {
        var u := s[k..j - 1];
        forall m | 0 <= m < |u| ensures IsSpace(u[m]) {
          assert u[m] == s[k..j][m];
        }
      }
      BackSpaceTo(s, j - 1, k);
    }
  }

  /** Whitespace around a trimmed, non-empty string is exactly what
      `strip()` removes. */
  lemma StripPadded(pre: string, t: string, post: string)
    requires AllSpace(pre) && AllSpace(post)
    requires t != [] && !IsSpace(t[0]) && !IsSpace(t[|t| - 1])
    ensures Strip(pre + t + post) == t
  {
    var s := pre + t + post;
    assert s[0..|pre|] == pre;
    SkipSpaceTo(s, 0, |pre|);
    var u := s[|pre|..];
    assert u == t + post;
    assert u[|t|..|u|] == post;
    BackSpaceTo(u, |u|, |t|);
    assert u[..|t|] == t;
  }

  // ---------------------------------------------------------------------
  // split(sep) and sep.join

  /** `s.split(sep)` for a one-character separator: always at least one part. */
  function SplitOn(s: string, sep: char): (parts: seq<string>)
    ensures |parts| >= 1
    decreases |s|
  {
    if s == [] then [[]]
    else if s[0] == sep then [[]] + SplitOn(s[1..], sep)
    else
      var rest := SplitOn(s[1..], sep);
      [[s[0]] + rest[0]] + rest[1..]
  }

  /** No part of a split holds the separator. */
  lemma {:induction false} SplitOnNoSep(s: string, sep: char)
    ensures NoneContains(SplitOn(s, sep), sep)
    decreases |s|
  {
    if s != [] {
      SplitOnNoSep(s[1..], sep);
      var rest := SplitOn(s[1..], sep);
      if s[0] != sep {
        assert !Contains(rest[0], sep);
        var first := [s[0]] + rest[0];
        assert !Contains(first, sep) by {
          forall i | 0 <= i < |first| ensures first[i] != sep {
            if i > 0 { assert first[i] == rest[0][i - 1]; }
          }
        }
        var parts := SplitOn(s, sep);
        forall k | 0 <= k < |parts| ensures !Contains(parts[k], sep) {
          if k > 0 { assert parts[k] == rest[k]; }
        }
      }
    }
  }

  predicate NoneContains(parts: seq<string>, sep: char) {
    forall k :: 0 <= k < |parts| ==> !Contains(parts[k], sep)
  }

  /** `sep.join(parts)`. */
  function JoinWith(parts: seq<string>, sep: char): string
  {
    if |parts| == 0 then []
    else if |parts| == 1 then parts[0]
    else parts[0] + [sep] + JoinWith(parts[1..], sep)
  }

  /** Joining after gluing a character onto the first part glues it onto
      the join. */
  lemma JoinOntoFirst(c: char, rest: seq<string>, sep: char)
    requires |rest| >= 1
    ensures JoinWith([[c] + rest[0]] + rest[1..], sep) == [c] + JoinWith(rest, sep)
  {
    var parts := [[c] + rest[0]] + rest[1..];
    assert parts[0] == [c] + rest[0] && parts[1..] == rest[1..];
    if |rest| >= 2 {
      assert [c] + rest[0] + [sep] + JoinWith(rest[1..], sep) == [c] + (rest[0] + [sep] + JoinWith(rest[1..], sep));
    }
  }

  /** `sep.join(s.split(sep)) == s`. */
  lemma {:induction false} JoinSplit(s: string, sep: char)
    ensures JoinWith(SplitOn(s, sep), sep) == s
    decreases |s|
  {
    if s == [] {
    } else if s[0] == sep {
      JoinSplit(s[1..], sep);
      assert s == [sep] + s[1..];
    } else {
      JoinSplit(s[1..], sep);
      JoinOntoFirst(s[0], SplitOn(s[1..], sep), sep);
      assert s == [s[0]] + s[1..];
    }
  }

  /** One step of `SplitOn`. */
  lemma SplitCons(c: char, t: string, sep: char)
    ensures c == sep ==> SplitOn([c] + t, sep) == [[]] + SplitOn(t, sep)
    ensures c != sep ==> SplitOn([c] + t, sep) == [[c] + SplitOn(t, sep)[0]] + SplitOn(t, sep)[1..]
  {
    assert ([c] + t)[1..] == t;
  }

  lemma ConsOntoFirst(c: char, xs: seq<string>, ys: seq<string>)
    requires |xs| >= 1
    ensures [[c] + (xs + ys)[0]] + (xs + ys)[1..] == ([[c] + xs[0]] + xs[1..]) + ys
  {
    assert (xs + ys)[1..] == xs[1..] + ys;
  }

  /** Splitting at a separator splits the parts. */
  lemma {:induction false} SplitAppend(a: string, sep: char, b: string)
    ensures SplitOn(a + [sep] + b, sep) == SplitOn(a, sep) + SplitOn(b, sep)
    decreases |a|
  {
    if a == [] {
      assert a + [sep] + b == [sep] + b;
      SplitCons(sep, b, sep);
    } else {
      var t := a[1..] + [sep] + b;
      assert a + [sep] + b == [a[0]] + t;
      assert a == [a[0]] + a[1..];
      SplitCons(a[0], t, sep);
      SplitCons(a[0], a[1..], sep);
      SplitAppend(a[1..], sep, b);
      var ra := SplitOn(a[1..], sep);
      var rb := SplitOn(b, sep);
      if a[0] != sep {
        ConsOntoFirst(a[0], ra, rb);
      } else {
        assert [[]] + (ra + rb) == ([[]] + ra) + rb;
      }
    }
  }

  /** A string without the separator splits into itself. */
  lemma {:induction false} SplitNoSep(s: string, sep: char)
    requires !Contains(s, sep)
    ensures SplitOn(s, sep) == [s]
    decreases |s|
  {
    if s != [] {
      assert s[0] != sep;
      assert !Contains(s[1..], sep) by {
        forall i | 0 <= i < |s[1..]| ensures s[1..][i] != sep {
          assert s[1..][i] == s[i + 1];
        }
      }
      SplitNoSep(s[1..], sep);
      assert s == [s[0]] + s[1..];
    }
  }

  /** `sep.join(parts).split(sep) == parts` when no part holds the separator. */
  lemma {:induction false} SplitJoin(parts: seq<string>, sep: char)
    requires |parts| >= 1
    requires NoneContains(parts, sep)
    ensures SplitOn(JoinWith(parts, sep), sep) == parts
    decreases |parts|
  {
    if |parts| == 1 {
      SplitNoSep(parts[0], sep);
    } else {
      SplitJoin(parts[1..], sep);
      SplitAppend(parts[0], sep, JoinWith(parts[1..], sep));
      SplitNoSep(parts[0], sep);
      assert parts == [parts[0]] + parts[1..];
    }
  }

  /** A joined string ends with its last part. */
  lemma {:induction false} JoinEndsWithLast(parts: seq<string>, sep: char)
    requires |parts| >= 1
    ensures EndsWith(JoinWith(parts, sep), parts[|parts| - 1])
    decreases |parts|
  {
    if |parts| > 1 {
      JoinEndsWithLast(parts[1..], sep);
      var j := JoinWith(parts, sep);
      var t := JoinWith(parts[1..], sep);
      assert j == (parts[0] + [sep]) + t;
      assert j[|j| - |t|..] == t;
    }
  }

  /** A joined string starts with its first part. */
  lemma JoinStartsWithFirst(parts: seq<string>, sep: char)
    requires |parts| >= 1
    ensures parts[0] <= JoinWith(parts, sep)
  {
  }

  /** Joining more parts extends the joined string. */
  lemma {:induction false} JoinPrefix(xs: seq<string>, ys: seq<string>, sep: char)
    requires |xs| >= 1 && |ys| >= 1
    ensures JoinWith(xs + ys, sep) == JoinWith(xs, sep) + [sep] + JoinWith(ys, sep)
    decreases |xs|
  {
    if |xs| == 1 {
      assert (xs + ys)[1..] == ys;
    } else {
      assert (xs + ys)[1..] == xs[1..] + ys;
      JoinPrefix(xs[1..], ys, sep);
    }
  }

  // ---------------------------------------------------------------------
  // splitlines and split()

  /** The line boundaries of `str.splitlines()`. */
  predicate IsLineBreak(c: char) {
    || c == '\n' || c == '\r' || c == '\U{0B}' || c == '\U{0C}'
    || c == '\U{1C}' || c == '\U{1D}' || c == '\U{1E}' || c == '\U{85}'
    || c == '\U{2028}' || c == '\U{2029}'
  }

  predicate NoLineBreak(s: string) {
    forall i :: 0 <= i < |s| ==> !IsLineBreak(s[i])
  }

  /** Every line boundary is whitespace, so a text without whitespace
      has no boundary. */
  lemma NoSpaceNoLineBreak(s: string)
    requires NoSpace(s)
    ensures NoLineBreak(s)
  {
    forall i | 0 <= i < |s| ensures !IsLineBreak(s[i]) {
      assert !IsSpace(s[i]);
    }
  }

  lemma NoLineBreakConcat(a: string, b: string)
    requires NoLineBreak(a) && NoLineBreak(b)
    ensures NoLineBreak(a + b)
  {
    forall i | 0 <= i < |a + b| ensures !IsLineBreak((a + b)[i]) {
      if i >= |a| { assert (a + b)[i] == b[i - |a|]; }
    }
  }

  /** Length of the first line of `s` (up to, not including, the first boundary). */
  function LineEnd(s: string): (n: nat)
    ensures n <= |s|
    ensures NoLineBreak(s[..n])
    ensures n < |s| ==> IsLineBreak(s[n])
  {
    if s == [] || IsLineBreak(s[0]) then 0
    else
      var n := 1 + LineEnd(s[1..]);
      assert NoLineBreak(s[..n]) by {
        forall i | 0 <= i < n ensures !IsLineBreak(s[..n][i]) {
          if i > 0 { assert s[..n][i] == s[1..][..n - 1][i - 1]; }
        }
      }
      n
  }

  /** `s.splitlines()`: lines without their boundaries; `\r\n` is one
      boundary; no trailing empty line. */
  function SplitLines(s: string): (lines: seq<string>)
    ensures forall k :: 0 <= k < |lines| ==> NoLineBreak(lines[k])
    ensures s == [] <==> lines == []
    decreases |s|
  {
    if s == [] then []
    else
      var n := LineEnd(s);
      if n == |s| then [s]
      else
        var skip := if s[n] == '\r' && n + 1 < |s| && s[n + 1] == '\n' then n + 2 else n + 1;
        [s[..n]] + SplitLines(s[skip..])
  }

  /** The text `l1 \n l2 \n ...`: every line followed by a newline, the
      form in which a command prints its output lines. */
  function Terminated(lines: seq<string>): string
    decreases |lines|
  {
    if lines == [] then [] else lines[0] + "\n" + Terminated(lines[1..])
  }

  /** A first line without boundaries, followed by a boundary or by
      nothing, ends where that line ends. */
  lemma {:induction false} LineEndAt(a: string, rest: string)
    requires NoLineBreak(a)
    requires rest == [] || IsLineBreak(rest[0])
    ensures LineEnd(a + rest) == |a|
    decreases |a|
  {
    if a == [] {
      assert a + rest == rest;
    } else {
      assert (a + rest)[1..] == a[1..] + rest;
      LineEndAt(a[1..], rest);
    }
  }

  /** A line without boundaries followed by `\n` splits off as one line,
      and a non-empty text without boundaries is a single line. */
  lemma {:induction false} SplitLinesCons(a: string, b: string)
    requires NoLineBreak(a)
    ensures SplitLines(a + "\n" + b) == [a] + SplitLines(b)
    ensures a != [] ==> SplitLines(a) == [a]
  {
    var s := a + "\n" + b;
    assert s == a + ("\n" + b);
    LineEndAt(a, "\n" + b);
    assert s[|a|] == '\n' && s[..|a|] == a && s[|a| + 1..] == b;
    if a != [] {
      LineEndAt(a, []);
      assert a + [] == a;
    }
  }

  /** Round trip: the lines of a newline-terminated text are the lines it
      was built from. */
  lemma {:induction false} SplitLinesTerminated(lines: seq<string>)
    requires forall k :: 0 <= k < |lines| ==> NoLineBreak(lines[k])
    ensures SplitLines(Terminated(lines)) == lines
    decreases |lines|
  {
    if lines != [] {
      SplitLinesCons(lines[0], Terminated(lines[1..]));
      SplitLinesTerminated(lines[1..]);
    }
  }

  /** Index range of the first whitespace-separated word of `s` at or after
      position 0; `None` when `s` is all whitespace (`s.split()` is empty). */
  function FirstWord(s: string): (w: Option<string>)
    ensures w.None? <==> AllSpace(s)
    ensures w.Some? ==>
      && w.value != [] && NoSpace(w.value)
      && exists i :: (0 <= i && i + |w.value| <= |s| && AllSpace(s[..i]) && s[i..i + |w.value|] == w.value
                      && (i + |w.value| == |s| || IsSpace(s[i + |w.value|])))
  {
    var i := SkipSpace(s, 0);
    assert s[0..i] == s[..i];
    if i == |s| then
      assert s[..i] == s;
      None
    else
      var j := WordEnd(s, i);
      Some(s[i..j])
  }

  function WordEnd(s: string, i: nat): (j: nat)
    requires i <= |s|
    ensures i <= j <= |s|
    ensures NoSpace(s[i..j])
    ensures j < |s| ==> IsSpace(s[j])
    decreases |s| - i
  {
    if i == |s| || IsSpace(s[i]) then i else WordEnd(s, i + 1)
  }

  datatype Option<+T> = None | Some(value: T)

  // ---------------------------------------------------------------------
  // decimal integers

  function DigitChar(d: nat): char
    requires d < 10
  {
    ['0', '1', '2', '3', '4', '5', '6', '7', '8', '9'][d]
  }

  function DigitValue(c: char): nat
    requires IsDigit(c)
  {
    (c as int - '0' as int) as nat
  }

  /** Decimal digits of `n` without leading zeros (`str(n)` for `n >= 0`). */
  function NatToDigits(n: nat): (s: string)
    ensures |s| >= 1 && AllDigits(s)
    ensures |s| > 1 ==> s[0] != '0'
  {
    if n < 10 then [DigitChar(n)]
    else NatToDigits(n / 10) + [DigitChar(n % 10)]
  }

  /** Value of a run of decimal digits. */
  function DigitsValue(s: string): nat
    requires AllDigits(s)
  {
    if s == [] then 0
    else DigitsValue(s[..|s| - 1]) * 10 + DigitValue(s[|s| - 1])
  }

  /** `str(i)` for a Python int. */
  function IntToStr(i: int): (s: string)
    ensures |s| >= 1 && NoSpace(s)
  {
    if i < 0 then "-" + NatToDigits(-i) else NatToDigits(i)
  }

  /** `int(s)` for a string: surrounding whitespace, an optional sign and
      one or more ASCII digits; anything else is a `ValueError` (`None`). */
  function ParseInt(s: string): (r: Option<int>)
  {
    var t := Strip(s);
    if t != [] && (t[0] == '-' || t[0] == '+') then
      var ds := t[1..];
      if ds != [] && AllDigits(ds) then
        Some(if t[0] == '-' then 0 - DigitsValue(ds) else DigitsValue(ds))
      else None
    else if t != [] && AllDigits(t) then
      assert t[0..] == t;
      Some(DigitsValue(t))
    else None
  }

  lemma {:induction false} DigitsRoundTrip(n: nat)
    ensures DigitsValue(NatToDigits(n)) == n
  {
    if n >= 10 {
      DigitsRoundTrip(n / 10);
      var s := NatToDigits(n);
      assert s == NatToDigits(n / 10) + [DigitChar(n % 10)];
      assert s[..|s| - 1] == NatToDigits(n / 10);
      DigitCharValue(n % 10);
    } else {
      DigitCharValue(n);
    }
  }

  lemma {:induction false} DigitsParse(s: string)
    requires s != [] && AllDigits(s)
    ensures ParseInt(s) == Some(DigitsValue(s))
  {
    assert IsDigit(s[0]) && IsDigit(s[|s| - 1]);
    StripTrimmed(s);
  }

  lemma {:induction false} NegDigitsParse(s: string)
    requires s != [] && AllDigits(s)
    ensures ParseInt("-" + s) == Some(0 - DigitsValue(s))
  {
    var t := "-" + s;
    assert t[0] == '-' && t[|t| - 1] == s[|s| - 1];
    assert IsDigit(s[|s| - 1]);
    StripTrimmed(t);
    assert t[1..] == s;
  }

  /** `int(str(i)) == i`. */
  lemma {:induction false} IntRoundTrip(i: int)
    ensures ParseInt(IntToStr(i)) == Some(i)
  {
    if i < 0 {
      assert IntToStr(i) == "-" + NatToDigits(-i);
      NegRoundTrip(-i);
    } else {
      NatRoundTrip(i);
    }
  }

  lemma {:induction false} NatRoundTrip(n: nat)
    ensures ParseInt(NatToDigits(n)) == Some(n)
  {
    DigitsParse(NatToDigits(n));
    DigitsRoundTrip(n);
  }

  lemma {:induction false} NegRoundTrip(n: nat)
    requires n > 0
    ensures ParseInt("-" + NatToDigits(n)) == Some(0 - n)
  {
    NegDigitsParse(NatToDigits(n));
    DigitsRoundTrip(n);
  }

  function Pow10(w: nat): (p: nat)
    ensures p >= 1
  {
    if w == 0 then 1 else 10 * Pow10(w - 1)
  }

  /** The last `w` decimal digits of `n`, zero-padded on the left: the
      `%0<w>d` format for `n < 10^w`. */
  function Digits(n: nat, w: nat): (s: string)
    ensures |s| == w && AllDigits(s)
  {
    if w == 0 then [] else Digits(n / 10, w - 1) + [DigitChar(n % 10)]
  }

  lemma DigitCharValue(d: nat)
    requires d < 10
    ensures DigitValue(DigitChar(d)) == d
  {
  }

  /** Below `10^w`, distinct numbers have distinct `w`-digit forms. */
  lemma {:induction false} DigitsInjective(a: nat, b: nat, w: nat)
    requires a < Pow10(w) && b < Pow10(w)
    requires Digits(a, w) == Digits(b, w)
    ensures a == b
  {
    if w > 0 {
      var da, db := Digits(a, w), Digits(b, w);
      assert da[w - 1] == db[w - 1];
      DigitCharValue(a % 10);
      DigitCharValue(b % 10);
      assert da[..w - 1] == Digits(a / 10, w - 1);
      assert db[..w - 1] == Digits(b / 10, w - 1);
      DigitsInjective(a / 10, b / 10, w - 1);
    }
  }

  lemma {:induction false} WordEndTo(s: string, i: nat, k: nat)
    requires i <= k <= |s|
    requires NoSpace(s[i..k]) && (k == |s| || IsSpace(s[k]))
    ensures WordEnd(s, i) == k
    decreases k - i
  {
    if i < k {
      assert !IsSpace(s[i..k][0]);
      assert s[i + 1..k] == s[i..k][1..];
      WordEndTo(s, i + 1, k);
    }
  }

  /** The first word of leading whitespace, a word, and whitespace or
      nothing after it is that word (`s.split()[0]`). */
  lemma FirstWordPadded(pre: string, w: string, post: string)
    requires AllSpace(pre) && w != [] && NoSpace(w)
    requires post == [] || IsSpace(post[0])
    ensures FirstWord(pre + w + post) == Some(w)
  {
    var s := pre + w + post;
    assert s[0..|pre|] == pre;
    assert s[|pre|] == w[0];
    SkipSpaceTo(s, 0, |pre|);
    assert s[|pre|..|pre| + |w|] == w;
    if post != [] {
      assert s[|pre| + |w|] == post[0];
    }
    WordEndTo(s, |pre|, |pre| + |w|);
  }

  // ---------------------------------------------------------------------
  // replace

  /** `s.replace(c, "")` for a one-character `c`. */
  function Without(s: string, c: char): (r: string)
    ensures !Contains(r, c)
    ensures |r| <= |s|
  {
    if s == [] then []
    else if s[0] == c then Without(s[1..], c)
    else [s[0]] + Without(s[1..], c)
  }

  lemma {:induction false} WithoutAppend(a: string, b: string, c: char)
    ensures Without(a + b, c) == Without(a, c) + Without(b, c)
    decreases |a|
  {
    if a == [] {
      assert a + b == b;
    } else {
      assert (a + b)[1..] == a[1..] + b;
      WithoutAppend(a[1..], b, c);
    }
  }

  lemma {:induction false} WithoutAbsent(s: string, c: char)
    requires !Contains(s, c)
    ensures Without(s, c) == s
    decreases |s|
  {
    if s != [] {
      WithoutAbsent(s[1..], c);
    }
  }
}

=== FILE: pyvalue.dfy ===
/** Python values as the modelled code handles them: dictionaries built
    for task records and JSON replies, request bodies, and exceptions. */
module PyValue {
  import opened PyStr

  /** A JSON-compatible Python value. Floats are not modelled. */
  datatype Py =
    | PNone
    | PBool(b: bool)
    | PInt(i: int)
    | PStr(s: string)
    | PList(items: seq<Py>)
    | PDict(entries: map<string, Py>)

  /** Python truthiness (`bool(v)`). */
  predicate Truthy(v: Py) {
    match v
    case PNone => false
    case PBool(b) => b
    case PInt(i) => i != 0
    case PStr(s) => s != []
    case PList(items) => items != []
    case PDict(entries) => entries != map[]
  }

  /** `isinstance(v, int)`: `bool` is a subclass of `int`. */
  predicate IsPyInt(v: Py) {
    v.PInt? || v.PBool?
  }

  /** The value of an `int` or `bool` (`int(v)`). */
  function PyIntValue(v: Py): int
    requires IsPyInt(v)
  {
    match v
    case PInt(i) => i
    case PBool(b) => if b then 1 else 0
  }

  /** `str(v)` for an `int` or `bool`. */
  function PyIntStr(v: Py): string
    requires IsPyInt(v)
  {
    match v
    case PInt(i) => IntToStr(i)
    case PBool(b) => if b then "True" else "False"
  }

  /** `type(v).__name__`. */
  function TypeName(v: Py): string {
    match v
    case PNone => "NoneType"
    case PBool(_) => "bool"
    case PInt(_) => "int"
    case PStr(_) => "str"
    case PList(_) => "list"
    case PDict(_) => "dict"
  }

  /** A Python dict with string keys. */
  type Dict = map<string, Py>

  /** `d.get(key)`: the value, or `None` when the key is absent. */
  function Get(d: Dict, key: string): (v: Py)
    ensures key !in d ==> v == PNone
    ensures key in d ==> v == d[key]
  {
    if key in d then d[key] else PNone
  }

  /** The exception classes the modelled code raises or catches. */
  datatype ExcKind =
    | FileNotFoundError
    | ValueError
    | RuntimeError
    | ConnectionError
    | TimeoutExpired
    | KeyError
    | TypeError
    | IndexError
    | AttributeError
    | OSError

  /** A raised exception; `text` is what `str(e)` gives. */
  datatype Exc = Exc(kind: ExcKind, text: string)

  /** The outcome of a Python call that returns a value or raises. */
  datatype Result<+T> = Ok(value: T) | Raise(exc: Exc)

  /** The `{code, msg, data}` JSON envelope of the HTTP routes; `data` is
      `None` when the reply has no `data` key at all. */
  datatype Reply = Reply(code: int, msg: string, data: Option<Py>)

  /** What a Flask view produces: a JSON reply, an `abort(status)`, a file
      sent from a directory, or an exception escaping the view (which Flask
      answers with status 500). */
  datatype Response =
    | Json(reply: Reply)
    | Abort(status: int, description: string)
    | SendFile(directory: string, filename: string)
    | Uncaught(exc: Exc)

  /** A subprocess that ran to completion (`subprocess.CompletedProcess`). */
  datatype Proc = Proc(returncode: int, stdout: string, stderr: string)

  /** Launching and waiting for a subprocess: it completed, or the call
      raised (missing executable, `TimeoutExpired`, ...). */
  datatype Run = Ran(proc: Proc) | Failed(exc: Exc)

  /** Whether a subprocess completed with return code 0. */
  predicate Succeeded(run: Run) {
    run.Ran? && run.proc.returncode == 0
  }

  /** The argument vector of a subprocess. */
  type Argv = seq<string>
}

=== FILE: report_routes.dfy ===
/** The report routes of app/routes/report.py: the report lookup and the
    static file endpoint with its containment and existence checks.
    Existence answers are parameters; `send_from_directory` is the
    `SendFile` response. */
module ReportRoutes {
  import opened PyStr
  import opened PyValue
  import opened PosixPath
  import opened PathUtil
  import opened TestRoutes

  /** `test_tasks.get(task_id)` and then its `allure_html_dir`, when both
      are truthy. */
  function ReportDir(tasks: Registry, taskId: string): (v: Option<Py>)
    ensures v.Some? ==> Truthy(v.value)
    ensures v.Some? <==> taskId in tasks && "allure_html_dir" in tasks[taskId] && Truthy(tasks[taskId]["allure_html_dir"])
  {
    if taskId !in tasks || tasks[taskId] == map[] then None
    else
      var v := Get(tasks[taskId], "allure_html_dir");
      if Truthy(v) then Some(v) else None
  }

  const NoReport: string := "报告不存在（任务未完成或目录错误）"

  /** `get_report(task_id)`; `dirExists` is what `os.path.exists` answers
      for the stored directory, which raises `TypeError` for a list or a
      dict. */
  function GetReport(tasks: Registry, taskId: string, dirExists: bool): (r: Response)
    ensures ReportDir(tasks, taskId).None? ==> r == Json(Reply(400, NoReport, None))
    ensures r.Json? && r.reply.code == 200 <==> ReportDir(tasks, taskId).Some? && !ReportDir(tasks, taskId).value.PList?
                                                && !ReportDir(tasks, taskId).value.PDict? && dirExists
    ensures r.Json? && r.reply.code == 200 ==>
              r.reply == Reply(200, "成功", Some(PDict(map["allure_html_dir" := ReportDir(tasks, taskId).value,
                                                         "access_url" := PStr(ReportUrl(taskId))])))
  {
    match ReportDir(tasks, taskId)
    case None => Json(Reply(400, NoReport, None))
    case Some(v) =>
      if v.PList? || v.PDict? then
        Uncaught(Exc(TypeError, "stat: path should be string, bytes, os.PathLike or integer, not " + TypeName(v)))
      else if !dirExists then Json(Reply(400, "静态报告目录不存在", None))
      else Json(Reply(200, "成功", Some(PDict(map["allure_html_dir" := v, "access_url" := PStr(ReportUrl(taskId))]))))
  }

  /** What the `<path:filename>` converter matches: a non-empty path whose
      first character is not `/`. */
  predicate PathArg(filename: string) {
    filename != [] && filename[0] != '/'
  }

  /** The containment test of `get_report_file`: the `abspath` of the
      joined file has the `abspath` of the directory as a string prefix. */
  predicate Contained(cwd: AbsPath, dir: string, filename: string) {
    Abspath(cwd, dir) <= Abspath(cwd, Join2(dir, filename))
  }

  /** `get_report_file(task_id, filename)`; `fileExists` is what
      `os.path.exists` answers for the joined path. */
  function GetReportFile(cwd: AbsPath, tasks: Registry, taskId: string, filename: string, fileExists: bool): (r: Response)
    requires PathArg(filename)
    ensures ReportDir(tasks, taskId).None? ==> r == Abort(404, "任务不存在或报告未生成")
    ensures ReportDir(tasks, taskId).Some? && !ReportDir(tasks, taskId).value.PStr? ==> r.Uncaught? && r.exc.kind == TypeError
    ensures r.SendFile? <==> ReportDir(tasks, taskId).Some? && ReportDir(tasks, taskId).value.PStr?
                             && Contained(cwd, ReportDir(tasks, taskId).value.s, filename) && fileExists
    ensures r.SendFile? ==> r == SendFile(ReportDir(tasks, taskId).value.s, filename)
    ensures ReportDir(tasks, taskId).Some? && ReportDir(tasks, taskId).value.PStr? ==>
              && (!Contained(cwd, ReportDir(tasks, taskId).value.s, filename) ==> r == Abort(403, "非法文件访问"))
              && (Contained(cwd, ReportDir(tasks, taskId).value.s, filename) && !fileExists ==>
                    r == Abort(404, "文件不存在：" + filename))
  {
    match ReportDir(tasks, taskId)
    case None => Abort(404, "任务不存在或报告未生成")
    case Some(v) =>
      if !v.PStr? then Uncaught(Exc(TypeError, "expected str, bytes or os.PathLike object, not " + TypeName(v)))
      else if !Contained(cwd, v.s, filename) then Abort(403, "非法文件访问")
      else if !fileExists then Abort(404, "文件不存在：" + filename)
      else SendFile(v.s, filename)
  }

  /** For a directory in normal form the endpoint's containment test is
      `safe_join`'s acceptance of the file name. */
  lemma ContainedIsSafeJoin(cwd: AbsPath, dir: string, filename: string)
    requires IsNormalAbs(dir) && PathArg(filename)
    ensures Contained(cwd, dir, filename) <==> SafeJoin(cwd, dir, [filename]).Ok?
  {
    AbspathOfNormal(cwd, dir);
    assert JoinPath(dir, [filename]) == Join2(dir, filename);
  }

  /** A file name without `..` components always passes the containment
      test. */
  lemma ContainedWithoutParent(cwd: AbsPath, dir: string, filename: string)
    requires IsNormalAbs(dir) && PathArg(filename)
    requires NoParent(SplitOn(filename, '/'))
    ensures Contained(cwd, dir, filename)
  {
    ContainedIsSafeJoin(cwd, dir, filename);
    SafeJoinDescends(cwd, dir, filename);
  }

  /** The test is a string prefix, like `safe_join`'s: for a directory
      `/…/a`, the name `../` followed by a longer name starting with `a`
      reaches a sibling directory and still passes. */
  lemma ContainedAcceptsSibling(cwd: AbsPath, q: seq<string>, a: string, x: string)
    requires AllClean(q + [a]) && IsCleanComp(a + x) && x != []
    ensures var dir := "/" + JoinWith(q + [a], '/');
            var target := Abspath(cwd, Join2(dir, ".." + "/" + a + x));
            && Contained(cwd, dir, ".." + "/" + a + x)
            && target != dir && !(dir + "/" <= target)
  {
    var dir := "/" + JoinWith(q + [a], '/');
    assert Slashes(1) == "/";
    SlashesJoinNormal(1, q + [a]);
    ContainedIsSafeJoin(cwd, dir, ".." + "/" + a + x);
    SafeJoinAcceptsSibling(cwd, q, a, x);
    AbspathOfNormal(cwd, dir);
    assert JoinPath(dir, [".." + "/" + a + x]) == Join2(dir, ".." + "/" + a + x);
  }

  /** No record the launcher or the background run writes has an
      `allure_html_dir`, so for every task both endpoints answer that the
      report is missing. */
  lemma ReportsNeverFound(cwd: AbsPath, tasks: Registry, taskId: string, filename: string, dirExists: bool, fileExists: bool)
    requires NoReportDir(tasks) && PathArg(filename)
    ensures GetReport(tasks, taskId, dirExists) == Json(Reply(400, NoReport, None))
    ensures GetReportFile(cwd, tasks, taskId, filename, fileExists) == Abort(404, "任务不存在或报告未生成")
  {
  }
}

=== FILE: test_executor.dfy ===
/** `TestExecutor` of core/test_executor.py: the per-task directories, the
    `prepare` checks, the pytest and allure command lines, and how
    `execute` turns the outcome of the three steps into a result record.
    Subprocess outcomes, clock readings and whether allure produced its
    entry page are parameters; the file system is modelled by `FileSystem`. */
module TestExecutor {
  import opened PyStr
  import opened PyValue
  import opened PosixPath
  import opened PathUtil
  import opened FileSystem

  /** The configuration values the executor reads: `path.report_root_dir`,
      `test.pytest_timeout` and `test.allure_clean`. */
  datatype Settings = Settings(reportRoot: string, pytestTimeout: int, allureClean: bool)

  /** A `TestExecutor` after `__init__`. */
  datatype Executor = Executor(
    taskId: string, deviceId: string, suitePath: string,
    taskDir: string, rawDir: string, htmlDir: string, logPath: string)

  const RawName: string := "allure_raw"
  const HtmlName: string := "allure_html"

  function LogName(taskId: string): string {
    "task_" + taskId + ".log"
  }

  lemma FixedNamesClean()
    ensures IsCleanComp(RawName) && IsCleanComp(HtmlName)
    ensures RawName[0] == 'a' && HtmlName[0] == 'a'
  {
    forall i | 0 <= i < |RawName| ensures RawName[i] != '/' {
    }
    forall i | 0 <= i < |HtmlName| ensures HtmlName[i] != '/' {
    }
  }

  /** `safe_join(dir, name)` for one of the two fixed directory names,
      which never raises. */
  function Place(cwd: AbsPath, dir: string, name: string): (r: string)
    requires IsNormalAbs(dir) && (name == RawName || name == HtmlName)
    ensures SafeJoin(cwd, dir, [name]) == Ok(r)
    ensures r == Join2(dir, name) && IsNormalAbs(r)
  {
    FixedNamesClean();
    SafeJoinClean(cwd, dir, name);
    SafeJoin(cwd, dir, [name]).value
  }

  /** `TestExecutor(task_id, device_id, suite_abs_path)`: every directory
      is placed with `safe_join`, so a task id that escapes the report root
      raises `ValueError`. */
  function NewExecutor(cwd: AbsPath, s: Settings, taskId: string, deviceId: string, suitePath: string): (r: Result<Executor>)
    ensures r.Raise? ==> r.exc.kind == ValueError
    ensures r.Ok? ==> r.value.taskId == taskId && r.value.deviceId == deviceId && r.value.suitePath == suitePath
    ensures r.Ok? ==> Abspath(cwd, s.reportRoot) <= r.value.taskDir && IsNormalAbs(r.value.taskDir)
    ensures r.Ok? ==> IsNormalAbs(r.value.rawDir) && IsNormalAbs(r.value.htmlDir)
    ensures r.Ok? ==> r.value.rawDir == Join2(r.value.taskDir, RawName)
    ensures r.Ok? ==> r.value.htmlDir == Join2(r.value.taskDir, HtmlName)
    ensures r.Ok? ==> r.value.taskDir <= r.value.logPath && IsNormalAbs(r.value.logPath)
  {
    match SafeJoin(cwd, s.reportRoot, [taskId])
    case Raise(e) => Raise(e)
    case Ok(t) =>
      var raw := Place(cwd, t, RawName);
      var html := Place(cwd, t, HtmlName);
      AbspathOfNormal(cwd, t);
      match SafeJoin(cwd, t, [LogName(taskId)])
      case Raise(e) => Raise(e)
      case Ok(log) => Ok(Executor(taskId, deviceId, suitePath, t, raw, html, log))
  }

  /** The directory layout a task id without `/`, `.` or `..` gets. */
  predicate WellFormed(e: Executor) {
    && IsNormalAbs(e.taskDir) && Body(e.taskDir) != []
    && e.rawDir == e.taskDir + "/" + RawName
    && e.htmlDir == e.taskDir + "/" + HtmlName
    && e.logPath == e.taskDir + "/" + LogName(e.taskId)
  }

  lemma LogNameClean(taskId: string)
    requires IsCleanComp(taskId)
    ensures IsCleanComp(LogName(taskId)) && LogName(taskId)[0] == 't'
  {
    var n := LogName(taskId);
    assert n[0] == 't' && |n| > 2;
    forall i | 0 <= i < |n| ensures n[i] != '/' {
      if 5 <= i < 5 + |taskId| {
        assert n[i] == taskId[i - 5];
      }
    }
  }

  /** A task id that is one clean path component is always accepted, and
      the task directory is that component under the report root. */
  lemma NewExecutorCleanId(cwd: AbsPath, s: Settings, taskId: string, deviceId: string, suitePath: string)
    requires IsCleanComp(taskId)
    ensures var r := NewExecutor(cwd, s, taskId, deviceId, suitePath);
            && r.Ok?
            && r.value.taskDir == Join2(Abspath(cwd, s.reportRoot), taskId)
            && WellFormed(r.value)
  {
    var root := Abspath(cwd, s.reportRoot);
    SafeJoinClean(cwd, root, taskId);
    var t := Join2(root, taskId);
    assert SafeJoin(cwd, s.reportRoot, [taskId]) == Ok(t) by {
      AbspathOfNormal(cwd, root);
      SafeJoinSameBase(cwd, s.reportRoot, root, [taskId]);
    }
    TaskDirLayout(cwd, t, taskId);
  }

  lemma TaskDirLayout(cwd: AbsPath, t: string, taskId: string)
    requires IsNormalAbs(t) && Body(t) != [] && IsCleanComp(taskId)
    ensures Place(cwd, t, RawName) == t + "/" + RawName
    ensures Place(cwd, t, HtmlName) == t + "/" + HtmlName
    ensures SafeJoin(cwd, t, [LogName(taskId)]) == Ok(t + "/" + LogName(taskId))
  {
    FixedNamesClean();
    NormpathAppendClean(t, RawName);
    NormpathAppendClean(t, HtmlName);
    LogNameClean(taskId);
    SafeJoinClean(cwd, t, LogName(taskId));
    NormpathAppendClean(t, LogName(taskId));
  }

  // ---------------------------------------------------------------------
  // prepare

  /** The first half of `prepare()`: remove an existing task directory,
      then ensure the raw and html directories. */
  function Cleanup(e: Executor, fs: Fs): (r: Fs)
    ensures Exists(r, e.rawDir) && Exists(r, e.htmlDir)
    ensures forall q :: q in fs && !Within(q, e.taskDir) ==> q in r && r[q] == fs[q]
    ensures forall q :: q in r ==>
              || (q in fs && !(Exists(fs, e.taskDir) && Within(q, e.taskDir)))
              || q == e.rawDir || q in Ancestors(e.rawDir)
              || q == e.htmlDir || q in Ancestors(e.htmlDir)
  {
    var fs1 := if Exists(fs, e.taskDir) then RemoveTree(fs, e.taskDir) else fs;
    EnsureDirExists(EnsureDirExists(fs1, e.rawDir), e.htmlDir)
  }

  /** The file system after `prepare`, and the exception it raised, if any. */
  datatype Prepared = Prepared(fs: Fs, error: Option<Exc>)

  /** `prepare()`: after the cleanup, the suite path is checked on the
      resulting file system: missing is `FileNotFoundError`, not a regular
      file is `ValueError`. */
  function Prepare(e: Executor, fs: Fs): (r: Prepared)
    ensures r.fs == Cleanup(e, fs)
    ensures r.error.None? <==> IsFile(r.fs, e.suitePath)
    ensures !Exists(r.fs, e.suitePath) ==> r.error == Some(Exc(FileNotFoundError, "测试用例不存在：" + e.suitePath))
    ensures Exists(r.fs, e.suitePath) && !IsFile(r.fs, e.suitePath) ==> r.error == Some(Exc(ValueError, e.suitePath + "不是有效文件"))
  {
    var fs2 := Cleanup(e, fs);
    if !Exists(fs2, e.suitePath) then Prepared(fs2, Some(Exc(FileNotFoundError, "测试用例不存在：" + e.suitePath)))
    else if !IsFile(fs2, e.suitePath) then Prepared(fs2, Some(Exc(ValueError, e.suitePath + "不是有效文件")))
    else Prepared(fs2, None)
  }

  /** The only ancestor of `t/c` within `t` is `t` itself. */
  lemma AncestorsWithin(t: string, c: string, a: string)
    requires !Contains(c, '/')
    requires a in Ancestors(t + "/" + c) && Within(a, t)
    ensures a == t
  {
    var x := t + "/" + c;
    var i :| 0 < i < |x| && x[i] == '/' && x[..i] == a;
  }

  /** When the task directory existed, `prepare` leaves nothing below it
      but the task directory and the two report directories. */
  lemma CleanupClearsTaskDir(e: Executor, fs: Fs, q: string)
    requires WellFormed(e) && Exists(fs, e.taskDir)
    requires q in Cleanup(e, fs) && Within(q, e.taskDir)
    ensures q == e.taskDir || q == e.rawDir || q == e.htmlDir
  {
    FixedNamesClean();
    if q in Ancestors(e.rawDir) {
      AncestorsWithin(e.taskDir, RawName, q);
    } else if q in Ancestors(e.htmlDir) {
      AncestorsWithin(e.taskDir, HtmlName, q);
    }
  }

  /** A suite stored inside an existing task directory (other than the two
      report directories) is reported missing: the checks run after the
      cleanup. */
  lemma PrepareSuiteInsideTaskDir(e: Executor, fs: Fs)
    requires WellFormed(e) && Exists(fs, e.taskDir)
    requires Within(e.suitePath, e.taskDir)
    requires e.suitePath != e.taskDir && e.suitePath != e.rawDir && e.suitePath != e.htmlDir
    ensures Prepare(e, fs).error == Some(Exc(FileNotFoundError, "测试用例不存在：" + e.suitePath))
  {
    if e.suitePath in Cleanup(e, fs) {
      CleanupClearsTaskDir(e, fs, e.suitePath);
    }
  }

  /** After `prepare` on a well-formed executor whose task directory
      existed, the task log does not exist. */
  lemma CleanupRemovesLog(e: Executor, fs: Fs)
    requires WellFormed(e) && Exists(fs, e.taskDir)
    ensures !Exists(Cleanup(e, fs), e.logPath)
  {
    LogDistinct(e);
    if e.logPath in Cleanup(e, fs) {
      CleanupClearsTaskDir(e, fs, e.logPath);
    }
  }

  /** The log file is neither the task directory nor a report directory. */
  lemma LogDistinct(e: Executor)
    requires WellFormed(e)
    ensures e.logPath != e.taskDir && e.logPath != e.rawDir && e.logPath != e.htmlDir
  {
    var n := |e.taskDir|;
    FixedNamesClean();
    assert e.logPath[n + 1] == 't';
    assert e.rawDir[n + 1] == 'a';
    assert e.htmlDir[n + 1] == 'a';
  }

  // ---------------------------------------------------------------------
  // run_pytest and generate_allure_report

  /** A subprocess invocation: its arguments and the `timeout=` it waits
      with, if any. */
  datatype Command = Command(argv: Argv, timeout: Option<int>)

  /** `run_pytest()`'s command: the configured timeout is passed to pytest,
      and the wait allows 60 more seconds. */
  function PytestCmd(e: Executor, s: Settings): (c: Command)
    ensures c.timeout == Some(s.pytestTimeout + 60)
    ensures |c.argv| == 10 && c.argv[3] == e.suitePath
    ensures c.argv[9] == "--timeout=" + IntToStr(s.pytestTimeout)
  {
    Command(["python", "-m", "pytest", e.suitePath,
             "--device_id=" + e.deviceId, "--task_id=" + e.taskId, "--alluredir=" + e.rawDir,
             "-v", "--tb=short", "--timeout=" + IntToStr(s.pytestTimeout)],
            Some(s.pytestTimeout + 60))
  }

  /** `generate_allure_report()`'s arguments: the fixed list with a
      `--clean` or empty last entry, then every empty entry dropped. */
  function AllureArgv(e: Executor, s: Settings): (r: Argv)
    ensures forall k :: 0 <= k < |r| ==> r[k] != []
  {
    Filter(["allure", "generate", e.rawDir, "-o", e.htmlDir, if s.allureClean then "--clean" else ""])
  }

  /** `--clean` is passed exactly when configured; with absolute report
      directories the remaining arguments are kept in order. */
  lemma AllureArgvShape(e: Executor, s: Settings)
    requires IsAbs(e.rawDir) && IsAbs(e.htmlDir)
    ensures AllureArgv(e, s) == ["allure", "generate", e.rawDir, "-o", e.htmlDir] + (if s.allureClean then ["--clean"] else [])
    ensures "--clean" in AllureArgv(e, s) <==> s.allureClean
  {
    var head := ["allure", "generate", e.rawDir, "-o", e.htmlDir];
    var last := if s.allureClean then "--clean" else "";
    assert ["allure", "generate", e.rawDir, "-o", e.htmlDir, last] == head + [last];
    FilterAppend(head, [last]);
    FilterNonEmpty(head);
    var r := AllureArgv(e, s);
    if !s.allureClean {
      assert Filter([last]) == [];
      assert r == head;
      assert "--clean" != "allure" && "--clean" != "generate" && "--clean" != "-o";
      assert "--clean"[0] != '/';
    }
  }

  const AllureFailPrefix: string := "Allure报告生成失败："

  /** `generate_allure_report()` once allure has run: a non-zero return
      code fails with at most 500 characters of stderr; otherwise the entry
      page must exist. `indexExists` is whether allure produced it. */
  function GenerateReport(cwd: AbsPath, e: Executor, run: Run, indexExists: bool): (r: Result<string>)
    requires IsNormalAbs(e.htmlDir)
    ensures run.Failed? ==> r == Raise(run.exc)
    ensures run.Ran? && run.proc.returncode != 0 ==> r == Raise(Exc(RuntimeError, AllureFailPrefix + Take(run.proc.stderr, 500)))
    ensures Succeeded(run) && !indexExists ==> r.Raise? && r.exc.kind == FileNotFoundError
    ensures r.Ok? <==> Succeeded(run) && indexExists
    ensures r.Ok? ==> r.value == Join2(e.htmlDir, "index.html")
  {
    match run
    case Failed(x) => Raise(x)
    case Ran(p) =>
      if p.returncode != 0 then Raise(Exc(RuntimeError, AllureFailPrefix + Take(p.stderr, 500)))
      else
        var index := IndexPage(cwd, e.htmlDir);
        if !indexExists then Raise(Exc(FileNotFoundError, "报告入口文件不存在：" + index))
        else Ok(index)
  }

  /** `safe_join(html_dir, "index.html")`, which never raises. */
  function IndexPage(cwd: AbsPath, html: string): (r: string)
    requires IsNormalAbs(html)
    ensures SafeJoin(cwd, html, ["index.html"]) == Ok(r)
    ensures r == Join2(html, "index.html")
  {
    assert IsCleanComp("index.html") by {
      forall i | 0 <= i < |"index.html"| ensures "index.html"[i] != '/' {
      }
    }
    SafeJoinClean(cwd, html, "index.html");
    SafeJoin(cwd, html, ["index.html"]).value
  }

  // ---------------------------------------------------------------------
  // execute

  /** The message `execute` records for an exception: the timeout message
      quotes the configured timeout; anything else is `str(e)[:500]`. */
  function ErrorMessage(s: Settings, x: Exc): (m: string)
    ensures x.kind == TimeoutExpired ==> m == "测试执行超时（超过" + IntToStr(s.pytestTimeout) + "秒）"
    ensures x.kind != TimeoutExpired ==> |m| == Min(500, |x.text|) && m <= x.text
  {
    if x.kind == TimeoutExpired then "测试执行超时（超过" + IntToStr(s.pytestTimeout) + "秒）"
    else Take(x.text, 500)
  }

  const FailKeys: set<string> := {"status", "end_time", "error_msg", "log_path"}

  /** `_fail_result(error_msg)`; `now` is the formatted end time. */
  function FailResult(e: Executor, msg: string, now: string, fs: Fs): (d: Dict)
    ensures d.Keys == FailKeys
    ensures d["status"] == PStr("failed: " + msg) && d["error_msg"] == PStr(msg)
    ensures d["log_path"] == (if Exists(fs, e.logPath) then PStr(e.logPath) else PNone)
  {
    map["status" := PStr("failed: " + msg),
        "end_time" := PStr(now),
        "error_msg" := PStr(msg),
        "log_path" := if Exists(fs, e.logPath) then PStr(e.logPath) else PNone]
  }

  /** The keys a successful run records. */
  const SuccessKeys: set<string> := {"status", "end_time", "report_path", "log_path", "pytest_returncode", "pytest_stdout", "pytest_stderr"}

  /** The record of a run whose report was generated. */
  function SuccessResult(e: Executor, out: Proc, now: string): (d: Dict)
    ensures d.Keys == SuccessKeys
    ensures d["status"] == PStr(if out.returncode == 0 then "success" else "success_with_failure")
    ensures d["report_path"] == PStr(e.htmlDir) && d["log_path"] == PStr(e.logPath)
    ensures d["pytest_returncode"] == PInt(out.returncode)
  {
    map["status" := PStr(if out.returncode == 0 then "success" else "success_with_failure"),
        "end_time" := PStr(now),
        "report_path" := PStr(e.htmlDir),
        "log_path" := PStr(e.logPath),
        "pytest_returncode" := PInt(out.returncode),
        "pytest_stdout" := PStr(out.stdout),
        "pytest_stderr" := PStr(out.stderr)]
  }

  lemma KeySetsDiffer()
    ensures "report_path" in SuccessKeys && "report_path" !in FailKeys
    ensures "allure_html_dir" !in SuccessKeys && "allure_html_dir" !in FailKeys
    ensures "failed: "[0] == 'f' && "success"[0] == 's' && "success_with_failure"[0] == 's'
    ensures "success" != "success_with_failure"
  {
  }

  /** The result record, the file system afterwards and the commands run. */
  datatype Executed = Executed(record: Dict, fs: Fs, commands: seq<Command>)

  /** `execute()`: prepare, run pytest, generate the report whatever
      pytest's return code, and build the record; any exception becomes a
      failure record. The log file is written once pytest has completed. */
  function Execute(cwd: AbsPath, e: Executor, s: Settings, fs: Fs, pytest: Run, allure: Run, indexExists: bool, now: string): (r: Executed)
    requires IsNormalAbs(e.htmlDir)
    ensures Prepare(e, fs).error.Some? ==>
              r == Executed(FailResult(e, ErrorMessage(s, Prepare(e, fs).error.value), now, Cleanup(e, fs)), Cleanup(e, fs), [])
    ensures Prepare(e, fs).error.None? && pytest.Failed? ==>
              r == Executed(FailResult(e, ErrorMessage(s, pytest.exc), now, Cleanup(e, fs)), Cleanup(e, fs), [PytestCmd(e, s)])
    ensures Prepare(e, fs).error.None? && pytest.Ran? ==>
              && r.fs == Cleanup(e, fs)[e.logPath := File]
              && r.commands == [PytestCmd(e, s), Command(AllureArgv(e, s), None)]
              && r.record == match GenerateReport(cwd, e, allure, indexExists)
                             case Raise(x) => FailResult(e, ErrorMessage(s, x), now, r.fs)
                             case Ok(_) => SuccessResult(e, pytest.proc, now)
  {
    var p := Prepare(e, fs);
    if p.error.Some? then
      Executed(FailResult(e, ErrorMessage(s, p.error.value), now, p.fs), p.fs, [])
    else match pytest
      case Failed(x) =>
        Executed(FailResult(e, ErrorMessage(s, x), now, p.fs), p.fs, [PytestCmd(e, s)])
      case Ran(out) =>
        var fs3 := p.fs[e.logPath := File];
        var cmds := [PytestCmd(e, s), Command(AllureArgv(e, s), None)];
        match GenerateReport(cwd, e, allure, indexExists)
        case Raise(x) => Executed(FailResult(e, ErrorMessage(s, x), now, fs3), fs3, cmds)
        case Ok(_) => Executed(SuccessResult(e, out, now), fs3, cmds)
  }

  /** The status is `success` exactly when prepare passed, pytest returned
      0 and the report was generated, and `success_with_failure` exactly
      when the same holds with a non-zero pytest return code. */
  lemma {:induction false} ExecuteStatus(cwd: AbsPath, e: Executor, s: Settings, fs: Fs, pytest: Run, allure: Run, indexExists: bool, now: string)
    requires IsNormalAbs(e.htmlDir)
    ensures var r := Execute(cwd, e, s, fs, pytest, allure, indexExists, now).record;
            && (r["status"] == PStr("success") <==>
                  Prepare(e, fs).error.None? && Succeeded(pytest) && Succeeded(allure) && indexExists)
            && (r["status"] == PStr("success_with_failure") <==>
                  Prepare(e, fs).error.None? && pytest.Ran? && pytest.proc.returncode != 0 && Succeeded(allure) && indexExists)
  {
    var p := Prepare(e, fs);
    var r := Execute(cwd, e, s, fs, pytest, allure, indexExists, now).record;
    if p.error.Some? {
      FailedStatus(r["status"], ErrorMessage(s, p.error.value));
    } else if pytest.Failed? {
      FailedStatus(r["status"], ErrorMessage(s, pytest.exc));
    } else {
      var g := GenerateReport(cwd, e, allure, indexExists);
      if g.Raise? {
        FailedStatus(r["status"], ErrorMessage(s, g.exc));
      } else {
        KeySetsDiffer();
      }
    }
  }

  lemma FailedStatus(v: Py, msg: string)
    requires v == PStr("failed: " + msg)
    ensures v != PStr("success") && v != PStr("success_with_failure")
  {
    assert v.s[0] == 'f';
  }

  /** Every record either is a success record carrying the html directory
      as `report_path`, or a failure record whose status embeds its
      `error_msg` and which has no `report_path`; neither has an
      `allure_html_dir` key. */
  lemma {:induction false} ExecuteRecordShape(cwd: AbsPath, e: Executor, s: Settings, fs: Fs, pytest: Run, allure: Run, indexExists: bool, now: string)
    requires IsNormalAbs(e.htmlDir)
    ensures var r := Execute(cwd, e, s, fs, pytest, allure, indexExists, now).record;
            && "allure_html_dir" !in r
            && (r.Keys == SuccessKeys || r.Keys == FailKeys)
            && ("report_path" in r ==> r.Keys == SuccessKeys && r["report_path"] == PStr(e.htmlDir))
            && ("report_path" !in r ==> r.Keys == FailKeys && r["error_msg"].PStr? && r["status"] == PStr("failed: " + r["error_msg"].s))
            && ResultRecord(r)
  {
    KeySetsDiffer();
  }

  /** The two shapes of an `execute` result: a success record, or a
      failure record whose status embeds its message. */
  predicate ResultRecord(d: Dict) {
    || (d.Keys == SuccessKeys && (d["status"] == PStr("success") || d["status"] == PStr("success_with_failure")))
    || (d.Keys == FailKeys && d["error_msg"].PStr? && d["status"] == PStr("failed: " + d["error_msg"].s))
  }

  /** A failing allure run records its prefix and the first 487 characters
      of stderr: the 500-character cut of stderr is cut again, with the
      prefix, to 500. */
  lemma {:induction false} AllureFailureMessage(cwd: AbsPath, e: Executor, s: Settings, fs: Fs, out: Proc, p: Proc, indexExists: bool, now: string)
    requires IsNormalAbs(e.htmlDir)
    requires Prepare(e, fs).error.None? && p.returncode != 0
    ensures Execute(cwd, e, s, fs, Ran(out), Ran(p), indexExists, now).record["error_msg"]
         == PStr(AllureFailPrefix + Take(p.stderr, 487))
  {
    assert |AllureFailPrefix| == 13;
    var m := AllureFailPrefix + Take(p.stderr, 500);
    if |p.stderr| > 487 {
      assert Take(m, 500) == AllureFailPrefix + Take(p.stderr, 487);
    }
  }

  /** With a well-formed executor whose task directory existed, a failure
      before pytest completes records no log path, and a failure after it
      records the log written by `run_pytest`. */
  lemma {:induction false} FailureLogPath(cwd: AbsPath, e: Executor, s: Settings, fs: Fs, pytest: Run, allure: Run, indexExists: bool, now: string)
    requires WellFormed(e) && Exists(fs, e.taskDir)
    requires IsNormalAbs(e.htmlDir)
    ensures var r := Execute(cwd, e, s, fs, pytest, allure, indexExists, now);
            && (Prepare(e, fs).error.Some? || pytest.Failed? ==> r.record["log_path"] == PNone)
            && (Prepare(e, fs).error.None? && pytest.Ran? ==> r.record["log_path"] == PStr(e.logPath))
  {
    CleanupRemovesLog(e, fs);
  }
}

=== FILE: test_routes.dfy ===
/** The task routes of app/routes/test.py: task ids, the suite listing,
    the launcher `start_test`, the background run and the status query.
    `test_tasks` is an explicit registry value; clock readings, the uuid,
    the directory walk and whether a thread could be started are
    parameters. */
module TestRoutes {
  import opened PyStr
  import opened PyValue
  import opened PosixPath
  import opened PathUtil
  import opened FileSystem
  import opened Uiautomator
  import opened DeviceManager
  import opened TestExecutor

  // ---------------------------------------------------------------------
  // get_task_id

  /** A `datetime.now()` reading. */
  datatype DateTime = DateTime(year: nat, month: nat, day: nat, hour: nat, minute: nat, second: nat, micro: nat)

  /** The field ranges of a `datetime`, with four-digit years. */
  predicate ValidDateTime(t: DateTime) {
    && 1000 <= t.year <= 9999 && 1 <= t.month <= 12 && 1 <= t.day <= 31
    && t.hour < 24 && t.minute < 60 && t.second < 60 && t.micro < 1000000
  }

  /** `t.strftime("%Y%m%d%H%M%S%f")`. */
  function Stamp(t: DateTime): (s: string)
    requires ValidDateTime(t)
    ensures |s| == 20 && AllDigits(s)
  {
    Digits(t.year, 4) + Digits(t.month, 2) + Digits(t.day, 2) + Digits(t.hour, 2)
    + Digits(t.minute, 2) + Digits(t.second, 2) + Digits(t.micro, 6)
  }

  /** The text form of a `uuid4()`: 32 lower-case hex digits in groups of
      8-4-4-4-12 separated by `-`. */
  predicate UuidText(u: string) {
    && |u| == 36
    && (forall i :: 0 <= i < 36 ==> (i == 8 || i == 13 || i == 18 || i == 23 <==> u[i] == '-'))
    && (forall i :: 0 <= i < 36 && i != 8 && i != 13 && i != 18 && i != 23 ==> IsLowerHex(u[i]))
  }

  /** `get_task_id()` for the clock reading `t` and `str(uuid4()) == u`:
      the first 13 characters of the timestamp, `_`, and the first 4 hex
      digits of the uuid. */
  function TaskId(t: DateTime, u: string): (id: string)
    requires ValidDateTime(t)
    ensures 14 <= |id| <= 18 && id[13] == '_'
    ensures id[..13] == Stamp(t)[..13]
  {
    Take(Stamp(t), 13) + "_" + Take(Without(u, '-'), 4)
  }

  /** A task id is 18 characters: 13 digits, `_`, then the uuid's first
      four hex digits; it is a single clean path component. */
  lemma TaskIdFormat(t: DateTime, u: string)
    requires ValidDateTime(t) && UuidText(u)
    ensures var id := TaskId(t, u);
            && |id| == 18 && id[13] == '_'
            && AllDigits(id[..13]) && id[14..] == u[..4] && AllLowerHex(id[14..])
            && IsCleanComp(id)
  {
    UuidPrefix(u);
    var id := TaskId(t, u);
    assert id[14..] == u[..4];
    forall i | 0 <= i < 18 ensures id[i] != '/' {
      if i < 13 {
        assert id[i] == Stamp(t)[i];
      } else if i > 13 {
        assert id[i] == u[i - 14];
      }
    }
    assert IsCleanComp(id) by {
      assert |id| > 2;
    }
  }

  /** Removing the dashes keeps the first group, so its first four hex
      digits are the uuid's first four characters. */
  lemma UuidPrefix(u: string)
    requires UuidText(u)
    ensures Take(Without(u, '-'), 4) == u[..4]
  {
    var head := u[..8];
    assert u == head + u[8..];
    assert !Contains(head, '-') by {
      forall i | 0 <= i < 8 ensures head[i] != '-' {
        assert head[i] == u[i];
      }
    }
    WithoutAppend(head, u[8..], '-');
    WithoutAbsent(head, '-');
  }

  /** The time part of the task id as its fields: minute precision plus
      the tens digit of the seconds. */
  lemma TimePartFields(t: DateTime)
    requires ValidDateTime(t)
    ensures Stamp(t)[..13] == Digits(t.year, 4) + Digits(t.month, 2) + Digits(t.day, 2) + Digits(t.hour, 2)
                              + Digits(t.minute, 2) + Digits(t.second / 10, 1)
  {
    var lead := Digits(t.year, 4) + Digits(t.month, 2) + Digits(t.day, 2) + Digits(t.hour, 2) + Digits(t.minute, 2);
    assert Stamp(t) == lead + Digits(t.second, 2) + Digits(t.micro, 6);
    assert Digits(t.second, 2)[..1] == Digits(t.second / 10, 1);
    assert Stamp(t)[..13] == lead + Digits(t.second, 2)[..1];
  }

  /** Two clock readings give the same task id with the same uuid exactly
      when they agree up to the minute and on the tens digit of the
      seconds: the time part changes only every ten seconds. */
  lemma TaskIdTenSeconds(t1: DateTime, t2: DateTime, u: string)
    requires ValidDateTime(t1) && ValidDateTime(t2)
    ensures TaskId(t1, u) == TaskId(t2, u) <==>
              && t1.year == t2.year && t1.month == t2.month && t1.day == t2.day
              && t1.hour == t2.hour && t1.minute == t2.minute && t1.second / 10 == t2.second / 10
  {
    TimePartFields(t1);
    TimePartFields(t2);
    var id1, id2 := TaskId(t1, u), TaskId(t2, u);
    if id1 == id2 {
      assert Stamp(t1)[..13] == Stamp(t2)[..13];
      SameFields(t1, t2);
    } else {
      assert Take(Stamp(t1), 13) != Take(Stamp(t2), 13);
    }
  }

  /** The time part as one string per field. */
  function TimeFields(t: DateTime): seq<string>
    requires ValidDateTime(t)
  {
    [Digits(t.year, 4), Digits(t.month, 2), Digits(t.day, 2), Digits(t.hour, 2),
     Digits(t.minute, 2), Digits(t.second / 10, 1)]
  }

  lemma ConcatEq(a1: string, a2: string, b1: string, b2: string)
    requires |a1| == |b1| && a1 + a2 == b1 + b2
    ensures a1 == b1 && a2 == b2
  {
    assert a1 == (a1 + a2)[..|a1|] && b1 == (b1 + b2)[..|b1|];
    assert a2 == (a1 + a2)[|a1|..] && b2 == (b1 + b2)[|b1|..];
  }

  lemma FieldTextsEqual(t1: DateTime, t2: DateTime)
    requires ValidDateTime(t1) && ValidDateTime(t2)
    requires Digits(t1.year, 4) + Digits(t1.month, 2) + Digits(t1.day, 2) + Digits(t1.hour, 2)
             + Digits(t1.minute, 2) + Digits(t1.second / 10, 1)
          == Digits(t2.year, 4) + Digits(t2.month, 2) + Digits(t2.day, 2) + Digits(t2.hour, 2)
             + Digits(t2.minute, 2) + Digits(t2.second / 10, 1)
    ensures TimeFields(t1) == TimeFields(t2)
  {
    var f1, f2 := TimeFields(t1), TimeFields(t2);
    ConcatEq(f1[0] + f1[1] + f1[2] + f1[3] + f1[4], f1[5], f2[0] + f2[1] + f2[2] + f2[3] + f2[4], f2[5]);
    ConcatEq(f1[0] + f1[1] + f1[2] + f1[3], f1[4], f2[0] + f2[1] + f2[2] + f2[3], f2[4]);
    ConcatEq(f1[0] + f1[1] + f1[2], f1[3], f2[0] + f2[1] + f2[2], f2[3]);
    ConcatEq(f1[0] + f1[1], f1[2], f2[0] + f2[1], f2[2]);
    ConcatEq(f1[0], f1[1], f2[0], f2[1]);
  }

  lemma SameFields(t1: DateTime, t2: DateTime)
    requires ValidDateTime(t1) && ValidDateTime(t2)
    requires Digits(t1.year, 4) + Digits(t1.month, 2) + Digits(t1.day, 2) + Digits(t1.hour, 2)
             + Digits(t1.minute, 2) + Digits(t1.second / 10, 1)
          == Digits(t2.year, 4) + Digits(t2.month, 2) + Digits(t2.day, 2) + Digits(t2.hour, 2)
             + Digits(t2.minute, 2) + Digits(t2.second / 10, 1)
    ensures t1.year == t2.year && t1.month == t2.month && t1.day == t2.day
    ensures t1.hour == t2.hour && t1.minute == t2.minute && t1.second / 10 == t2.second / 10
  {
    FieldTextsEqual(t1, t2);
    assert Pow10(1) == 10 && Pow10(2) == 100 && Pow10(4) == 10000;
    DigitsInjective(t1.year, t2.year, 4);
    DigitsInjective(t1.month, t2.month, 2);
    DigitsInjective(t1.day, t2.day, 2);
    DigitsInjective(t1.hour, t2.hour, 2);
    DigitsInjective(t1.minute, t2.minute, 2);
    DigitsInjective(t1.second / 10, t2.second / 10, 1);
  }

  // ---------------------------------------------------------------------
  // get_test_suites

  /** One step of `os.walk`: a directory and the names of its files. */
  datatype WalkEntry = WalkEntry(root: string, files: seq<string>)

  /** A file the filter kept, with the directory it was found in. */
  datatype Found = Found(root: string, name: string)

  /** One element of the suite list. */
  datatype Suite = Suite(id: nat, name: string, absPath: string, relPath: string)

  /** A pytest module other than the shared fixtures file. */
  predicate IsSuiteFile(name: string) {
    EndsWith(name, ".py") && name != "conftest.py"
  }

  /** The suite files of one directory, in listing order. */
  function PickIn(root: string, files: seq<string>): (r: seq<Found>)
    ensures forall k :: 0 <= k < |r| ==> r[k].root == root && IsSuiteFile(r[k].name)
    decreases |files|
  {
    if files == [] then []
    else
      var last := files[|files| - 1];
      PickIn(root, files[..|files| - 1]) + (if IsSuiteFile(last) then [Found(root, last)] else [])
  }

  /** The suite files of the whole walk, in walk order. */
  function Pick(walk: seq<WalkEntry>): (r: seq<Found>)
    ensures forall k :: 0 <= k < |r| ==> IsSuiteFile(r[k].name)
    decreases |walk|
  {
    if walk == [] then []
    else
      var last := walk[|walk| - 1];
      Pick(walk[..|walk| - 1]) + PickIn(last.root, last.files)
  }

  /** `safe_join(root, name)` and its `relpath` from the suite directory. */
  function Locate(cwd: AbsPath, dir: string, f: Found): Result<(string, string)> {
    match SafeJoin(cwd, f.root, [f.name])
    case Raise(e) => Raise(e)
    case Ok(abs) =>
      match RelPath(cwd, abs, dir)
      case Raise(e) => Raise(e)
      case Ok(rel) => Ok((abs, rel))
  }

  /** The path pair of one kept file, as `locate` computes it. */
  type Locator = Found -> Result<(string, string)>

  /** The suite list for the kept files: ids count from 0 in order; the
      first exception from a file's path computation is the result. */
  function Number(fs: seq<Found>, locate: Locator): (r: Result<seq<Suite>>)
    ensures r.Ok? ==> |r.value| == |fs|
    decreases |fs|
  {
    if fs == [] then Ok([])
    else
      var init := fs[..|fs| - 1];
      var last := fs[|fs| - 1];
      match Number(init, locate)
      case Raise(e) => Raise(e)
      case Ok(ss) =>
        match locate(last)
        case Raise(e) => Raise(e)
        case Ok(paths) => Ok(ss + [Suite(|ss|, last.name, paths.0, paths.1)])
  }

  /** The list is produced exactly when no kept file's path computation
      raises, and its `k`-th element is the `k`-th kept file numbered `k`. */
  lemma {:induction false} NumberContents(fs: seq<Found>, locate: Locator)
    ensures Number(fs, locate).Ok? <==> forall k :: 0 <= k < |fs| ==> locate(fs[k]).Ok?
    ensures Number(fs, locate).Ok? ==> forall k :: 0 <= k < |fs| ==>
              Number(fs, locate).value[k] == Suite(k, fs[k].name, locate(fs[k]).value.0, locate(fs[k]).value.1)
    decreases |fs|
  {
    if fs != [] {
      var init := fs[..|fs| - 1];
      NumberContents(init, locate);
      assert forall k :: 0 <= k < |init| ==> init[k] == fs[k];
    }
  }

  /** `get_test_suites()` for the suite directory `dir`; `listing` is the
      walk of it, or the exception raised before the walk (the missing
      configuration key, a failing `makedirs`). Every exception gives the
      empty list. */
  function TestSuites(cwd: AbsPath, dir: string, listing: Result<seq<WalkEntry>>): (r: seq<Suite>)
    ensures listing.Raise? ==> r == []
    ensures listing.Ok? && Number(Pick(listing.value), f => Locate(cwd, dir, f)).Raise? ==> r == []
    ensures listing.Ok? && Number(Pick(listing.value), f => Locate(cwd, dir, f)).Ok? ==> |r| == |Pick(listing.value)|
  {
    match listing
    case Raise(_) => []
    case Ok(walk) =>
      match Number(Pick(walk), f => Locate(cwd, dir, f))
      case Raise(_) => []
      case Ok(ss) => ss
  }

  /** Ids are positions, and every listed name passed the filter. */
  lemma TestSuitesNumbered(cwd: AbsPath, dir: string, listing: Result<seq<WalkEntry>>)
    ensures var r := TestSuites(cwd, dir, listing);
            forall k :: 0 <= k < |r| ==> r[k].id == k && IsSuiteFile(r[k].name)
  {
    if listing.Ok? {
      NumberContents(Pick(listing.value), f => Locate(cwd, dir, f));
    }
  }

  /** Every kept file is a suite file found in the walk. */
  lemma {:induction false} PickSound(walk: seq<WalkEntry>, k: nat)
    requires k < |Pick(walk)|
    ensures exists i, j :: 0 <= i < |walk| && 0 <= j < |walk[i].files| &&
              Pick(walk)[k] == Found(walk[i].root, walk[i].files[j])
    decreases |walk|
  {
    var init := walk[..|walk| - 1];
    var last := walk[|walk| - 1];
    if k < |Pick(init)| {
      PickSound(init, k);
      var i, j :| 0 <= i < |init| && 0 <= j < |init[i].files| && Pick(init)[k] == Found(init[i].root, init[i].files[j]);
      assert walk[i] == init[i];
    } else {
      var j := PickInSound(last.root, last.files, k - |Pick(init)|);
      assert Pick(walk)[k] == Found(walk[|walk| - 1].root, walk[|walk| - 1].files[j]);
    }
  }

  lemma {:induction false} PickInSound(root: string, files: seq<string>, k: nat) returns (j: nat)
    requires k < |PickIn(root, files)|
    ensures j < |files| && PickIn(root, files)[k] == Found(root, files[j])
    decreases |files|
  {
    var init := files[..|files| - 1];
    if k < |PickIn(root, init)| {
      j := PickInSound(root, init, k);
    } else {
      j := |files| - 1;
    }
  }

  /** Every suite file of every walked directory is kept. */
  lemma {:induction false} PickComplete(walk: seq<WalkEntry>, i: nat, j: nat)
    requires i < |walk| && j < |walk[i].files| && IsSuiteFile(walk[i].files[j])
    ensures Found(walk[i].root, walk[i].files[j]) in Pick(walk)
    decreases |walk|
  {
    var init := walk[..|walk| - 1];
    if i < |walk| - 1 {
      assert walk[i] == init[i];
      PickComplete(init, i, j);
    } else {
      PickInComplete(walk[i].root, walk[i].files, j);
    }
  }

  lemma {:induction false} PickInComplete(root: string, files: seq<string>, j: nat)
    requires j < |files| && IsSuiteFile(files[j])
    ensures Found(root, files[j]) in PickIn(root, files)
    decreases |files|
  {
    var init := files[..|files| - 1];
    if j < |files| - 1 {
      assert files[j] == init[j];
      PickInComplete(root, init, j);
    }
  }

  /** A file whose name is one clean path component is placed directly
      under its directory, and its path computation does not raise. */
  lemma LocateClean(cwd: AbsPath, dir: string, f: Found)
    requires IsCleanComp(f.name)
    ensures Locate(cwd, dir, f).Ok?
    ensures Locate(cwd, dir, f).value.0 == Join2(Abspath(cwd, f.root), f.name)
  {
    var b := Abspath(cwd, f.root);
    SafeJoinClean(cwd, b, f.name);
    AbspathOfNormal(cwd, b);
    SafeJoinSameBase(cwd, f.root, b, [f.name]);
  }

  /** `os.walk` lists file names, which never contain `/` and are never
      `.` or `..`; for such a walk every kept file is listed. */
  lemma TestSuitesOfCleanWalk(cwd: AbsPath, dir: string, walk: seq<WalkEntry>)
    requires forall i, j :: 0 <= i < |walk| && 0 <= j < |walk[i].files| ==> IsCleanComp(walk[i].files[j])
    ensures |TestSuites(cwd, dir, Ok(walk))| == |Pick(walk)|
    ensures forall k :: 0 <= k < |Pick(walk)| ==>
              TestSuites(cwd, dir, Ok(walk))[k].name == Pick(walk)[k].name &&
              TestSuites(cwd, dir, Ok(walk))[k].absPath == Join2(Abspath(cwd, Pick(walk)[k].root), Pick(walk)[k].name)
  {
    var ps := Pick(walk);
    forall k | 0 <= k < |ps|
      ensures Locate(cwd, dir, ps[k]).Ok?
      ensures Locate(cwd, dir, ps[k]).value.0 == Join2(Abspath(cwd, ps[k].root), ps[k].name)
    {
      PickSound(walk, k);
      LocateClean(cwd, dir, ps[k]);
    }
    NumberContents(ps, f => Locate(cwd, dir, f));
  }

  // ---------------------------------------------------------------------
  // the task registry

  /** `test_tasks`: task id to task record. */
  type Registry = map<string, Dict>

  /** No record carries the key the report routes look up. */
  predicate NoReportDir(tasks: Registry) {
    forall id :: id in tasks ==> "allure_html_dir" !in tasks[id]
  }

  /** The dict form of a suite list element. */
  function SuiteInfo(s: Suite): Py {
    PDict(map["id" := PInt(s.id), "name" := PStr(s.name), "abs_path" := PStr(s.absPath), "rel_path" := PStr(s.relPath)])
  }

  /** `get_test_suite_list()`: always code 200 with the list and its
      length (`get_test_suites` raises nothing). */
  function SuiteListReply(cwd: AbsPath, dir: string, listing: Result<seq<WalkEntry>>): (r: Reply)
    ensures r.code == 200
    ensures r.msg == "获取用例成功（共" + IntToStr(|TestSuites(cwd, dir, listing)|) + "个）"
    ensures r.data.Some? && r.data.value.PList? && |r.data.value.items| == |TestSuites(cwd, dir, listing)|
    ensures forall k :: 0 <= k < |r.data.value.items| ==> r.data.value.items[k] == SuiteInfo(TestSuites(cwd, dir, listing)[k])
  {
    var suites := TestSuites(cwd, dir, listing);
    Reply(200, "获取用例成功（共" + IntToStr(|suites|) + "个）", Some(PList(seq(|suites|, k requires 0 <= k < |suites| => SuiteInfo(suites[k])))))
  }

  /** The `id` of every listed element is its position in the list. */
  lemma SuiteListIds(cwd: AbsPath, dir: string, listing: Result<seq<WalkEntry>>)
    ensures var items := SuiteListReply(cwd, dir, listing).data.value.items;
            forall k :: 0 <= k < |items| ==> items[k].PDict? && items[k].entries["id"] == PInt(k)
  {
    TestSuitesNumbered(cwd, dir, listing);
  }

  // ---------------------------------------------------------------------
  // start_test

  /** What the launcher hands to the background thread. */
  datatype Launch = Launch(taskId: string, deviceId: Py, suitePath: string)

  /** The reply, the registry afterwards, and the thread launched, if any. */
  datatype Started = Started(reply: Reply, tasks: Registry, launch: Option<Launch>)

  /** The reply of the `except` clause. */
  function StartFailure(e: Exc): Reply {
    Reply(400, "启动测试任务失败：" + e.text, Some(PNone))
  }

  /** `request.get_json() or {}`. */
  function RequestData(body: Py): Py {
    if Truthy(body) then body else PDict(map[])
  }

  /** The record a new task starts with. */
  function PendingRecord(id: string, device: Py, info: Suite, createTime: string): (d: Dict)
    ensures d.Keys == PendingKeys
    ensures d["status"] == PStr("pending") && d["task_id"] == PStr(id) && d["device_id"] == device
  {
    map["task_id" := PStr(id), "device_id" := device, "suite_info" := SuiteInfo(info),
        "status" := PStr("pending"), "create_time" := PStr(createTime)]
  }

  const PendingKeys: set<string> := {"task_id", "device_id", "suite_info", "status", "create_time"}

  /** The text of the `RuntimeError` when no thread can be started. */
  const ThreadError: string := "can't start new thread"

  /** Whether a validated request selects an existing suite. */
  predicate InRange(sid: Py, n: nat)
    requires IsPyInt(sid)
  {
    0 <= PyIntValue(sid) < n
  }

  /** `start_test()`. `body` is what `request.get_json()` returns or
      raises; `suites` stands for the list `get_test_suites()` returns and
      may be any list of suites; it is consulted only once both ids are
      present; `clock` and `u` feed `get_task_id`; `threadStarts` is
      whether `Thread.start()` succeeds. */
  function StartTest(tasks: Registry, body: Result<Py>, suites: seq<Suite>,
                     clock: DateTime, u: string, createTime: string, threadStarts: bool): (r: Started)
    requires ValidDateTime(clock)
    ensures r.launch.Some? <==> r.reply.code == 200
    ensures r.tasks == tasks || (TaskId(clock, u) in r.tasks && r.tasks == tasks[TaskId(clock, u) := r.tasks[TaskId(clock, u)]])
    ensures r.tasks != tasks || r.launch.Some? ==>
              && TaskId(clock, u) in r.tasks
              && r.tasks[TaskId(clock, u)].Keys == PendingKeys
              && r.tasks[TaskId(clock, u)]["status"] == PStr("pending")
    ensures r.launch.Some? ==>
              && r.launch.value.taskId == TaskId(clock, u)
              && r.reply == Reply(200, "测试任务已启动", Some(PDict(map["task_id" := PStr(TaskId(clock, u))])))
              && r.tasks[TaskId(clock, u)]["device_id"] == r.launch.value.deviceId
              && Truthy(r.launch.value.deviceId)
  {
    match body
    case Raise(e) => Started(StartFailure(e), tasks, None)
    case Ok(b) =>
      var data := RequestData(b);
      if !data.PDict? then
        Started(StartFailure(Exc(AttributeError, "'" + TypeName(data) + "' object has no attribute 'get'")), tasks, None)
      else
        var device := Get(data.entries, "device_id");
        var sid := Get(data.entries, "suite_id");
        if !Truthy(device) then Started(Reply(400, "请指定设备ID", Some(PNone)), tasks, None)
        else if sid == PNone then Started(Reply(400, "请指定用例ID", Some(PNone)), tasks, None)
        else
          if !IsPyInt(sid) then
            Started(StartFailure(Exc(TypeError, "'<' not supported between instances of '" + TypeName(sid) + "' and 'int'")), tasks, None)
          else if !InRange(sid, |suites|) then
            Started(Reply(404, "用例ID" + PyIntStr(sid) + "不存在", Some(PNone)), tasks, None)
          else
            var info := suites[PyIntValue(sid)];
            var id := TaskId(clock, u);
            var tasks2 := tasks[id := PendingRecord(id, device, info, createTime)];
            if !threadStarts then Started(StartFailure(Exc(RuntimeError, ThreadError)), tasks2, None)
            else Started(Reply(200, "测试任务已启动", Some(PDict(map["task_id" := PStr(id)]))), tasks2,
                         Some(Launch(id, device, info.absPath)))
  }

  /** The validation order: a missing or empty device id is reported
      before a missing suite id, which is reported before a suite id out
      of range; none of these touches the registry. */
  lemma StartValidationOrder(tasks: Registry, d: map<string, Py>, suites: seq<Suite>,
                             clock: DateTime, u: string, createTime: string, threadStarts: bool)
    requires ValidDateTime(clock)
    ensures var r := StartTest(tasks, Ok(PDict(d)), suites, clock, u, createTime, threadStarts);
            && (!Truthy(Get(d, "device_id")) ==> r == Started(Reply(400, "请指定设备ID", Some(PNone)), tasks, None))
            && (Truthy(Get(d, "device_id")) && "suite_id" !in d ==> r == Started(Reply(400, "请指定用例ID", Some(PNone)), tasks, None))
            && (Truthy(Get(d, "device_id")) && "suite_id" in d && IsPyInt(d["suite_id"])
                  && !InRange(d["suite_id"], |suites|) ==>
                  r == Started(Reply(404, "用例ID" + PyIntStr(d["suite_id"]) + "不存在", Some(PNone)), tasks, None))
  {
  }

  /** A request naming a device and an existing suite by an integer id
      adds the pending record of that suite under the new task id, and is
      answered 200 with that id exactly when the thread starts. */
  lemma {:induction false} StartAccepts(tasks: Registry, d: map<string, Py>, suites: seq<Suite>,
                     clock: DateTime, u: string, createTime: string, threadStarts: bool)
    requires ValidDateTime(clock)
    requires Truthy(Get(d, "device_id")) && "suite_id" in d && IsPyInt(d["suite_id"])
    requires InRange(d["suite_id"], |suites|)
    ensures var r := StartTest(tasks, Ok(PDict(d)), suites, clock, u, createTime, threadStarts);
            var info := suites[PyIntValue(d["suite_id"])];
            && r.tasks == tasks[TaskId(clock, u) := PendingRecord(TaskId(clock, u), d["device_id"], info, createTime)]
            && (r.launch.Some? <==> threadStarts)
            && (threadStarts ==> r.launch.value == Launch(TaskId(clock, u), d["device_id"], info.absPath))
            && (!threadStarts ==> r.reply == StartFailure(Exc(RuntimeError, ThreadError)))
  {
    assert d != map[];
  }

  /** Starting keeps the registry free of report directories. */
  lemma {:induction false} StartPreservesNoReportDir(tasks: Registry, body: Result<Py>, suites: seq<Suite>,
                                  clock: DateTime, u: string, createTime: string, threadStarts: bool)
    requires ValidDateTime(clock) && NoReportDir(tasks)
    ensures NoReportDir(StartTest(tasks, body, suites, clock, u, createTime, threadStarts).tasks)
  {
  }

  // ---------------------------------------------------------------------
  // get_task_status

  /** The reply and the registry afterwards: the query stores the report
      url it adds. */
  datatype Queried = Queried(reply: Reply, tasks: Registry)

  /** The url the status and report routes give for a task's report. */
  function ReportUrl(taskId: string): string {
    "/api/report/files/" + taskId + "/index.html"
  }

  /** Whether the record has a truthy `report_path`. */
  predicate HasReport(record: Dict) {
    "report_path" in record && Truthy(record["report_path"])
  }

  /** `get_task_status(task_id)`. */
  function GetTaskStatus(tasks: Registry, taskId: string): (r: Queried)
    ensures taskId !in tasks || tasks[taskId] == map[] ==>
              r == Queried(Reply(404, "任务" + taskId + "不存在", Some(PNone)), tasks)
    ensures taskId in tasks && tasks[taskId] != map[] ==>
              && r.reply.code == 200
              && r.tasks.Keys == tasks.Keys
              && (forall other :: other in tasks && other != taskId ==> r.tasks[other] == tasks[other])
              && r.reply.data == Some(PDict(r.tasks[taskId]))
              && r.tasks[taskId].Keys == tasks[taskId].Keys + (if HasReport(tasks[taskId]) then {"report_url"} else {})
              && (forall k :: k in tasks[taskId] && k != "report_url" ==> r.tasks[taskId][k] == tasks[taskId][k])
              && (HasReport(tasks[taskId]) ==> r.tasks[taskId]["report_url"] == PStr(ReportUrl(taskId)))
              && (!HasReport(tasks[taskId]) ==> r.tasks == tasks)
  {
    if taskId !in tasks || tasks[taskId] == map[] then
      Queried(Reply(404, "任务" + taskId + "不存在", Some(PNone)), tasks)
    else
      var task := tasks[taskId];
      var task2 := if HasReport(task) then task["report_url" := PStr(ReportUrl(taskId))] else task;
      Queried(Reply(200, "查询任务状态成功", Some(PDict(task2))), tasks[taskId := task2])
  }

  /** Asking twice gives the same answer and leaves the registry as the
      first query left it. */
  lemma {:induction false} GetTaskStatusIdempotent(tasks: Registry, taskId: string)
    ensures var r := GetTaskStatus(tasks, taskId);
            GetTaskStatus(r.tasks, taskId) == r
  {
    var r := GetTaskStatus(tasks, taskId);
    if taskId in tasks && tasks[taskId] != map[] && HasReport(tasks[taskId]) {
      assert r.tasks[taskId] != map[];
      assert r.tasks[taskId]["report_url" := PStr(ReportUrl(taskId))] == r.tasks[taskId];
      assert r.tasks[taskId := r.tasks[taskId]] == r.tasks;
    }
  }

  /** Right after an accepted start, the new task is found and pending,
      and has no report url. */
  lemma {:induction false} StartThenStatus(tasks: Registry, body: Result<Py>, suites: seq<Suite>,
                        clock: DateTime, u: string, createTime: string, threadStarts: bool)
    requires ValidDateTime(clock)
    ensures var s := StartTest(tasks, body, suites, clock, u, createTime, threadStarts);
            s.launch.Some? ==>
              var q := GetTaskStatus(s.tasks, s.launch.value.taskId);
              && q.reply.code == 200
              && q.tasks == s.tasks
              && q.reply.data == Some(PDict(s.tasks[s.launch.value.taskId]))
              && s.tasks[s.launch.value.taskId]["status"] == PStr("pending")
  {
    var s := StartTest(tasks, body, suites, clock, u, createTime, threadStarts);
    if s.launch.Some? {
      var id := s.launch.value.taskId;
      PendingFound(s.tasks, id);
    }
  }

  /** A pending record is found and has no report yet. */
  lemma PendingFound(tasks: Registry, id: string)
    requires id in tasks && tasks[id].Keys == PendingKeys
    ensures GetTaskStatus(tasks, id).reply.code == 200
    ensures GetTaskStatus(tasks, id).tasks == tasks
    ensures GetTaskStatus(tasks, id).reply.data == Some(PDict(tasks[id]))
  {
    assert "task_id" in tasks[id];
    assert !HasReport(tasks[id]);
  }

  /** A status query keeps the registry free of report directories. */
  lemma {:induction false} StatusPreservesNoReportDir(tasks: Registry, taskId: string)
    requires NoReportDir(tasks)
    ensures NoReportDir(GetTaskStatus(tasks, taskId).tasks)
  {
  }

  // ---------------------------------------------------------------------
  // run_task_background

  /** The registry, cache and file system after the background run, and
      the exception that escaped the thread, if any. */
  datatype Finished = Finished(tasks: Registry, cache: Cache, fs: Fs, error: Option<Exc>)

  /** The record once the thread has marked it running. */
  function Running(record: Dict, startTime: string): (d: Dict)
    ensures d.Keys == record.Keys + {"status", "start_time"}
    ensures d["status"] == PStr("running") && d["start_time"] == PStr(startTime)
    ensures forall k :: k in record && k != "status" && k != "start_time" ==> d[k] == record[k]
  {
    record["status" := PStr("running")]["start_time" := PStr(startTime)]
  }

  /** What the background thread meets outside the registry, the cache
      and the file system: the working directory, the configuration, the
      `adb` path and configured atx-agent version, the outcomes of the
      bring-up runs and of pytest and allure, whether the index page
      exists, and the end-time reading. */
  datatype Surroundings = Surroundings(
    cwd: AbsPath, settings: Settings, adb: string, atx: string,
    state: Run, init: Run, version: Run,
    pytest: Run, allure: Run, indexExists: bool, now: string)

  /** Step 1: `DeviceManager.get_uiautomator_instance(device_id, task_id)`. */
  function AcquireStep(cache: Cache, deviceId: string, w: Surroundings): Acquired {
    Acquire(cache, w.adb, w.atx, deviceId, w.state, w.init, w.version)
  }

  /** Step 2: `TestExecutor(task_id, device_id, suite_abs_path)`. */
  function ExecutorStep(taskId: string, deviceId: string, suitePath: string, w: Surroundings): Result<Executor> {
    NewExecutor(w.cwd, w.settings, taskId, deviceId, suitePath)
  }

  /** Step 3: `executor.execute()` on the file system as it is. */
  function ExecuteStep(e: Executor, fs: Fs, w: Surroundings): Executed
    requires IsNormalAbs(e.htmlDir)
  {
    Execute(w.cwd, e, w.settings, fs, w.pytest, w.allure, w.indexExists, w.now)
  }

  /** The thread once the record is known to exist: the record is marked
      running, and the outcomes of acquiring the device and of building the
      executor decide between an escaping exception and merging the record
      the executor's run returned (`done`);
      the device is released either way. */
  function Settle(tasks: Registry, fs: Fs, taskId: string, deviceId: string, startTime: string,
                  acquired: Acquired, executor: Result<Executor>, done: Executed): (r: Finished)
    requires taskId in tasks
    ensures r.tasks.Keys == tasks.Keys
    ensures forall other :: other in tasks && other != taskId ==> r.tasks[other] == tasks[other]
    ensures r.cache == Release(acquired.cache, deviceId)
    ensures r.error.None? <==> acquired.result.Ok? && executor.Ok?
    ensures r.error.Some? ==>
              && r.tasks[taskId] == Running(tasks[taskId], startTime)
              && r.fs == fs
              && r.error == Some(if acquired.result.Raise? then acquired.result.exc else executor.exc)
    ensures r.error.None? ==>
              && r.fs == done.fs
              && r.tasks[taskId].Keys == tasks[taskId].Keys + {"status", "start_time"} + done.record.Keys
              && (forall k :: k in done.record ==> r.tasks[taskId][k] == done.record[k])
              && (forall k :: k in tasks[taskId] && k !in done.record && k != "status" && k != "start_time" ==>
                    r.tasks[taskId][k] == tasks[taskId][k])
  {
    var tasks1 := tasks[taskId := Running(tasks[taskId], startTime)];
    var released := Release(acquired.cache, deviceId);
    if acquired.result.Raise? then Finished(tasks1, released, fs, Some(acquired.result.exc))
    else if executor.Raise? then Finished(tasks1, released, fs, Some(executor.exc))
    else Finished(tasks1[taskId := tasks1[taskId] + done.record], released, done.fs, None)
  }

  /** `run_task_background(task_id, device_id, suite_abs_path)` on the
      registry, the device cache and the file system: an unknown task
      raises `KeyError` before anything else runs and leaves the cache
      alone; otherwise the record is marked running, the device acquired,
      the executor built and run, and its result merged into the record,
      and the device is released on every path. An exception escapes the
      thread. */
  function RunTaskBackground(tasks: Registry, cache: Cache, fs: Fs, taskId: string, deviceId: string,
                             suitePath: string, startTime: string, w: Surroundings): (r: Finished)
    ensures taskId !in tasks ==> r == Finished(tasks, cache, fs, Some(Exc(KeyError, "'" + taskId + "'")))
    ensures taskId in tasks ==>
              var acquired := AcquireStep(cache, deviceId, w);
              var executor := ExecutorStep(taskId, deviceId, suitePath, w);
              && r.tasks.Keys == tasks.Keys
              && (forall other :: other in tasks && other != taskId ==> r.tasks[other] == tasks[other])
              && r.cache == Release(acquired.cache, deviceId)
              && deviceId !in r.cache.entries
              && (r.error.None? <==> acquired.result.Ok? && executor.Ok?)
              && (r.error.Some? ==>
                    && r.tasks[taskId] == Running(tasks[taskId], startTime)
                    && r.fs == fs
                    && r.error == Some(if acquired.result.Raise? then acquired.result.exc else executor.exc))
              && (r.error.None? ==>
                    var done := ExecuteStep(executor.value, fs, w);
                    && r.fs == done.fs
                    && r.tasks[taskId].Keys == tasks[taskId].Keys + {"status", "start_time"} + done.record.Keys
                    && (forall k :: k in done.record ==> r.tasks[taskId][k] == done.record[k])
                    && (forall k :: k in tasks[taskId] && k !in done.record && k != "status" && k != "start_time" ==>
                          r.tasks[taskId][k] == tasks[taskId][k]))
  {
    if taskId !in tasks then Finished(tasks, cache, fs, Some(Exc(KeyError, "'" + taskId + "'")))
    else
      var executor := ExecutorStep(taskId, deviceId, suitePath, w);
      var done := if executor.Ok? then ExecuteStep(executor.value, fs, w) else Executed(map[], fs, []);
      Settle(tasks, fs, taskId, deviceId, startTime, AcquireStep(cache, deviceId, w), executor, done)
  }

  /** The result `execute` merges is one of its two record shapes. */
  lemma {:induction false} ExecuteStepShape(tasks: Registry, cache: Cache, fs: Fs, taskId: string, deviceId: string,
                                            suitePath: string, w: Surroundings)
    requires AcquireStep(cache, deviceId, w).result.Ok? && ExecutorStep(taskId, deviceId, suitePath, w).Ok?
    ensures var e := ExecutorStep(taskId, deviceId, suitePath, w).value;
            && IsNormalAbs(e.htmlDir)
            && ResultRecord(ExecuteStep(e, fs, w).record)
            && "allure_html_dir" !in ExecuteStep(e, fs, w).record
  {
    var e := ExecutorStep(taskId, deviceId, suitePath, w).value;
    ExecuteRecordShape(w.cwd, e, w.settings, fs, w.pytest, w.allure, w.indexExists, w.now);
  }

  /** The identity fields the launcher wrote are never overwritten by the
      background run, the start time stays, and the status is no longer
      `pending`. */
  lemma {:induction false} RunTaskKeepsIdentity(tasks: Registry, cache: Cache, fs: Fs, taskId: string, deviceId: string,
                                                suitePath: string, startTime: string, w: Surroundings, k: string)
    requires taskId in tasks && k in tasks[taskId]
    requires k == "task_id" || k == "device_id" || k == "suite_info" || k == "create_time"
    ensures var r := RunTaskBackground(tasks, cache, fs, taskId, deviceId, suitePath, startTime, w);
            && r.tasks[taskId][k] == tasks[taskId][k]
            && r.tasks[taskId]["start_time"] == PStr(startTime)
            && r.tasks[taskId]["status"] != PStr("pending")
  {
    var r := RunTaskBackground(tasks, cache, fs, taskId, deviceId, suitePath, startTime, w);
    if r.error.None? {
      ExecuteStepShape(tasks, cache, fs, taskId, deviceId, suitePath, w);
      var e := ExecutorStep(taskId, deviceId, suitePath, w).value;
      ResultRecordFields(ExecuteStep(e, fs, w).record);
    }
  }

  /** A result record has a status other than `pending` and none of the
      fields the launcher or the thread's start writes. */
  lemma ResultRecordFields(d: Dict)
    requires ResultRecord(d)
    ensures "status" in d && d["status"] != PStr("pending")
    ensures "start_time" !in d && "task_id" !in d && "device_id" !in d && "suite_info" !in d && "create_time" !in d
  {
    if d.Keys == FailKeys {
      assert d["status"].s[0] == 'f';
    } else {
      assert "success"[0] == 's' && "success_with_failure"[0] == 's';
    }
  }

  /** The background run keeps the registry free of report directories. */
  lemma {:induction false} RunTaskPreservesNoReportDir(tasks: Registry, cache: Cache, fs: Fs, taskId: string, deviceId: string,
                                                       suitePath: string, startTime: string, w: Surroundings)
    requires NoReportDir(tasks)
    ensures NoReportDir(RunTaskBackground(tasks, cache, fs, taskId, deviceId, suitePath, startTime, w).tasks)
  {
    var r := RunTaskBackground(tasks, cache, fs, taskId, deviceId, suitePath, startTime, w);
    if taskId in tasks && r.error.None? {
      ExecuteStepShape(tasks, cache, fs, taskId, deviceId, suitePath, w);
    }
  }

  /** A task whose device came up, whose executor was built, and whose
      suite, pytest run and allure run all went through keeps a report
      path, and when next queried is answered with its report url. */
  lemma {:induction false} ReportedRunGetsUrl(tasks: Registry, cache: Cache, fs: Fs, taskId: string, deviceId: string,
                                              suitePath: string, startTime: string, w: Surroundings, e: Executor)
    requires taskId in tasks
    requires AcquireStep(cache, deviceId, w).result.Ok? && ExecutorStep(taskId, deviceId, suitePath, w) == Ok(e)
    requires Prepare(e, fs).error.None? && w.pytest.Ran? && Succeeded(w.allure) && w.indexExists
    ensures var after := RunTaskBackground(tasks, cache, fs, taskId, deviceId, suitePath, startTime, w).tasks;
            && taskId in after && HasReport(after[taskId])
            && var q := GetTaskStatus(after, taskId);
               && q.reply.code == 200
               && q.tasks[taskId]["report_url"] == PStr(ReportUrl(taskId))
  {
    var r := RunTaskBackground(tasks, cache, fs, taskId, deviceId, suitePath, startTime, w);
    ExecuteStepShape(tasks, cache, fs, taskId, deviceId, suitePath, w);
    SuccessfulRunReports(e, fs, w);
    assert HasReport(r.tasks[taskId]);
  }

  /** A run whose suite, pytest and allure steps went through records its
      report directory as a non-empty report path. */
  lemma SuccessfulRunReports(e: Executor, fs: Fs, w: Surroundings)
    requires IsNormalAbs(e.htmlDir)
    requires Prepare(e, fs).error.None? && w.pytest.Ran? && Succeeded(w.allure) && w.indexExists
    ensures HasReport(ExecuteStep(e, fs, w).record)
  {
    var d := ExecuteStep(e, fs, w).record;
    assert d == SuccessResult(e, w.pytest.proc, w.now);
    assert d["report_path"] == PStr(e.htmlDir) && e.htmlDir != [];
  }
}

=== FILE: uiautomator.dfy ===
/** The `Uiautomator` device wrapper of core/uiautomator.py: bring-up as a
    fixed three-step sequence (online check, `uiautomator2 init`, atx-agent
    version query) and the thin adb commands issued afterwards. Every
    subprocess outcome is a parameter; each function reports the commands it
    issues, in order. */
module Uiautomator {
  import opened PyStr
  import opened PyValue

  /** A `Uiautomator` instance: its device id, the configured atx-agent
      version and the `initialized` flag. */
  datatype Device = Device(deviceId: string, atxVersion: string, initialized: bool)

  /** A result together with the commands issued while computing it. */
  datatype Traced<+T> = Traced(result: T, commands: seq<Argv>)

  function GetStateCmd(adb: string, id: string): Argv {
    [adb, "-s", id, "get-state"]
  }

  function InitCmd(id: string): Argv {
    ["python", "-m", "uiautomator2", "init", id]
  }

  function VersionCmd(adb: string, id: string): Argv {
    [adb, "-s", id, "shell", "/data/local/tmp/atx-agent", "version"]
  }

  function KeyeventCmd(adb: string, id: string, code: string): Argv {
    [adb, "-s", id, "shell", "input", "keyevent", code]
  }

  function TapCmd(adb: string, id: string, x: string, y: string): Argv {
    [adb, "-s", id, "shell", "input", "tap", x, y]
  }

  function DumpCmd(adb: string, id: string): Argv {
    [adb, "-s", id, "shell", "uiautomator", "dump", "/sdcard/window_dump.xml"]
  }

  function PullCmd(adb: string, id: string): Argv {
    [adb, "-s", id, "pull", "/sdcard/window_dump.xml", "/tmp/"]
  }

  /** `_is_device_online`'s verdict on a finished `adb get-state`: return
      code 0 and an output that is `device` with only whitespace around it. */
  predicate Online(p: Proc): (b: bool)
    ensures b <==> p.returncode == 0 && PaddedWord(p.stdout, "device")
  {
    StripIsPadded(p.stdout, "device");
    p.returncode == 0 && Strip(p.stdout) == "device"
  }

  /** `device` surrounded by any whitespace, with return code 0, is online. */
  lemma OnlinePadded(pre: string, post: string, stderr: string)
    requires AllSpace(pre) && AllSpace(post)
    ensures Online(Proc(0, pre + "device" + post, stderr))
  {
    StripPadded(pre, "device", post);
  }

  /** An online verdict needs return code 0 and `device` in the output. */
  lemma OnlineNeedsDevice(p: Proc)
    requires Online(p)
    ensures p.returncode == 0 && IsSubstring("device", p.stdout)
  {
    StripSlice(p.stdout);
    var i, j :| 0 <= i <= j <= |p.stdout| && Strip(p.stdout) == p.stdout[i..j];
    assert OccursAt("device", p.stdout, i);
  }

  /** `Uiautomator(device_id)`: `_init_device` runs the online check, then
      `uiautomator2 init`, then the atx-agent version query, and sets
      `initialized` only when all three pass. An exception from any step is
      re-raised, so no instance exists. */
  function BringUp(adb: string, id: string, atx: string, state: Run, init: Run, version: Run): (r: Traced<Result<Device>>)
    ensures r.result.Ok? <==> state.Ran? && Online(state.proc) && Succeeded(init) && Succeeded(version)
    ensures r.result.Ok? ==> r.result.value == Device(id, atx, true)
    ensures r.commands <= [GetStateCmd(adb, id), InitCmd(id), VersionCmd(adb, id)]
    ensures |r.commands| >= 2 <==> state.Ran? && Online(state.proc)
    ensures |r.commands| == 3 <==> state.Ran? && Online(state.proc) && Succeeded(init)
    ensures state.Ran? && !Online(state.proc) ==> r.result == Raise(Exc(ConnectionError, "设备" + id + "未在线（请检查ADB连接）"))
    ensures state.Ran? && Online(state.proc) && init.Ran? && init.proc.returncode != 0 ==>
              r.result == Raise(Exc(RuntimeError, "uiautomator2 init 执行失败（返回码：" + IntToStr(init.proc.returncode) + "）"))
    ensures state.Ran? && Online(state.proc) && Succeeded(init) && version.Ran? && version.proc.returncode != 0 ==>
              r.result == Raise(Exc(RuntimeError, "获取 atx-agent 版本失败：" + Strip(version.proc.stderr)))
  {
    var c1 := [GetStateCmd(adb, id)];
    var c2 := c1 + [InitCmd(id)];
    var c3 := c2 + [VersionCmd(adb, id)];
    if state.Failed? then Traced(Raise(state.exc), c1)
    else if !Online(state.proc) then
      Traced(Raise(Exc(ConnectionError, "设备" + id + "未在线（请检查ADB连接）")), c1)
    else if init.Failed? then Traced(Raise(init.exc), c2)
    else if init.proc.returncode != 0 then
      Traced(Raise(Exc(RuntimeError, "uiautomator2 init 执行失败（返回码：" + IntToStr(init.proc.returncode) + "）")), c2)
    else if version.Failed? then Traced(Raise(version.exc), c3)
    else if version.proc.returncode != 0 then
      Traced(Raise(Exc(RuntimeError, "获取 atx-agent 版本失败：" + Strip(version.proc.stderr))), c3)
    else Traced(Ok(Device(id, atx, true)), c3)
  }

  /** The version query's output is never compared with anything: two runs
      that differ only in their output text bring the device up alike. */
  lemma BringUpIgnoresVersionText(adb: string, id: string, atx: string, state: Run, init: Run, rc: int, out1: string, out2: string, err: string)
    ensures BringUp(adb, id, atx, state, init, Ran(Proc(rc, out1, err))).result
         == BringUp(adb, id, atx, state, init, Ran(Proc(rc, out2, err))).result
  {
    var a := BringUp(adb, id, atx, state, init, Ran(Proc(rc, out1, err)));
    var b := BringUp(adb, id, atx, state, init, Ran(Proc(rc, out2, err)));
    if a.result.Ok? {
      assert b.result.Ok?;
    } else if state.Ran? && Online(state.proc) && Succeeded(init) {
      assert rc != 0;
    }
  }

  /** A device that answers `device` passes the online check, so bring-up
      then depends only on the init and version return codes. */
  lemma BringUpOnlineDevice(adb: string, id: string, atx: string, pre: string, post: string, err: string, init: Run, version: Run)
    requires AllSpace(pre) && AllSpace(post)
    ensures BringUp(adb, id, atx, Ran(Proc(0, pre + "device" + post, err)), init, version).result.Ok?
        <==> Succeeded(init) && Succeeded(version)
  {
    OnlinePadded(pre, post, err);
  }

  /** `screen_on()`: refuses an uninitialised device; otherwise issues the
      power keyevent and answers true unless the call raised, whatever the
      return code. */
  function ScreenOn(d: Device, adb: string, run: Run): (r: Traced<Result<bool>>)
    ensures r.result.Raise? <==> !d.initialized
    ensures !d.initialized ==> r.commands == [] && r.result.exc.kind == RuntimeError
    ensures d.initialized ==> r.result == Ok(run.Ran?)
    ensures d.initialized ==> r.commands == [KeyeventCmd(adb, d.deviceId, "224")]
  {
    if !d.initialized then
      Traced(Raise(Exc(RuntimeError, "设备" + d.deviceId + "未初始化，无法执行亮屏操作")), [])
    else Traced(Ok(run.Ran?), [KeyeventCmd(adb, d.deviceId, "224")])
  }

  /** `press`'s key table. */
  const KeyCodes: map<string, int> := map["home" := 3, "back" := 4, "power" := 224]

  /** `press(key)`: a key outside the table answers false and issues
      nothing; a known key issues its keyevent, with no initialisation
      guard, and answers true unless the call raised. */
  function Press(d: Device, adb: string, key: string, run: Run): (r: Traced<bool>)
    ensures key !in KeyCodes ==> r == Traced(false, [])
    ensures key in KeyCodes ==> r.result == run.Ran?
    ensures key in KeyCodes ==> r.commands == [KeyeventCmd(adb, d.deviceId, IntToStr(KeyCodes[key]))]
  {
    if key !in KeyCodes then Traced(false, [])
    else Traced(run.Ran?, [KeyeventCmd(adb, d.deviceId, IntToStr(KeyCodes[key]))])
  }

  /** The three keys issue keycodes 3, 4 and 224; pressing power on an
      initialised device does exactly what `screen_on` does. */
  lemma PressKeyCodes(d: Device, adb: string, run: Run)
    ensures Press(d, adb, "home", run).commands == [KeyeventCmd(adb, d.deviceId, "3")]
    ensures Press(d, adb, "back", run).commands == [KeyeventCmd(adb, d.deviceId, "4")]
    ensures Press(d, adb, "power", run).commands == [KeyeventCmd(adb, d.deviceId, "224")]
    ensures d.initialized ==> Press(d, adb, "power", run).commands == ScreenOn(d, adb, run).commands
    ensures d.initialized ==> Ok(Press(d, adb, "power", run).result) == ScreenOn(d, adb, run).result
  {
    assert IntToStr(3) == "3";
    assert IntToStr(4) == "4";
    assert NatToDigits(22) == "22";
    assert IntToStr(224) == "224";
  }

  /** `check_text_exists(text)`: dump the window hierarchy, pull it, read
      it and search it; any raised call answers false. `content` is the
      read of the pulled file. */
  function CheckTextExists(d: Device, adb: string, text: string, dump: Run, pull: Run, content: Result<string>): (r: Traced<bool>)
    ensures r.result <==> dump.Ran? && pull.Ran? && content.Ok? && IsSubstring(text, content.value)
    ensures r.commands == (if dump.Ran? then [DumpCmd(adb, d.deviceId), PullCmd(adb, d.deviceId)] else [DumpCmd(adb, d.deviceId)])
  {
    if dump.Failed? then Traced(false, [DumpCmd(adb, d.deviceId)])
    else if pull.Failed? then Traced(false, [DumpCmd(adb, d.deviceId), PullCmd(adb, d.deviceId)])
    else match content
      case Raise(_) => Traced(false, [DumpCmd(adb, d.deviceId), PullCmd(adb, d.deviceId)])
      case Ok(c) => Traced(IsSubstring(text, c), [DumpCmd(adb, d.deviceId), PullCmd(adb, d.deviceId)])
  }

  /** Text that occurs in the dump is found, wherever it sits. */
  lemma CheckTextFindsOccurrence(d: Device, adb: string, pre: string, text: string, post: string, p1: Proc, p2: Proc)
    ensures CheckTextExists(d, adb, text, Ran(p1), Ran(p2), Ok(pre + text + post)).result
  {
    var c := pre + text + post;
    assert c[|pre|..|pre| + |text|] == text;
    assert OccursAt(text, c, |pre|);
  }

  /** `click(x, y)`: non-integer coordinates answer false and issue
      nothing; otherwise a tap is issued and the answer is true unless the
      call raised. */
  function Click(d: Device, adb: string, x: Py, y: Py, run: Run): (r: Traced<bool>)
    ensures !(IsPyInt(x) && IsPyInt(y)) ==> r == Traced(false, [])
    ensures IsPyInt(x) && IsPyInt(y) ==> r.result == run.Ran? && r.commands == [TapCmd(adb, d.deviceId, PyIntStr(x), PyIntStr(y))]
  {
    if !(IsPyInt(x) && IsPyInt(y)) then Traced(false, [])
    else Traced(run.Ran?, [TapCmd(adb, d.deviceId, PyIntStr(x), PyIntStr(y))])
  }

  /** The tap command carries the integer coordinates so that `int()` on
      its last two arguments gives them back. */
  lemma {:induction false} ClickCoordinatesRoundTrip(d: Device, adb: string, x: int, y: int, p: Proc)
    ensures var c := Click(d, adb, PInt(x), PInt(y), Ran(p)).commands;
            |c| == 1 && |c[0]| == 8 && ParseInt(c[0][6]) == Some(x) && ParseInt(c[0][7]) == Some(y)
  {
    IntRoundTrip(x);
    IntRoundTrip(y);
  }
}
